=== FILE: README.md ===
# boatrace-vote core, modelled in Dafny

This project models the decision logic of a small betting service for Japanese
boat races. The service crawls the official race pages into JSON feeds. It
parses the feeds into tables, keeps a daily race list (the ledger) with the
timestamps of the work done for each race, and picks the next race to crawl,
vote on or settle. It then chooses tickets by expected return, settles a race
against its odds and payoffs, and sums up the result of a day's votes.

The model has three parts:

- **Feed parser** (`text.dfy`, `clock.dfy`, `patterns.dfy`, `vocab.dfy`,
  `parsers.dfy`, `feed.dfy`). This covers Python's `int()`, `float()`,
  `strip`, `split`, `replace` and `strptime` on the forms the feed uses; the
  regular expressions as position matchers under a leftmost `re.search`; the
  closed vocabularies; the nine record parsers, each returning
  `Result<Entity, ParseError>`; and the batch driver as an imperative loop.
- **Ledger rules** (`ledger.dfy`). These are the four race-selection rules,
  the remaining-work filters, the building of the day's list, and the
  one-cell timestamp updates. The ledger is an `array` that the crawl steps
  update in place.
- **Settlement and voting** (`settlement.dfy`, `vote.dfy`, `vote_result.dfy`).
  These are the settlement branches and the ledger update, ticket selection
  with a dense odds rank, and the evaluation of votes against payoffs.

`tables.dfy` models the few pandas operations the core relies on:

- a stable sort by key columns, with nulls last;
- `drop_duplicates`, which keeps the first row;
- row masks;
- a left `merge`, in which nulls match nulls;
- `sum`, and a count of the rows a mask keeps.

Design choices:

- Timestamps are whole seconds on the proleptic Gregorian time line.
- Floating-point values are exact `real`s.
- A pandas row label is the row's position in the ledger.

## Model

| member | source | states |
|---|---|---|
| Text.ParseInt | boatrace_vote/utils.py:362 | a non-empty run of ASCII or full-width digits reads as its decimal value; text that is blank once stripped is refused |
| Text.ParseIntRoundTrip | boatrace_vote/utils.py:493 | the decimal rendering of a race round reads back as that round |
| Text.ParseFloat | boatrace_vote/utils.py:403-405 | `float()` succeeds only on text holding at least one digit once stripped |
| Text.ParseFloatDecimal | boatrace_vote/utils.py:433 | `float("ip.fp")` is the decimal `ip.fp` |
| Text.HundredthsValue | boatrace_vote/utils.py:575 | `float("0.dd")` is `dd` hundredths |
| Text.Strip | boatrace_vote/utils.py:500 | `strip()` leaves no whitespace at either end, is no longer than the text, and is empty exactly when the text is all whitespace |
| Text.StripSpec | boatrace_vote/utils.py:500 | a text is `strip()` of `s` exactly when it has no whitespace at either end and only whitespace surrounds it in `s` |
| Text.StripCuts | boatrace_vote/utils.py:500 | what `strip()` returns is a slice of `s` with only whitespace before and after it |
| Text.StripUnique | boatrace_vote/utils.py:500 | any trimmed slice of `s` with only whitespace around it is `strip()` of `s` |
| Text.Split | boatrace_vote/utils.py:371 | `split("/")` gives separator-free parts that join back to the text |
| Text.Replace | boatrace_vote/utils.py:388 | `replace` leaves text without the pattern unchanged |
| Text.ReplaceLeftmost | boatrace_vote/utils.py:388 | `replace` substitutes the leftmost occurrence and carries on after it, so occurrences are replaced left to right without overlap |
| Clock.ParseYmd | boatrace_vote/utils.py:496 | `%Y%m%d` reads only eight ASCII digits that form an existing date |
| Clock.ParseHourMinute | boatrace_vote/utils.py:496 | `%H:%M` gives an hour below 24 and a minute below 60 |
| Clock.StartDatetime | boatrace_vote/utils.py:496 | the start time parses exactly when the day and the time both parse, and it falls within that day |
| Clock.ParseSlashDate | boatrace_vote/utils.py:766 | `%Y/%m/%d` yields only dates that exist |
| Patterns.Search | boatrace_vote/utils.py:365 | `re.search` answers the leftmost position where the pattern matches, and nothing when no position matches |
| Patterns.SearchGroups | boatrace_vote/utils.py:472 | a search succeeds exactly when some position matches, and returns the groups of a match |
| Patterns.QueryAt | boatrace_vote/utils.py:359 | the race-URL query yields a non-empty round, a two-digit place and an eight-digit day |
| Patterns.CrawlUrl | boatrace_vote/find_vote_race.py:65 | the crawl URL is a race-card (`racelist?`) page URL |
| Patterns.CrawlUrlRoundTrip | boatrace_vote/crawl_loop.py:22-26 | the crawl URL, whatever fragment is appended, parses back to the same groups, and the parsers' `race_id` equals the crawl side's `day_place_round` |
| Patterns.FirstLiteralAt | boatrace_vote/utils.py:697 | an alternation group takes the first alternative that occurs at the position, and fails only when none does |
| Patterns.OddsBetType | boatrace_vote/utils.py:711-726 | an odds page and fragment give a bet type from 1 to 7 |
| Patterns.OddsPageOf | boatrace_vote/utils.py:711-726 | every bet type has a page and fragment that read back as that bet type |
| Patterns.OddsBetTypeInverse | boatrace_vote/utils.py:711-726 | a bet type read from an odds page is the one that page carries |
| Patterns.RaceIndexUrlAt | boatrace_vote/utils.py:311 | the meeting URL yields a two-character place and an eight-character day |
| Patterns.SearchRaceIndexId | boatrace_vote/utils.py:322-324 | a meeting id is `day_place`: eleven characters with `_` at position 8 |
| Patterns.FourDigitsAt | boatrace_vote/utils.py:757 | `([0-9]{4})` captures four ASCII digits |
| Patterns.SearchFourDigits | boatrace_vote/utils.py:796-798 | the racer id is four ASCII digits |
| Patterns.BoatColorAt | boatrace_vote/utils.py:426 | `is-boatColor([0-9])` captures one digit |
| Patterns.SearchBoatColor | boatrace_vote/utils.py:472-474 | a boat colour is a value from 0 to 9 |
| Patterns.PairAt | boatrace_vote/utils.py:594-595 | a two-boat combination captures two single digits |
| Patterns.SearchPair | boatrace_vote/utils.py:639-642 | a matched two-boat combination gives two boats from 0 to 9 |
| Patterns.TripleAt | boatrace_vote/utils.py:596-597 | a three-boat combination captures three single digits |
| Patterns.SearchTriple | boatrace_vote/utils.py:663-667 | a matched three-boat combination gives three boats from 0 to 9 |
| Patterns.ResultTimeAt | boatrace_vote/utils.py:510 | the race-time pattern captures three non-empty digit runs |
| Patterns.SearchResultTime | boatrace_vote/utils.py:547 | a matched race time gives three non-empty digit runs |
| Patterns.LineEnd | boatrace_vote/utils.py:559 | `.*` stops at the first newline |
| Patterns.StartTimingAt | boatrace_vote/utils.py:559 | the start column captures `.dd` and a newline-free rest |
| Patterns.SearchStartTiming | boatrace_vote/utils.py:572 | a matched start timing is `.` followed by two ASCII digits |
| Patterns.OddsRun | boatrace_vote/utils.py:698 | `[\.0-9]+` runs until the first character outside the class |
| Patterns.OddsPairAt | boatrace_vote/utils.py:745 | an odds range captures two non-empty runs |
| Patterns.LengthTailAt | boatrace_vote/utils.py:482 | `([0-9]+)m` captures a non-empty digit run |
| Patterns.CourseSplitAt | boatrace_vote/utils.py:482 | the lazy name group is non-empty and newline-free, and the length is digits |
| Patterns.SearchCourseLength | boatrace_vote/utils.py:498-501 | a matched course line gives a non-empty digit length |
| Patterns.S3Key | boatrace_vote/vote_race.py:18-19 | the extracted key is a newline-free suffix of the URL |
| Patterns.S3KeyRoundTrip | boatrace_vote/create_racelist.py:16-17 | for `s3://<bucket>/<k>` with an ASCII word-character bucket, the extracted key is exactly `k` |
| Patterns.RacelistKey | boatrace_vote/create_racelist.py:25-38 | the returned key is exactly the folder followed by `/df_racelist.joblib`: it starts with the folder, ends with that name and has their combined length |
| Vocabulary.CodeIn | boatrace_vote/utils.py:608-623 | a vocabulary token's code is its position offset by the first code; an unknown token has no code |
| Vocabulary.CodeInEntry | boatrace_vote/utils.py:608-623 | in a repeat-free vocabulary, entry `i` has code `first + i` |
| Vocabulary.VocabulariesDistinct | boatrace_vote/utils.py:436-457 | no vocabulary repeats a token, so the codes are injective |
| Vocabulary.ClassCode | boatrace_vote/utils.py:374-383 | A1/A2/B1/B2 are 1..4, and anything else raises |
| Vocabulary.ProfileClassCode | boatrace_vote/utils.py:785-794 | A1級..B2級 are 1..4, and anything else raises |
| Vocabulary.ClassCodesAgree | boatrace_vote/utils.py:785-794 | the race card and the profile page code each class alike |
| Vocabulary.BloodTypeCode | boatrace_vote/utils.py:774-783 | A/B/O/AB型 are 1..4, and anything else raises |
| Vocabulary.BetTypeCode | boatrace_vote/utils.py:608-623 | the seven bet-type names are 1..7, and anything else raises |
| Vocabulary.FaultCode | boatrace_vote/utils.py:436-457 | the 11 fault marks are -1..-11, each its own code |
| Vocabulary.ResultCode | boatrace_vote/utils.py:436-459 | a fault mark gives a negative code, and any other cell goes through `int()` |
| Vocabulary.FaultCodeEntry | boatrace_vote/utils.py:516-537 | fault mark `i` codes to `-(i+1)`, so no two marks are confused |
| Vocabulary.ResultCodeDigits | boatrace_vote/utils.py:459 | a position written in digits codes to its value, which is at least 0 and never meets a fault code |
| Vocabulary.DigitsNotFault | boatrace_vote/utils.py:539 | no fault mark starts with a digit |
| Vocabulary.GradeCode | boatrace_vote/utils.py:332-343 | the grade is the first mark, in the order ippan, G3, G2, G1, SG, that the class contains as a substring; none means an error |
| Vocabulary.GradeMarkCode | boatrace_vote/utils.py:332-341 | each grade mark alone reads back as its grade |
| Parsers.Field | boatrace_vote/utils.py:314 | `json_data[name][0]` succeeds exactly when the field has a first value |
| Parsers.Int | boatrace_vote/utils.py:362 | the parser's `int()` fails exactly when Python's raises |
| Parsers.Float | boatrace_vote/utils.py:403 | the parser's `float()` fails exactly when Python's raises |
| Parsers.Part | boatrace_vote/utils.py:372 | indexing a split fails exactly when there are too few parts |
| Parsers.RaceUrlField | boatrace_vote/utils.py:365-369 | the race URL groups are found, or the parser raises |
| Parsers.IndexIds | boatrace_vote/utils.py:321-326 | each meeting day URL gives its `day_place` id, in list order |
| Parsers.SortedHeadLeast | boatrace_vote/utils.py:328-329 | `sorted(ids)[0]` is the least id in Python's string order |
| Parsers.LinkAll | boatrace_vote/utils.py:345-353 | one link row per day, in order, each tying the day to the meeting id |
| Parsers.ParseRaceIndex | boatrace_vote/utils.py:310-355 | place id, place name and race name are their fields; the meeting id is the least day id, and every day is linked to it in sorted order; the grade follows the grade rule; an unmatched or empty URL list and an unknown grade raise; when every field is present, every URL matches and the grade is known, the meeting is built |
| Parsers.DashOr | boatrace_vote/utils.py:389-392 | `-` means no value; any other text is `float()` of the text with the unit removed, and fails exactly when that `float()` does |
| Parsers.RacerData1 | boatrace_vote/utils.py:371-383 | the racer id is the first part, and the class code comes from the second; it succeeds whenever there are two parts and the class is known |
| Parsers.RacerData2 | boatrace_vote/utils.py:385-392 | branch and birthplace are the first two parts, the age is `int()` of the third without 歳, and the weight is null exactly for `-` and otherwise `float()` of the fourth without kg; it succeeds whenever the four parts are there and those conversions succeed |
| Parsers.RacerData3 | boatrace_vote/utils.py:394-400 | flying and late counts are `int()` of the parts without F/L, and the average start timing is null exactly for `-` and otherwise `float()` of the third part; it succeeds whenever the three parts are there and those conversions succeed |
| Parsers.Rates | boatrace_vote/utils.py:402-410 | three `/`-separated rates, each `float()` of its part; it succeeds whenever the three parts are there and parse |
| Parsers.Equipment | boatrace_vote/utils.py:412-420 | motor or boat number and two rates, from the three parts; it succeeds whenever the three parts are there and parse |
| Parsers.RacerRates | boatrace_vote/utils.py:402-420 | the overall and current-place rates and the motor and boat groups are what the rate and equipment readers give for their fields, and it succeeds exactly when all four readers do |
| Parsers.ParseRaceBracket | boatrace_vote/utils.py:358-422 | the bracket number is `int()` of its field; `race_id` comes from the race-card URL, and a URL that does not match raises; every other field is what the `racer_data1`/`2`/`3` readers and the rate readers give; when the bracket number parses, the URL matches and every reader succeeds, the line is built |
| Parsers.SingleDigitInt | boatrace_vote/utils.py:362 | `int()` of one ASCII or full-width digit is its value, so `int("２") == 2` |
| Parsers.ResultField | boatrace_vote/utils.py:436-459 | the result cell parses exactly when it is a fault mark or an integer |
| Parsers.ResultHeader | boatrace_vote/utils.py:429-434 | bracket number, run number and round are `int()` of their fields, and the start timing is `float("0" + text)`; it succeeds whenever the four fields are there and parse |
| Parsers.ApproachCourse | boatrace_vote/utils.py:461-464 | a no-break space means no course, and anything else is `int()`; it succeeds exactly for a no-break space or an integer |
| Parsers.ResultTail | boatrace_vote/utils.py:461-476 | the approach course is null exactly for a no-break space and otherwise `int()` of the cell; the link is the race-card URL, and the colour is the matched digit 0..9; it succeeds whenever the course reads, the URL matches and the colour is found |
| Parsers.ParseRaceBracketResult | boatrace_vote/utils.py:425-478 | bracket number, run number, round and start timing as the header rule reads them; result code, approach course as `int()` of the cell, `race_id` from the URL, and boat colour 0..9; a fault mark gives a negative result; it succeeds exactly when the header, result and tail readers all do |
| Parsers.StartField | boatrace_vote/utils.py:496 | the start is `strptime` of the URL's date and the start-time text, and it succeeds exactly when that text is there and parses |
| Parsers.CourseField | boatrace_vote/utils.py:498-503 | the subtitle is the stripped text before the digits and the length is `int()` of the digits before `m`; it succeeds exactly when the pattern matches and the digits parse |
| Parsers.ParseRaceInfo | boatrace_vote/utils.py:481-505 | `race_id`, round and place from the URL groups; a start time within the URL's day; the course name stripped and the length parsed; an unmatched URL raises, and with a matching URL it succeeds exactly when the start time and the course read |
| Parsers.ResultTime | boatrace_vote/utils.py:547-553 | `m'ss"t` is `60m + s + t/10` seconds, a blank cell is null, and other text raises; it succeeds exactly for a match or a blank cell |
| Parsers.TimeOf | boatrace_vote/utils.py:549 | the computed race time is the value of the three digit groups |
| Parsers.ParseRaceResult | boatrace_vote/utils.py:508-555 | the bracket number is `int()` of its field; result code, `race_id` from the result-page URL, and the race time as above; an unmatched URL raises; when every column reads, the result is built |
| Parsers.StartColumn | boatrace_vote/utils.py:572-588 | `.dd` gives a timing in [0, 1) in hundredths and the rest, stripped, as the winning move, none when it is empty; `L` gives neither, and anything else raises; a match or `L` always succeeds |
| Parsers.ParseRaceResultStart | boatrace_vote/utils.py:558-590 | the bracket number is `int()` of its field; `race_id` from the URL; the start timing and the winning move are what the start-column rule reads from `start_time`, the timing present exactly when the pattern matches and otherwise the cell is `L`; when every column reads, the start is built |
| Parsers.PayoffBrackets | boatrace_vote/utils.py:625-681 | bet types 1..7 name 1/1/2/2/2/3/3 boats, read with `=` for types 3, 5, 7 and `-` for types 4, 6; it succeeds exactly when the bet type's pattern matches |
| Parsers.PayoffBracketsRoundTrip | boatrace_vote/utils.py:625-681 | every combination text reads back as its boats |
| Parsers.PayoffAmount | boatrace_vote/utils.py:688-691 | a no-break space is null, and otherwise the value is the yen amount without `¥` and `,`, divided by 100, which succeeds exactly when those digits parse |
| Parsers.PayoffDigits | boatrace_vote/utils.py:691 | a payoff cell that starts with `¥` and leaves digits `d` once `¥` and `,` are removed pays `d`/100 per yen |
| Parsers.PayoffAmountPlain | boatrace_vote/utils.py:691 | `¥a` pays `a`/100 per yen |
| Parsers.PayoffAmountGrouped | boatrace_vote/utils.py:691 | `¥a,bbb` pays (1000·`a` + `bbb`)/100 per yen, so `¥1,450` is 14.5 |
| Parsers.PayoffBracketField | boatrace_vote/utils.py:625-681 | 不成立 and 特払 name no boats, and any other text is read by the bet type's bracket rule; it succeeds for those two words and whenever the rule does |
| Parsers.FavoriteField | boatrace_vote/utils.py:683-686 | the favourite is null exactly when the cell is blank once stripped, and otherwise `int()` of the cell; a blank or integer cell always succeeds |
| Parsers.PayoffField | boatrace_vote/utils.py:688-691 | whenever the column is there, the result is the payoff amount of the cell: null exactly for a no-break space |
| Parsers.PayoffTail | boatrace_vote/utils.py:683-691 | the favourite and the payoff are what their column readers give, and it succeeds exactly when both do |
| Parsers.ParseRacePayoff | boatrace_vote/utils.py:593-693 | `race_id` from the URL and the bet-type code; 不成立/特払 give no boats, otherwise boats follow the bet type's arity; favourite and payoff as their column readers give; an unknown bet type raises; when the URL matches, the bet type is known and the bracket and tail readers succeed, the line is built |
| Parsers.RacePayoffValues | boatrace_vote/utils.py:683-691 | a parsed payoff line's favourite is null exactly when blank and otherwise `int()` of the cell, and its payoff is the payoff amount of its cell |
| Parsers.OddsBrackets | boatrace_vote/utils.py:730-738 | types 1–2 read one boat, 3–5 two, and 6–7 three, each `int()` of its `bracket_number_k` field; it succeeds whenever the fields the bet type needs are there and parse |
| Parsers.OddsValues | boatrace_vote/utils.py:740-751 | `欠場` gives no odds; types 1 and 4–7 give `float()` of the cell and raise exactly when it fails; types 2 and 3 give `float()` of both ends of an `a-b` range, succeeding when both parse, and an unmatched range drops the line instead of raising |
| Parsers.ParseRaceOdds | boatrace_vote/utils.py:696-753 | a record without `odds` gives none; `race_id` comes from groups 4_3_2, the bet type from page plus fragment; the boats and the odds are what the bracket and odds rules read for that bet type; an unknown URL or a page without a fragment raises; when the URL and bet type are known and both rules succeed, it succeeds |
| Parsers.WithUnit | boatrace_vote/utils.py:767-768 | a number with its unit removed; it succeeds exactly when the field is there and that number parses |
| Parsers.ProfileCodes | boatrace_vote/utils.py:774-794 | blood type and class codes; an unknown blood type raises; known codes always succeed |
| Parsers.RacerIdField | boatrace_vote/utils.py:796-800 | the racer id is the first four-digit run of its field, and it succeeds exactly when there is one |
| Parsers.Personal | boatrace_vote/utils.py:763-772 | name, kana, branch and birthplace are their fields; height, weight and debut are `int()` without cm/kg/期; the birthday is a valid `%Y/%m/%d` date; it succeeds whenever those fields are there and parse |
| Parsers.ParseRacerProfile | boatrace_vote/utils.py:756-802 | no `racer_id` gives none; otherwise the profile holds what the personal, code and racer-id readers give, and when those readers succeed the profile is built |
| Parsers.ProfileValues | boatrace_vote/utils.py:763-800 | every field of a parsed profile is read from its own column: names and places as written, numbers by `int()` without their unit, a valid birthday, the blood-type and class codes, and a four-digit id |
| Parsers.BracketRaceIdFromCrawl | boatrace_vote/crawl_loop.py:22-26 | a race-card record crawled from a ledger row's URL carries the `race_id` the crawler composed |
| Feed.Classify | boatrace_vote/utils.py:820-859 | each of the nine kinds is assigned exactly to the URLs with its page prefix and, for the race pages, its fragment |
| Feed.CrawlUrlIsBracket | boatrace_vote/crawl_loop.py:26 | the crawl URL with `#bracket` goes to the race-card parser |
| Feed.OkValue | boatrace_vote/utils.py:861-863 | a failing parser contributes nothing |
| Feed.OkSome | boatrace_vote/utils.py:849-856 | a `None` from the odds or profile parser is not appended |
| Feed.ParsedComplete | boatrace_vote/utils.py:818-863 | every entity a record of the kind parses to is collected |
| Feed.ParsedSound | boatrace_vote/utils.py:818-863 | every collected entity is what some record of the kind parsed to |
| Feed.ParsedAppend | boatrace_vote/utils.py:861-863 | a failing record does not stop the batch: later records are parsed as if it were absent |
| Feed.ParsedStep | boatrace_vote/utils.py:818-863 | one loop step appends at most the current record's entity |
| Feed.PayoffKeyCollapses | boatrace_vote/utils.py:892 | as written, a win and a place payoff on the same boat share the key and the place line is dropped; with the bet type in the key both stay |
| Feed.WrittenKeyDropsPlace | boatrace_vote/utils.py:892 | as written, the place line of the win/place pair is dropped |
| Feed.BetTypeKeyKeepsBoth | boatrace_vote/utils.py:892 | with the bet type in the key, the win/place pair both stay, in bet-type order |
| Feed.ParseFeedWith | boatrace_vote/utils.py:818-904 | the driver loop's eight frames are the deduplicated, sorted tables of what each kind's parser returned |
| Feed.ParseFeed | boatrace_vote/utils.py:805-906 | the same for the real parsers, with the payoff table keyed including the bet type |
| Feed.FrameEmpty | boatrace_vote/utils.py:866-869 | a frame is `None` exactly when no record of its kind parsed |
| Feed.FrameRows | boatrace_vote/utils.py:866-904 | otherwise the frame is strictly ascending by key, and each row comes from a record of its kind |
| Feed.FrameKeysComplete | boatrace_vote/utils.py:866-904 | every parsed entity's key has a row in its frame |
| Tables.SortByPermutes | boatrace_vote/utils.py:867 | `sort_values` reorders the rows without adding or losing any |
| Tables.SortBySorted | boatrace_vote/utils.py:867 | `sort_values` orders rows ascending by key, with nulls last |
| Tables.DedupKeys | boatrace_vote/utils.py:867 | `drop_duplicates` keeps every key once |
| Tables.DedupFirst | boatrace_vote/utils.py:867 | `drop_duplicates` keeps the first row of each key |
| Tables.TableOfSpec | boatrace_vote/utils.py:866-869 | an empty list gives `None`; otherwise the frame is strictly sorted and each row is the first with its key |
| Tables.FilterMembers | boatrace_vote/utils.py:208 | a mask keeps exactly the rows that pass it |
| Tables.FilterMultiset | boatrace_vote/utils.py:208 | a mask keeps each passing row as often as it occurs and drops every other row |
| Tables.FilterSubMultiset | boatrace_vote/utils.py:208 | a masked frame's rows are a sub-multiset of the frame's |
| Tables.FilterCount | boatrace_vote/utils.py:208 | a mask keeps as many rows as pass it |
| Tables.FilterSorted | boatrace_vote/utils.py:207-212 | masking a sorted frame leaves it sorted |
| Tables.FilterAgree | boatrace_vote/utils.py:267 | two masks that agree on every row of a frame select the same rows |
| Tables.LeftJoinUnique | boatrace_vote/vote_result.py:63-67 | with unique right keys, a left merge keeps one row per left row, in order, paired with the right row its key meets |
| Tables.LeftJoinPreserves | boatrace_vote/payoff_race.py:144-147 | a property of every left row joined with no right row or with any right row holds for every merged row |
| Tables.CountMonotone | boatrace_vote/vote_result.py:86-87 | a weaker mask keeps at least as many rows |
| Tables.CountIndices | boatrace_vote/vote_result.py:86-87 | `len(df.query(p))` is the number of row positions that pass `p` |
| Tables.SumFilterZero | boatrace_vote/vote_result.py:89 | rows outside a mask that add nothing to a column sum can be dropped from it |
| Ledger.Labelled | boatrace_vote/crawl_loop.py:83 | each ledger row carries its own position as its label |
| Ledger.MasksKeep | boatrace_vote/utils.py:207-212 | two masks on any reordering of the ledger keep exactly the rows that pass both, with their labels |
| Ledger.LatestOf | boatrace_vote/utils.py:207-217 | sorting, masking and taking `tail(1)` gives a passing row with the latest start, and none exactly when nothing passes |
| Ledger.LastOf | boatrace_vote/find_vote_race.py:33-46 | masking in ledger order and taking `tail(1)` gives a passing row with no passing row after it, and none exactly when nothing passes |
| Ledger.FindVoteRace | boatrace_vote/utils.py:196-219 | the picked race has no vote and starts no later than now+5min; no such race starts later; none exactly when no race qualifies |
| Ledger.FindPayoffRace | boatrace_vote/utils.py:222-245 | the picked race has no `payoff_timestamp` and started no later than now−10min; no such race starts later; none exactly when no race qualifies |
| Ledger.VoteTarget | boatrace_vote/find_vote_race.py:32-48 | the picked race has no vote and starts strictly before now+10min; no later race in the list qualifies; none exactly when none qualifies |
| Ledger.SettleTarget | boatrace_vote/payoff_race.py:33-50 | the picked race has a vote, no result, and started strictly before now−15min; no later race qualifies; none exactly when none qualifies (`find_payoff_race.py` applies the same filter) |
| Ledger.CrawlRaceBefore | boatrace_vote/crawl_loop.py:52-83 | with no race found, the ledger is untouched; otherwise only the found row's `vote_timestamp` becomes now |
| Ledger.CrawlRaceAfter | boatrace_vote/crawl_loop.py:112-143 | with no race found, the ledger is untouched; otherwise only the found row's `payoff_timestamp` becomes now |
| Ledger.VoteProgress | boatrace_vote/crawl_loop.py:83 | a vote step sets a timestamp that was null: one race fewer awaits a vote, and the same race is never picked again |
| Ledger.PayoffProgress | boatrace_vote/crawl_loop.py:143 | the same for the post-race crawl, which does not require a vote first |
| Ledger.RemainingRacelist | boatrace_vote/crawl_loop.py:170 | keeps exactly the rows with no vote or no payoff timestamp |
| Ledger.RemainingDone | boatrace_vote/utils.py:301 | once every race is voted and paid off, nothing remains |
| Ledger.PendingIds | boatrace_vote/utils.py:250 | the `race_id`s of the unvoted (or voted but unpaid) rows |
| Ledger.WithIds | boatrace_vote/utils.py:267 | `isin` keeps exactly the rows whose race is listed, each as often as the ledger holds it |
| Ledger.WithIdsSorted | boatrace_vote/utils.py:291 | the `isin` filter keeps the ledger's order: a ledger sorted by start time gives a racelist sorted by start time |
| Ledger.KeysContaining | boatrace_vote/utils.py:262-264 | the list of keys containing the feed name is non-empty exactly when some stored key contains it |
| Ledger.WithFeed | boatrace_vote/utils.py:260-265 | a pending race is a target exactly when its stage's feed file name occurs in a stored key |
| Ledger.FeedRacelist | boatrace_vote/utils.py:258-267 | the target list holds exactly the pending races whose stage's feed file name occurs in a stored key; the rows are the `isin` filter of the ledger by that list, which is the ledger masked by "some row of the race is pending and its feed is stored", in ledger order |
| Ledger.NotVotedRacelist | boatrace_vote/utils.py:248-269 | the ledger masked, in order and with multiplicity, to the rows of unvoted races whose `_before.json` feed is stored |
| Ledger.NotPaidoffRacelist | boatrace_vote/utils.py:272-293 | the ledger masked, in order and with multiplicity, to the rows of voted, unpaid races whose `_after.json` feed is stored |
| Ledger.FeedRacelistUnique | boatrace_vote/utils.py:267 | with one row per race, a row is kept only when it is itself pending |
| Ledger.FeedUrlKey | boatrace_vote/crawl_loop.py:24 | the key of the stored feed URL is the folder plus `race_<id><suffix>.json` |
| Ledger.CrawledFeedFound | boatrace_vote/utils.py:261-262 | a stored crawl's key makes the race count as having its feed |
| Ledger.ExtractRacelist | boatrace_vote/create_racelist.py:55-74 | rows start within the target day, are exactly the fresh entries of the races on that day with one row per such race, ascend by start, and have every timestamp null |
| Ledger.ExtractWindow | boatrace_vote/create_racelist.py:56-59 | every row the query keeps starts within the target day |
| Ledger.ExtractOrder | boatrace_vote/create_racelist.py:59 | the sort leaves the rows ascending by start time |
| Ledger.ExtractMembers | boatrace_vote/create_racelist.py:56-61 | the rows are exactly the fresh entries of the races starting on the day |
| Ledger.ExtractCount | boatrace_vote/create_racelist.py:56-61 | the list has one row per race starting on the day, duplicates included |
| Settlement.WinOddsOf | boatrace_vote/payoff_race.py:135-142 | exactly the win (bet type 1) odds rows, renamed |
| Settlement.WinPayoffsOf | boatrace_vote/payoff_race.py:150-156 | exactly the win payoff rows, renamed |
| Settlement.WinOddsRenamed | boatrace_vote/payoff_race.py:135-142 | the win odds are the bet-type-1 rows renamed, one for one and in order |
| Settlement.WinPayoffsRenamed | boatrace_vote/payoff_race.py:150-156 | the win payoffs are the bet-type-1 rows renamed, one for one and in order |
| Settlement.SettleVotes | boatrace_vote/payoff_race.py:144-166 | every settled row has a payoff, never a null one, and its amount is stake × payoff |
| Settlement.SettleVotesUnique | boatrace_vote/payoff_race.py:144-166 | with unique win lines, each vote row is settled once, in order, with its own boat's payoff, or 0.0 when there is none |
| Settlement.Settlement | boatrace_vote/payoff_race.py:105-166 | not voted ⇔ no `vote_timestamp`; voided ⇔ voted with no odds, with zero odds and amounts; no votes ⇔ voted with odds and an empty vote table; return 0 outside the paid branch |
| Settlement.SettlementAsWritten | boatrace_vote/payoff_race.py:109-119 | the step fails exactly on a voted race with no odds, and otherwise agrees with the corrected decision |
| Settlement.CancelledRace | boatrace_vote/payoff_race.py:111 | as written, a cancelled race raises on the unbound `df_vote`; as intended, it settles voided with a zero return |
| Settlement.RowOf | boatrace_vote/payoff_race.py:169 | `.index[0]` is the first row of the race, or none when no row has that race |
| Settlement.PayoffRace | boatrace_vote/payoff_race.py:99-174 | not voted: the ledger is unchanged; otherwise only the race's first row gets `result_timestamp` = now and `return_amount` = the return, and the vote table is returned; a race with no ledger row is an error that changes nothing; the cancelled-race branch settles as intended (voided, zero return), see Findings |
| Settlement.SettleProgress | boatrace_vote/payoff_race.py:169-172 | with one row per race, the written row is the one selected; afterwards it is never selected again, and one race fewer awaits settlement |
| Voting.MergePredAndOdds | boatrace_vote/vote_race.py:62-71 | only rows of the given race remain |
| Voting.MergeSound | boatrace_vote/vote_race.py:63-69 | with unique odds keys, every merged row is one of the race's predictions with its own ticket's odds, nulls matching nulls |
| Voting.MergeComplete | boatrace_vote/vote_race.py:63-69 | with unique odds keys, every prediction of the race appears in the merge with its own ticket's odds |
| Voting.DenseRankRange | boatrace_vote/vote_race.py:85 | a present odds value ranks from 1 to the number of distinct odds |
| Voting.DenseRankStrict | boatrace_vote/vote_race.py:85 | strictly smaller odds rank strictly lower (equal odds share a rank by construction) |
| Voting.DenseRankOnto | boatrace_vote/vote_race.py:85 | every rank from 1 to the number of distinct odds is taken: no gaps |
| Voting.SelectVotes | boatrace_vote/vote_race.py:89-92 | a row is selected exactly when its odds are present and it clears all three thresholds; each selected row has stake 1 |
| Voting.SelectVotesFilter | boatrace_vote/vote_race.py:89-92 | the votes are the rows that clear the thresholds, bought one for one and in order |
| Voting.ExpectedReturnVote | boatrace_vote/vote_race.py:74-94 | the output is the rows that clear the thresholds, with rank = dense rank, expected return = probability × odds within range, and stake 1; rows with missing odds are excluded |
| VoteResults.MergeVoteAndPayoff | boatrace_vote/vote_result.py:55-74 | every row keeps a vote of the input, and its amount is stake × payoff, missing exactly when the payoff is |
| VoteResults.MergeUnique | boatrace_vote/vote_result.py:63-67 | with unique payoff keys, one row per vote, in order, with its own ticket's payoff |
| VoteResults.MergeNonNegative | boatrace_vote/vote_result.py:63-70 | non-negative payoffs stay non-negative through the merge |
| VoteResults.EvaluateVote | boatrace_vote/vote_result.py:77-96 | the vote count is the number of rows with a positive stake, the hit count the number with a positive payoff amount, and profit = income − cost |
| VoteResults.IncomeFromHits | boatrace_vote/vote_result.py:86-89 | with no negative amount, the income is the sum of the hits' amounts: missed rows and rows without an amount add nothing |
| VoteResults.HitsAtMostVotes | boatrace_vote/vote_result.py:86-87 | with non-negative payoffs, every hit was staked, so hits ≤ votes |
| VoteResults.MergeHitsAtMostVotes | boatrace_vote/vote_result.py:86-87 | the same for the evaluation of a merge |
| VoteResults.EvaluateUnique | boatrace_vote/vote_result.py:86-89 | with unique payoff keys, the vote count and the cost are those of the votes alone, the hits are the votes whose own ticket paid a positive amount, and the income is the sum of what each vote's ticket returned |

## Left out

- Object storage, files and serialisation are left out. This covers S3
  listing and reads, joblib, CSV and the parameter files. Listed object keys
  and downloaded frames are parameters instead.
- Process orchestration is left out: the crawl subprocess, the polling
  loops, `vote_loop.py` and the `while` loop of `vote_race`.
- `vote__expected_return` reads its thresholds from the environment; here
  they are parameters.
- `main`/`get_feed_data` of `payoff_race.py` call a parser that does not
  exist.
- `calc_dscore_by_race` is floating-point statistics with NaN and infinity
  patching.
- Logging and the debug-only ±1-hour windows are left out.
- IEEE floating point is not modelled. Odds, payoffs, rates and times are
  exact reals. `float()` reads only plain decimals: no exponent, `inf` or
  `nan`.
- `int()` and `float()` accept ASCII and full-width digits only, not other
  Unicode decimal digits or `_` separators.
- pandas `sort_values` uses an unstable quicksort. Here, rows that tie on
  their key keep their input order. Every table key in the feed is unique,
  but ties on `start_datetime` in the ledger are resolved this way.
- A column missing from a frame is modelled as null. pandas would raise
  `KeyError`, for example on `payoff_timestamp` of a freshly built race
  list.
- Ledger.CrawlRaceBefore: does not model the crawl between selection and
  update. The `strftime` of the start date is not modelled either.
- Ledger.CrawlRaceAfter: same as above.
- Settlement.PayoffRace: the `None` versus `NaT` subtlety of the vote check
  is not modelled. `vote_timestamp` is an `Option`, and the check fires on
  `None`.
- Settlement.PayoffRace: a voted race with odds but no payoff table is not
  modelled. pandas would fail on the payoff query; here, with no payoff
  rows, every payoff is 0.0.
- Settlement.PayoffRace: it returns the vote table and updates the ledger
  array in place. The ledger frame it also returns is the same object, so
  it is not returned twice.
- Ledger.VoteTarget: the `get_target_race` functions also return the
  ledger. It is returned unchanged by construction, since these are
  functions on a value.
- Ledger.SettleTarget: same as above.
- Voting.ExpectedReturnVote: the stake is the real 1.0 rather than the
  integer 1.
- Patterns.S3Key: `\w` is read as the ASCII class `[A-Za-z0-9_]`, while
  Python's `re` also matches non-ASCII letters and digits. S3 bucket names
  are ASCII, so the URLs the service builds never contain such a bucket.
- Patterns.S3KeyRoundTrip: same as above.
- VoteResults.EvaluateVote: the summary is a record, not a dict keyed by
  the Japanese labels.

## Findings

| source | as written | input that shows it | evidently intended | confidence | as-written member | corrected member |
|---|---|---|---|---|---|---|
| boatrace_vote/utils.py:892 | payoff rows are deduplicated on race and boats, without the bet type | a win payoff and a place payoff on boat 1 of the same race: the place line is dropped | the bet type is part of the key, as in the odds table at utils.py:897 | high, not executed | Feed.PayoffKeyCollapses | Feed.ParseFeed |
| boatrace_vote/payoff_race.py:111 | the cancelled-race branch assigns to `df_vote` before anything binds it, which raises `UnboundLocalError` | any voted race whose odds frame is `None` | vote rows settled with zero odds and zero amount, and the ledger row closed with return 0 | high, not executed | Settlement.CancelledRace | Settlement.Settlement, Settlement.PayoffRace |

=== FILE: clock.dfy ===
/** Calendar dates and timestamps. A timestamp is a count of seconds on the
    proleptic Gregorian time line: the day's ordinal (as Python's
    `date.toordinal()` numbers days, 0001-01-01 being day 1) times 86400 plus
    the time of day. Only the two `strptime` formats the feed parser uses are
    read: `"%Y%m%d %H:%M"` for a race's start and `"%Y/%m/%d"` for a birthday. */
module Clock {
  import opened Wrappers
  import opened Text

  type Timestamp = int

  const Minute: int := 60
  const Hour: int := 3600
  const Day: int := 86400

  datatype Date = Date(year: int, month: int, day: int)

  predicate IsLeap(y: int) { y % 4 == 0 && (y % 100 != 0 || y % 400 == 0) }

  function DaysInMonth(y: int, m: int): (n: int)
    requires 1 <= m <= 12
    ensures 28 <= n <= 31
  {
    if m == 2 then (if IsLeap(y) then 29 else 28)
    else if m == 4 || m == 6 || m == 9 || m == 11 then 30
    else 31
  }

  /** What `datetime` accepts: years 1..9999 and a day that exists in its month. */
  predicate ValidDate(d: Date) {
    1 <= d.year <= 9999 && 1 <= d.month <= 12 && 1 <= d.day <= DaysInMonth(d.year, d.month)
  }

  function DaysBeforeMonth(y: int, m: int): int
    requires 1 <= m <= 12
  {
    if m == 1 then 0 else DaysBeforeMonth(y, m - 1) + DaysInMonth(y, m - 1)
  }

  function DaysBeforeYear(y: int): int
    requires y >= 1
  {
    var p := y - 1;
    p * 365 + p / 4 - p / 100 + p / 400
  }

  function Ordinal(d: Date): int
    requires ValidDate(d)
  {
    DaysBeforeYear(d.year) + DaysBeforeMonth(d.year, d.month) + d.day
  }

  /** The timestamp of 00:00 on a date. */
  function Midnight(d: Date): Timestamp
    requires ValidDate(d)
  {
    Ordinal(d) * Day
  }

  /** `%Y%m%d` on the eight ASCII digits a race URL carries in `hd`. For such
      a string the month and the day are the fixed two-digit fields, and the
      date must exist. */
  function ParseYmd(hd: string): (r: Option<Date>)
    ensures r.Some? ==> ValidDate(r.value)
    ensures r.Some? ==> |hd| == 8 && AllAsciiDigits(hd)
  {
    if |hd| == 8 && AllAsciiDigits(hd) then
      var d := Date(DigitsValue(hd[..4]), DigitsValue(hd[4..6]), DigitsValue(hd[6..]));
      if ValidDate(d) then Some(d) else None
    else None
  }

  /** `%H:%M` at the end of the string: the hour is `2[0-3]`, `[0-1]\d` or a
      single `\d`, the minute `[0-5]\d` or a single `\d`, and no text may follow. */
  function ParseHourMinute(t: string): (r: Option<(int, int)>)
    ensures r.Some? ==> 0 <= r.value.0 < 24 && 0 <= r.value.1 < 60
  {
    if ':' !in t then None
    else
      var k := IndexOf(t, ':');
      var h, m := t[..k], t[k + 1..];
      var hourOk :=
        || (k == 2 && h[0] == '2' && '0' <= h[1] <= '3')
        || (k == 2 && '0' <= h[0] <= '1' && IsDigit(h[1]))
        || (k == 1 && IsDigit(h[0]));
      var minuteLen :=
        if |m| >= 2 && '0' <= m[0] <= '5' && IsDigit(m[1]) then 2
        else if |m| >= 1 && IsDigit(m[0]) then 1
        else 0;
      if hourOk && minuteLen > 0 && minuteLen == |m| then
        assert AllDigits(h) && AllDigits(m);
        DigitsValueOfShort(h);
        DigitsValueOfShort(m);
        Some((DigitsValue(h), DigitsValue(m)))
      else None
  }

  /** The value of a one- or two-digit field. */
  lemma DigitsValueOfShort(s: string)
    requires 1 <= |s| <= 2 && AllDigits(s)
    ensures |s| == 1 ==> DigitsValue(s) == DigitValue(s[0])
    ensures |s| == 2 ==> DigitsValue(s) == 10 * DigitValue(s[0]) + DigitValue(s[1])
  {
    assert s[..1][..0] == [];
    if |s| == 2 {
      assert DigitsValue(s[..1]) == DigitValue(s[0]);
    }
  }

  /** `datetime.strptime(hd + " " + start_time, "%Y%m%d %H:%M")`: the space of
      the format matches any run of whitespace, so leading whitespace of the
      time is skipped. */
  function StartDatetime(hd: string, startTime: string): (r: Option<Timestamp>)
    ensures r.Some? <==> ParseYmd(hd).Some? && ParseHourMinute(TrimStart(startTime)).Some?
    ensures r.Some? ==>
      Midnight(ParseYmd(hd).value) <= r.value < Midnight(ParseYmd(hd).value) + Day
  {
    match ParseYmd(hd)
    case None => None
    case Some(d) =>
      match ParseHourMinute(TrimStart(startTime))
      case None => None
      case Some((h, m)) => Some(Midnight(d) + h * Hour + m * Minute)
  }

  /** The `%m` field followed by `/`: `1[0-2]`, `0[1-9]` or `[1-9]`; the
      length of the token, 0 when none fits. */
  function MonthTokenLength(s: string): (n: nat)
    ensures n <= 2 && (n > 0 ==> n < |s| && s[n] == '/')
  {
    if |s| >= 3 && s[0] == '1' && '0' <= s[1] <= '2' && s[2] == '/' then 2
    else if |s| >= 3 && s[0] == '0' && '1' <= s[1] <= '9' && s[2] == '/' then 2
    else if |s| >= 2 && '1' <= s[0] <= '9' && s[1] == '/' then 1
    else 0
  }

  /** The `%d` field: the first of `3[01]`, `[12]\d`, `0[1-9]`, `[1-9]`,
      ` [1-9]` that matches at the start; its length, 0 when none does. */
  function DayTokenLength(s: string): (n: nat)
    ensures n <= |s| && n <= 2
  {
    if |s| >= 2 && s[0] == '3' && '0' <= s[1] <= '1' then 2
    else if |s| >= 2 && '1' <= s[0] <= '2' && IsDigit(s[1]) then 2
    else if |s| >= 2 && s[0] == '0' && '1' <= s[1] <= '9' then 2
    else if |s| >= 1 && '1' <= s[0] <= '9' then 1
    else if |s| >= 2 && s[0] == ' ' && '1' <= s[1] <= '9' then 2
    else 0
  }

  /** `datetime.strptime(s, "%Y/%m/%d")`: four digits, `/`, the month, `/`,
      the day, nothing after it, and a date that exists. */
  function ParseSlashDate(s: string): (r: Option<Date>)
    ensures r.Some? ==> ValidDate(r.value)
  {
    if |s| < 5 || !AllDigits(s[..4]) || s[4] != '/' then None
    else
      var rest := s[5..];
      var ml := MonthTokenLength(rest);
      if ml == 0 then None
      else
        var dayText := rest[ml + 1..];
        var dl := DayTokenLength(dayText);
        if dl == 0 || dl != |dayText| then None
        else
          var dayDigits := if dayText[0] == ' ' then dayText[1..] else dayText;
          assert AllDigits(rest[..ml]) && AllDigits(dayDigits);
          var d := Date(DigitsValue(s[..4]), DigitsValue(rest[..ml]), DigitsValue(dayDigits));
          if ValidDate(d) then Some(d) else None
  }
}

=== FILE: feed.dfy ===
/** The batch driver of the feed: each crawled record is routed by its URL
    to one parser, a record whose parser fails is skipped without stopping
    the batch, and each kind of entity becomes a table deduplicated on its
    key columns (the first record wins) and sorted by them. */
module Feed {
  import opened Wrappers
  import opened Text
  import opened Patterns
  import opened Tables
  import opened Parsers

  /** Which parser a record goes to. */
  datatype Kind =
    | RaceIndexPage | Bracket | BracketHistory | Info | ResultPage | StartPage
    | PayoffPage | OddsPage | ProfilePage | Unclassified

  const ProfilePrefix: string := "https://www.boatrace.jp/owpc/pc/data/racersearch/profile?"

  /** The URL tests of the driver, tried in order. */
  function Classify(url: string): (k: Kind)
    ensures k == RaceIndexPage <==> StartsWith(url, PagePrefix + "raceindex?")
    ensures k == Bracket <==> StartsWith(url, PagePrefix + "racelist?") && EndsWith(url, "#bracket")
    ensures k == BracketHistory <==> StartsWith(url, PagePrefix + "racelist?") && EndsWith(url, "#bracket_result")
    ensures k == Info <==> StartsWith(url, PagePrefix + "racelist?") && EndsWith(url, "#info")
    ensures k == ResultPage <==> StartsWith(url, PagePrefix + "raceresult?") && EndsWith(url, "#result")
    ensures k == StartPage <==> StartsWith(url, PagePrefix + "raceresult?") && EndsWith(url, "#start")
    ensures k == PayoffPage <==> StartsWith(url, PagePrefix + "raceresult?") && EndsWith(url, "#payoff")
    ensures k == OddsPage <==> StartsWith(url, PagePrefix + "odds")
    ensures k == ProfilePage <==> StartsWith(url, ProfilePrefix)
  {
    FragmentsDiffer(url, "#bracket", "#bracket_result", 7);
    FragmentsDiffer(url, "#bracket", "#info", 0);
    FragmentsDiffer(url, "#bracket_result", "#info", 0);
    FragmentsDiffer(url, "#result", "#start", 5);
    FragmentsDiffer(url, "#result", "#payoff", 0);
    FragmentsDiffer(url, "#start", "#payoff", 0);
    var index, list, result := PagePrefix + "raceindex?", PagePrefix + "racelist?", PagePrefix + "raceresult?";
    var odds, page := PagePrefix + "odds", |PagePrefix|;
    PrefixesDiffer(url, index, list, page + 4);
    PrefixesDiffer(url, index, result, page + 4);
    PrefixesDiffer(url, list, result, page + 4);
    PrefixesDiffer(url, odds, index, page);
    PrefixesDiffer(url, odds, list, page);
    PrefixesDiffer(url, odds, result, page);
    PrefixesDiffer(url, ProfilePrefix, index, 32);
    PrefixesDiffer(url, ProfilePrefix, list, 32);
    PrefixesDiffer(url, ProfilePrefix, result, 32);
    PrefixesDiffer(url, ProfilePrefix, odds, 32);
    if StartsWith(url, index) then RaceIndexPage
    else if StartsWith(url, list) && EndsWith(url, "#bracket") then Bracket
    else if StartsWith(url, list) && EndsWith(url, "#bracket_result") then BracketHistory
    else if StartsWith(url, list) && EndsWith(url, "#info") then Info
    else if StartsWith(url, result) && EndsWith(url, "#result") then ResultPage
    else if StartsWith(url, result) && EndsWith(url, "#start") then StartPage
    else if StartsWith(url, result) && EndsWith(url, "#payoff") then PayoffPage
    else if StartsWith(url, odds) then OddsPage
    else if StartsWith(url, ProfilePrefix) then ProfilePage
    else Unclassified
  }

  /** Two fragments that differ `i` characters from their ends never end
      the same URL, so the fragment tests of one page never overlap. */
  lemma FragmentsDiffer(url: string, a: string, b: string, i: nat)
    requires i < |a| && i < |b| && a[|a| - 1 - i] != b[|b| - 1 - i]
    ensures !(EndsWith(url, a) && EndsWith(url, b))
  {
  }

  /** Two prefixes that differ at position `i` never start the same URL. */
  lemma PrefixesDiffer(url: string, a: string, b: string, i: nat)
    requires i < |a| && i < |b| && a[i] != b[i]
    ensures !(StartsWith(url, a) && StartsWith(url, b))
  {
  }

  /** A record without a URL raises on `i["url"][0]` and is skipped. */
  function KindOf(rec: Record): Kind
  {
    if Has(rec, "url") then Classify(First(rec, "url")) else Unclassified
  }

  /** The URL a ledger row is crawled from, with the race card's fragment,
      goes to the race-card parser. */
  lemma CrawlUrlIsBracket(hd: string, jcd: string, rno: nat)
    ensures Classify(CrawlUrl(hd, jcd, rno) + "#bracket") == Bracket
  {
    var u := CrawlUrl(hd, jcd, rno);
    var s := u + "#bracket";
    var list := PagePrefix + "racelist?";
    assert s[..|list|] == u[..|list|] == list;
    assert s[..|PagePrefix + "raceindex?"|] != PagePrefix + "raceindex?" by {
      assert s[|PagePrefix| + 4] == list[|PagePrefix| + 4] == 'l';
    }
    assert s[|s| - 8..] == "#bracket";
  }

  function OkValue<T>(r: Result<T, ParseError>): (o: Option<T>)
    ensures o.Some? <==> r.Ok?
    ensures o.Some? ==> o.value == r.value
  {
    match r
    case Ok(v) => Some(v)
    case Err(_) => None
  }

  /** A parser that may answer `None`: only an entity is kept. */
  function OkSome<T>(r: Result<Option<T>, ParseError>): (o: Option<T>)
    ensures o.Some? <==> r.Ok? && r.value.Some?
    ensures o.Some? ==> r == Ok(Some(o.value))
  {
    match r
    case Ok(Some(v)) => Some(v)
    case _ => None
  }

  function BracketOf(rec: Record): Option<RaceBracket> { OkValue(ParseRaceBracket(rec)) }
  function BracketResultOf(rec: Record): Option<BracketResult> { OkValue(ParseRaceBracketResult(rec)) }
  function InfoOf(rec: Record): Option<RaceInfo> { OkValue(ParseRaceInfo(rec)) }
  function ResultOf(rec: Record): Option<RaceResult> { OkValue(ParseRaceResult(rec)) }
  function StartOf(rec: Record): Option<ResultStart> { OkValue(ParseRaceResultStart(rec)) }
  function PayoffOf(rec: Record): Option<RacePayoff> { OkValue(ParseRacePayoff(rec)) }
  function OddsOf(rec: Record): Option<RaceOdds> { OkSome(ParseRaceOdds(rec)) }
  function ProfileOf(rec: Record): Option<RacerProfile> { OkSome(ParseRacerProfile(rec)) }

  /** The entities the records of one kind yield, in record order; a record
      whose parser fails or answers `None` yields nothing. */
  function Parsed<T>(recs: seq<Record>, kind: Kind, parse: Record -> Option<T>): seq<T>
  {
    if recs == [] then []
    else
      var last := recs[|recs| - 1];
      Parsed(recs[..|recs| - 1], kind, parse)
        + (if KindOf(last) == kind && parse(last).Some? then [parse(last).value] else [])
  }

  /** Record `k` is of the given kind and its parser returns `x`. */
  predicate Yields<T(==)>(recs: seq<Record>, kind: Kind, parse: Record -> Option<T>, k: int, x: T)
  {
    0 <= k < |recs| && KindOf(recs[k]) == kind && parse(recs[k]) == Some(x)
  }

  /** Every entity a record of the kind parses to is collected. */
  lemma {:induction false} ParsedComplete<T>(recs: seq<Record>, kind: Kind, parse: Record -> Option<T>, k: int, x: T)
    requires Yields(recs, kind, parse, k, x)
    ensures x in Parsed(recs, kind, parse)
    decreases |recs|
  {
    var init := recs[..|recs| - 1];
    if k < |recs| - 1 {
      assert init[k] == recs[k];
      ParsedComplete(init, kind, parse, k, x);
    }
  }

  /** Every collected entity is what some record of the kind parsed to. */
  lemma {:induction false} ParsedSound<T>(recs: seq<Record>, kind: Kind, parse: Record -> Option<T>, x: T)
    requires x in Parsed(recs, kind, parse)
    ensures exists k :: Yields(recs, kind, parse, k, x)
    decreases |recs|
  {
    var init := recs[..|recs| - 1];
    if x in Parsed(init, kind, parse) {
      ParsedSound(init, kind, parse, x);
      var k :| Yields(init, kind, parse, k, x);
      assert init[k] == recs[k];
      assert Yields(recs, kind, parse, k, x);
    } else {
      assert Yields(recs, kind, parse, |recs| - 1, x);
    }
  }

  /** A failing record does not stop the batch: the records after it are
      parsed as if it were not there. */
  lemma {:induction false} ParsedAppend<T>(a: seq<Record>, b: seq<Record>, kind: Kind, parse: Record -> Option<T>)
    ensures Parsed(a + b, kind, parse) == Parsed(a, kind, parse) + Parsed(b, kind, parse)
    decreases |b|
  {
    if b == [] {
      assert a + b == a;
    } else {
      var b' := b[..|b| - 1];
      assert (a + b)[..|a + b| - 1] == a + b';
      assert (a + b)[|a + b| - 1] == b[|b| - 1];
      ParsedAppend(a, b', kind, parse);
    }
  }

  /** The entities of a kind among the first `n` records. */
  function ParsedUpTo<T>(recs: seq<Record>, n: nat, kind: Kind, parse: Record -> Option<T>): seq<T>
    requires n <= |recs|
  {
    Parsed(recs[..n], kind, parse)
  }

  /** One more record: its entity joins the list of its kind when it
      parses. */
  lemma ParsedStep<T>(recs: seq<Record>, i: nat, kind: Kind, parse: Record -> Option<T>)
    requires i < |recs|
    ensures ParsedUpTo(recs, i + 1, kind, parse) == ParsedUpTo(recs, i, kind, parse)
      + (if KindOf(recs[i]) == kind && parse(recs[i]).Some? then [parse(recs[i]).value] else [])
  {
    assert recs[..i + 1][..i] == recs[..i];
  }

  /** The key columns of each table. */
  function BracketKey(x: RaceBracket): Key { [Str(x.raceId), Str(x.racerId)] }
  function BracketResultKey(x: BracketResult): Key { [Str(x.raceId), Num(x.bracketNumber), Num(x.runNumber)] }
  function InfoKey(x: RaceInfo): Key { [Str(x.raceId)] }
  function ResultKey(x: RaceResult): Key { [Str(x.raceId), Num(x.bracketNumber)] }
  function StartKey(x: ResultStart): Key { [Str(x.raceId), Num(x.bracketNumber)] }
  function OddsKey(x: RaceOdds): Key
  {
    [Str(x.raceId), Num(x.betType), Num(x.bracketNumber1), Opt(x.bracketNumber2), Opt(x.bracketNumber3)]
  }
  function RacerKey(x: RacerProfile): Key { [Str(x.racerId)] }

  /** The payoff key as the driver writes it: race and boats, no bet type. */
  function PayoffKeyAsWritten(x: RacePayoff): Key
  {
    [Str(x.raceId), Opt(x.bracketNumber1), Opt(x.bracketNumber2), Opt(x.bracketNumber3)]
  }

  /** The payoff key with the bet type, as the odds key has it. */
  function PayoffKey(x: RacePayoff): Key
  {
    [Str(x.raceId), Num(x.betType), Opt(x.bracketNumber1), Opt(x.bracketNumber2), Opt(x.bracketNumber3)]
  }

  /** A win payoff and a place payoff on the same boat share the written key,
      so the place line is dropped; with the bet type in the key both stay. */
  lemma PayoffKeyCollapses()
    ensures
      var win := RacePayoff("20230710_01_12", 1, Some(1), None, None, Some(1), Some(1.5));
      var place := RacePayoff("20230710_01_12", 2, Some(1), None, None, Some(1), Some(1.1));
      && TableOf([win, place], PayoffKeyAsWritten) == Some([win])
      && TableOf([win, place], PayoffKey) == Some([win, place])
  {
    var win := RacePayoff("20230710_01_12", 1, Some(1), None, None, Some(1), Some(1.5));
    var place := RacePayoff("20230710_01_12", 2, Some(1), None, None, Some(1), Some(1.1));
    WrittenKeyDropsPlace(win, place);
    BetTypeKeyKeepsBoth(win, place);
  }

  lemma WrittenKeyDropsPlace(win: RacePayoff, place: RacePayoff)
    requires win == RacePayoff("20230710_01_12", 1, Some(1), None, None, Some(1), Some(1.5))
    requires place == RacePayoff("20230710_01_12", 2, Some(1), None, None, Some(1), Some(1.1))
    ensures TableOf([win, place], PayoffKeyAsWritten) == Some([win])
  {
    var rows := [win, place];
    assert rows[..1] == [win] && rows[1] == place;
    DedupSingle(win, PayoffKeyAsWritten);
    assert PayoffKeyAsWritten(place) == PayoffKeyAsWritten(win);
    assert DedupBy(rows, PayoffKeyAsWritten) == [win];
    assert SortBy([win], PayoffKeyAsWritten) == [win] by {
      assert [win][1..] == [];
    }
  }

  lemma BetTypeKeyKeepsBoth(win: RacePayoff, place: RacePayoff)
    requires win == RacePayoff("20230710_01_12", 1, Some(1), None, None, Some(1), Some(1.5))
    requires place == RacePayoff("20230710_01_12", 2, Some(1), None, None, Some(1), Some(1.1))
    ensures TableOf([win, place], PayoffKey) == Some([win, place])
  {
    var rows := [win, place];
    assert PayoffKey(place) != PayoffKey(win) by {
      assert PayoffKey(place)[1] != PayoffKey(win)[1];
    }
    DistinctKeysKept(win, place, PayoffKey);
    assert KeyLt(PayoffKey(win), PayoffKey(place)) by {
      assert PayoffKey(win)[0] == PayoffKey(place)[0];
      assert CellLt(Num(1), Num(2));
      assert KeyLt(PayoffKey(win)[1..], PayoffKey(place)[1..]);
    }
    OrderedPairSorted(win, place, PayoffKey);
  }

  /** Two rows with different keys both survive deduplication. */
  lemma DistinctKeysKept<T>(x: T, y: T, key: T -> Key)
    requires key(x) != key(y)
    ensures DedupBy([x, y], key) == [x, y]
  {
    var rows := [x, y];
    assert rows[..1] == [x] && rows[1] == y;
    DedupSingle(x, key);
  }

  /** Two rows already in key order are left as they are by the sort. */
  lemma OrderedPairSorted<T>(x: T, y: T, key: T -> Key)
    requires KeyLt(key(x), key(y))
    ensures SortBy([x, y], key) == [x, y]
  {
    assert SortBy([y], key) == [y] by {
      assert [y][1..] == [];
    }
    assert [x, y][1..] == [y];
  }

  lemma DedupSingle<T>(x: T, key: T -> Key)
    ensures DedupBy([x], key) == [x]
    ensures KeysOf([x], key) == {key(x)}
  {
    assert [x][..0] == [];
    assert KeysOf([], key) == {};
  }

  /** The eight frames the driver returns. */
  datatype Frames = Frames(
    raceBracket: Option<seq<RaceBracket>>,
    raceBracketHistory: Option<seq<BracketResult>>,
    raceInfo: Option<seq<RaceInfo>>,
    raceResult: Option<seq<RaceResult>>,
    raceResultStart: Option<seq<ResultStart>>,
    racePayoff: Option<seq<RacePayoff>>,
    raceOdds: Option<seq<RaceOdds>>,
    racer: Option<seq<RacerProfile>>)

  /** The parser of each kind, each keeping only an entity it returns. */
  datatype ParserSet = ParserSet(
    bracket: Record -> Option<RaceBracket>,
    bracketResult: Record -> Option<BracketResult>,
    info: Record -> Option<RaceInfo>,
    result: Record -> Option<RaceResult>,
    start: Record -> Option<ResultStart>,
    payoff: Record -> Option<RacePayoff>,
    odds: Record -> Option<RaceOdds>,
    profile: Record -> Option<RacerProfile>)

  const FeedParsers: ParserSet :=
    ParserSet(BracketOf, BracketResultOf, InfoOf, ResultOf, StartOf, PayoffOf, OddsOf, ProfileOf)

  /** `parse_feed_json_to_dataframe`. */
  method ParseFeed(recs: seq<Record>) returns (frames: Frames)
    ensures frames.raceBracket == TableOf(Parsed(recs, Bracket, BracketOf), BracketKey)
    ensures frames.raceBracketHistory == TableOf(Parsed(recs, BracketHistory, BracketResultOf), BracketResultKey)
    ensures frames.raceInfo == TableOf(Parsed(recs, Info, InfoOf), InfoKey)
    ensures frames.raceResult == TableOf(Parsed(recs, ResultPage, ResultOf), ResultKey)
    ensures frames.raceResultStart == TableOf(Parsed(recs, StartPage, StartOf), StartKey)
    ensures frames.racePayoff == TableOf(Parsed(recs, PayoffPage, PayoffOf), PayoffKey)
    ensures frames.raceOdds == TableOf(Parsed(recs, OddsPage, OddsOf), OddsKey)
    ensures frames.racer == TableOf(Parsed(recs, ProfilePage, ProfileOf), RacerKey)
  {
    frames := ParseFeedWith(recs, FeedParsers);
  }

  /** The driver's loop over the records, for any set of parsers: each record
      goes to the parser of its kind, and only what that parser returns is
      appended to the list of that kind. */
  method ParseFeedWith(recs: seq<Record>, ps: ParserSet) returns (frames: Frames)
    ensures frames.raceBracket == TableOf(Parsed(recs, Bracket, ps.bracket), BracketKey)
    ensures frames.raceBracketHistory == TableOf(Parsed(recs, BracketHistory, ps.bracketResult), BracketResultKey)
    ensures frames.raceInfo == TableOf(Parsed(recs, Info, ps.info), InfoKey)
    ensures frames.raceResult == TableOf(Parsed(recs, ResultPage, ps.result), ResultKey)
    ensures frames.raceResultStart == TableOf(Parsed(recs, StartPage, ps.start), StartKey)
    ensures frames.racePayoff == TableOf(Parsed(recs, PayoffPage, ps.payoff), PayoffKey)
    ensures frames.raceOdds == TableOf(Parsed(recs, OddsPage, ps.odds), OddsKey)
    ensures frames.racer == TableOf(Parsed(recs, ProfilePage, ps.profile), RacerKey)
  {
    var brackets: seq<RaceBracket> := [];
    var history: seq<BracketResult> := [];
    var infos: seq<RaceInfo> := [];
    var results: seq<RaceResult> := [];
    var starts: seq<ResultStart> := [];
    var payoffs: seq<RacePayoff> := [];
    var odds: seq<RaceOdds> := [];
    var racers: seq<RacerProfile> := [];
    var i := 0;
    while i < |recs|
      invariant 0 <= i <= |recs|
      invariant brackets == ParsedUpTo(recs, i, Bracket, ps.bracket)
      invariant history == ParsedUpTo(recs, i, BracketHistory, ps.bracketResult)
      invariant infos == ParsedUpTo(recs, i, Info, ps.info)
      invariant results == ParsedUpTo(recs, i, ResultPage, ps.result)
      invariant starts == ParsedUpTo(recs, i, StartPage, ps.start)
      invariant payoffs == ParsedUpTo(recs, i, PayoffPage, ps.payoff)
      invariant odds == ParsedUpTo(recs, i, OddsPage, ps.odds)
      invariant racers == ParsedUpTo(recs, i, ProfilePage, ps.profile)
    {
      var rec := recs[i];
      ParsedStep(recs, i, Bracket, ps.bracket);
      ParsedStep(recs, i, BracketHistory, ps.bracketResult);
      ParsedStep(recs, i, Info, ps.info);
      ParsedStep(recs, i, ResultPage, ps.result);
      ParsedStep(recs, i, StartPage, ps.start);
      ParsedStep(recs, i, PayoffPage, ps.payoff);
      ParsedStep(recs, i, OddsPage, ps.odds);
      ParsedStep(recs, i, ProfilePage, ps.profile);
      match KindOf(rec) {
        case Bracket =>
          var item := ps.bracket(rec);
          if item.Some? { brackets := brackets + [item.value]; }
        case BracketHistory =>
          var item := ps.bracketResult(rec);
          if item.Some? { history := history + [item.value]; }
        case Info =>
          var item := ps.info(rec);
          if item.Some? { infos := infos + [item.value]; }
        case ResultPage =>
          var item := ps.result(rec);
          if item.Some? { results := results + [item.value]; }
        case StartPage =>
          var item := ps.start(rec);
          if item.Some? { starts := starts + [item.value]; }
        case PayoffPage =>
          var item := ps.payoff(rec);
          if item.Some? { payoffs := payoffs + [item.value]; }
        case OddsPage =>
          var item := ps.odds(rec);
          if item.Some? { odds := odds + [item.value]; }
        case ProfilePage =>
          var item := ps.profile(rec);
          if item.Some? { racers := racers + [item.value]; }
        case _ =>
      }
      i := i + 1;
    }
    assert recs[..i] == recs;
    frames := Frames(
      TableOf(brackets, BracketKey), TableOf(history, BracketResultKey), TableOf(infos, InfoKey),
      TableOf(results, ResultKey), TableOf(starts, StartKey), TableOf(payoffs, PayoffKey),
      TableOf(odds, OddsKey), TableOf(racers, RacerKey));
  }

  /** A frame of the driver is `None` exactly when no record of its kind
      parsed. */
  lemma FrameEmpty<T>(recs: seq<Record>, kind: Kind, parse: Record -> Option<T>, key: T -> Key)
    ensures TableOf(Parsed(recs, kind, parse), key).None? <==>
      forall k :: 0 <= k < |recs| && KindOf(recs[k]) == kind ==> parse(recs[k]).None?
  {
    var rows := Parsed(recs, kind, parse);
    if rows != [] {
      assert rows[0] in rows;
      ParsedSound(recs, kind, parse, rows[0]);
      var k :| Yields(recs, kind, parse, k, rows[0]);
      assert parse(recs[k]).Some?;
    } else {
      forall k | 0 <= k < |recs| && KindOf(recs[k]) == kind
        ensures parse(recs[k]).None?
      {
        if parse(recs[k]).Some? {
          ParsedComplete(recs, kind, parse, k, parse(recs[k]).value);
        }
      }
    }
  }

  /** Otherwise it holds one row per key, ascending, and each row is an
      entity some record of the kind parsed to. */
  lemma FrameRows<T>(recs: seq<Record>, kind: Kind, parse: Record -> Option<T>, key: T -> Key)
    requires TableOf(Parsed(recs, kind, parse), key).Some?
    ensures StrictlySortedBy(TableOf(Parsed(recs, kind, parse), key).value, key)
    ensures forall x :: x in TableOf(Parsed(recs, kind, parse), key).value ==>
      exists k :: Yields(recs, kind, parse, k, x)
  {
    var rows := Parsed(recs, kind, parse);
    TableOfSpec(rows, key);
    var t := TableOf(rows, key).value;
    forall x | x in t
      ensures exists k :: Yields(recs, kind, parse, k, x)
    {
      var i :| 0 <= i < |t| && t[i] == x;
      assert x == FirstWithKey(rows, key, key(x));
      assert x in rows;
      ParsedSound(recs, kind, parse, x);
    }
  }

  /** No parsed entity is lost: its key has a row in the frame. */
  lemma FrameKeysComplete<T>(recs: seq<Record>, kind: Kind, parse: Record -> Option<T>, key: T -> Key,
                             k: int, x: T)
    requires Yields(recs, kind, parse, k, x)
    ensures TableOf(Parsed(recs, kind, parse), key).Some?
    ensures key(x) in KeysOf(TableOf(Parsed(recs, kind, parse), key).value, key)
  {
    var rows := Parsed(recs, kind, parse);
    ParsedComplete(recs, kind, parse, k, x);
    TableOfSpec(rows, key);
  }
}

=== FILE: ledger.dfy ===
/** The race list (the ledger) the service keeps for a day: one row per race
    with the timestamps of the steps already done for it, the rules that pick
    the next race to work on, and the one-cell updates each step makes. */
module Ledger {
  import opened Wrappers
  import opened Text
  import opened Clock
  import opened Tables
  import opened Patterns
  import opened Parsers

  /** A ledger row. Each part of the service reads its own columns: the crawl
      loop settles through `payoffTimestamp`, the settlement through
      `resultTimestamp` and `returnAmount`; a column a frame lacks is `None`. */
  datatype RaceEntry = RaceEntry(
    raceId: string, placeId: string, raceRound: int, startDatetime: Timestamp,
    voteTimestamp: Option<Timestamp>, payoffTimestamp: Option<Timestamp>,
    resultTimestamp: Option<Timestamp>, returnAmount: Option<real>)

  /** A row with its index label, which sorting and filtering carry along. */
  datatype Row = Row(index: nat, entry: RaceEntry)

  /** The ledger as a frame whose index is the row position. */
  function Labelled(rows: seq<RaceEntry>): (r: seq<Row>)
    ensures |r| == |rows|
    ensures forall i :: 0 <= i < |r| ==> r[i] == Row(i, rows[i])
  {
    seq(|rows|, i requires 0 <= i < |rows| => Row(i, rows[i]))
  }

  function StartKey(r: Row): Key { [Num(r.entry.startDatetime)] }

  function LabelKey(r: Row): Key { [Num(r.index)] }

  lemma StartKeyLe(a: Row, b: Row)
    requires KeyLe(StartKey(a), StartKey(b))
    ensures a.entry.startDatetime <= b.entry.startDatetime
  {
    if StartKey(a) != StartKey(b) {
      assert CellLt(StartKey(a)[0], StartKey(b)[0]);
    }
  }

  lemma LabelledInOrder(rows: seq<RaceEntry>)
    ensures StrictlySortedBy(Labelled(rows), LabelKey)
  {
    var l := Labelled(rows);
    forall i, j | 0 <= i < j < |l|
      ensures KeyLt(LabelKey(l[i]), LabelKey(l[j]))
    {
      assert LabelKey(l[i])[0] == Num(i) && LabelKey(l[j])[0] == Num(j);
    }
  }

  /** `tail(1)`: the label of the last row, if any. */
  function TailLabel(rows: seq<Row>): Option<nat>
  {
    if rows == [] then None else Some(rows[|rows| - 1].index)
  }

  /** Row `j` of the ledger passes both masks. */
  predicate Passes(rows: seq<RaceEntry>, p: Row -> bool, q: Row -> bool, j: int)
  {
    0 <= j < |rows| && p(Row(j, rows[j])) && q(Row(j, rows[j]))
  }

  /** Two masks applied to any reordering of the ledger keep exactly the
      rows that pass both, with their labels. */
  lemma MasksKeep(rows: seq<RaceEntry>, s: seq<Row>, p: Row -> bool, q: Row -> bool)
    requires multiset(s) == multiset(Labelled(rows))
    ensures forall j :: Passes(rows, p, q, j) ==> Row(j, rows[j]) in Filter(Filter(s, p), q)
    ensures forall x :: x in Filter(Filter(s, p), q) ==>
      x.index < |rows| && x == Row(x.index, rows[x.index]) && Passes(rows, p, q, x.index)
  {
    var l := Labelled(rows);
    var u := Filter(s, p);
    var c := Filter(u, q);
    FilterMembers(s, p);
    FilterMembers(u, q);
    forall j | Passes(rows, p, q, j)
      ensures Row(j, rows[j]) in c
    {
      assert l[j] == Row(j, rows[j]);
      assert Row(j, rows[j]) in multiset(l);
    }
    forall x | x in c
      ensures x.index < |rows| && x == Row(x.index, rows[x.index]) && Passes(rows, p, q, x.index)
    {
      FilterMember(u, q, x);
      FilterMember(s, p, x);
      assert x in multiset(l);
      var k :| 0 <= k < |l| && l[k] == x;
    }
  }

  /** Sort by start time, apply two masks, take the last row: that row passes
      both masks and no row that passes them starts later; there is none
      exactly when no row passes. */
  lemma LatestOf(rows: seq<RaceEntry>, p: Row -> bool, q: Row -> bool)
    ensures
      var c := Filter(Filter(SortBy(Labelled(rows), StartKey), p), q);
      && (c == [] <==> forall j :: 0 <= j < |rows| ==> !Passes(rows, p, q, j))
      && (c != [] ==>
            var l := c[|c| - 1].index;
            && Passes(rows, p, q, l)
            && forall j :: Passes(rows, p, q, j) ==> rows[j].startDatetime <= rows[l].startDatetime)
  {
    var s := SortBy(Labelled(rows), StartKey);
    SortByPermutes(Labelled(rows), StartKey);
    SortBySorted(Labelled(rows), StartKey);
    var u := Filter(s, p);
    var c := Filter(u, q);
    FilterSorted(s, p, StartKey);
    FilterSorted(u, q, StartKey);
    MasksKeep(rows, s, p, q);
    if c != [] {
      var x := c[|c| - 1];
      assert x in c;
      LastStartsLatest(c);
    }
  }

  /** The last row of a list sorted by start time starts no earlier than
      any row of it. */
  lemma LastStartsLatest(c: seq<Row>)
    requires c != [] && SortedBy(c, StartKey)
    ensures forall y :: y in c ==> y.entry.startDatetime <= c[|c| - 1].entry.startDatetime
  {
    forall y | y in c
      ensures y.entry.startDatetime <= c[|c| - 1].entry.startDatetime
    {
      var k :| 0 <= k < |c| && c[k] == y;
      if k < |c| - 1 {
        StartKeyLe(c[k], c[|c| - 1]);
      }
    }
  }

  /** Apply two masks in ledger order and take the last row: that row passes
      both masks and no later row does; there is none exactly when no row
      passes. */
  lemma LastOf(rows: seq<RaceEntry>, p: Row -> bool, q: Row -> bool)
    ensures
      var c := Filter(Filter(Labelled(rows), p), q);
      && (c == [] <==> forall j :: 0 <= j < |rows| ==> !Passes(rows, p, q, j))
      && (c != [] ==>
            var l := c[|c| - 1].index;
            && Passes(rows, p, q, l)
            && forall j :: l < j < |rows| ==> !Passes(rows, p, q, j))
  {
    var s := Labelled(rows);
    LabelledInOrder(rows);
    var u := Filter(s, p);
    var c := Filter(u, q);
    FilterStrictlySorted(s, p, LabelKey);
    FilterStrictlySorted(u, q, LabelKey);
    MasksKeep(rows, s, p, q);
    if c != [] {
      var x := c[|c| - 1];
      assert x in c;
      forall k | 0 <= k < |c|
        ensures c[k].index <= x.index
      {
        if k < |c| - 1 {
          assert KeyLt(LabelKey(c[k]), LabelKey(x));
        }
      }
      forall j | x.index < j < |rows|
        ensures !Passes(rows, p, q, j)
      {
        assert Row(j, rows[j]) !in c;
      }
    }
  }

  predicate Unvoted(e: RaceEntry) { e.voteTimestamp.None? }

  predicate Unpaid(e: RaceEntry) { e.payoffTimestamp.None? }

  /** The race `find_vote_race` may pick at `now`: not voted on, and
      starting no later than five minutes from now. */
  predicate VoteDue(e: RaceEntry, now: Timestamp)
  {
    e.voteTimestamp.None? && e.startDatetime <= now + 5 * Minute
  }

  /** `utils.find_vote_race`: the label of the latest-starting race that is
      due for a vote, or `None`. */
  function FindVoteRace(rows: seq<RaceEntry>, now: Timestamp): (found: Option<nat>)
    ensures found.Some? ==> found.value < |rows| && VoteDue(rows[found.value], now)
    ensures found.Some? ==> forall j :: 0 <= j < |rows| && VoteDue(rows[j], now) ==>
      rows[j].startDatetime <= rows[found.value].startDatetime
    ensures found.None? <==> forall j :: 0 <= j < |rows| ==> !VoteDue(rows[j], now)
  {
    var t := now + 5 * Minute;
    var notVoted := (r: Row) => r.entry.voteTimestamp.None?;
    var started := (r: Row) => r.entry.startDatetime <= t;
    LatestOf(rows, notVoted, started);
    assert forall j :: Passes(rows, notVoted, started, j) <==> 0 <= j < |rows| && VoteDue(rows[j], now);
    TailLabel(Filter(Filter(SortBy(Labelled(rows), StartKey), notVoted), started))
  }

  /** The race `find_payoff_race` may pick at `now`: not settled, and started
      at least ten minutes ago. */
  predicate PayoffDue(e: RaceEntry, now: Timestamp)
  {
    e.payoffTimestamp.None? && e.startDatetime <= now - 10 * Minute
  }

  /** `utils.find_payoff_race`: the label of the latest-starting race that
      is due for settlement, or `None`. */
  function FindPayoffRace(rows: seq<RaceEntry>, now: Timestamp): (found: Option<nat>)
    ensures found.Some? ==> found.value < |rows| && PayoffDue(rows[found.value], now)
    ensures found.Some? ==> forall j :: 0 <= j < |rows| && PayoffDue(rows[j], now) ==>
      rows[j].startDatetime <= rows[found.value].startDatetime
    ensures found.None? <==> forall j :: 0 <= j < |rows| ==> !PayoffDue(rows[j], now)
  {
    var t := now - 10 * Minute;
    var notPaid := (r: Row) => r.entry.payoffTimestamp.None?;
    var started := (r: Row) => r.entry.startDatetime <= t;
    LatestOf(rows, notPaid, started);
    assert forall j :: Passes(rows, notPaid, started, j) <==> 0 <= j < |rows| && PayoffDue(rows[j], now);
    TailLabel(Filter(Filter(SortBy(Labelled(rows), StartKey), notPaid), started))
  }

  /** The race `find_vote_race.get_target_race` may pick: not voted on, and
      starting strictly before ten minutes from now. */
  predicate VoteTargetDue(e: RaceEntry, now: Timestamp)
  {
    e.voteTimestamp.None? && e.startDatetime < now + 10 * Minute
  }

  /** `find_vote_race.get_target_race`: the last race in ledger order that
      is due, or `None`. */
  function VoteTarget(rows: seq<RaceEntry>, now: Timestamp): (found: Option<nat>)
    ensures found.Some? ==> found.value < |rows| && VoteTargetDue(rows[found.value], now)
    ensures found.Some? ==> forall j :: found.value < j < |rows| ==> !VoteTargetDue(rows[j], now)
    ensures found.None? <==> forall j :: 0 <= j < |rows| ==> !VoteTargetDue(rows[j], now)
  {
    var t := now + 10 * Minute;
    var notVoted := (r: Row) => r.entry.voteTimestamp.None?;
    var started := (r: Row) => r.entry.startDatetime < t;
    LastOf(rows, notVoted, started);
    assert forall j :: Passes(rows, notVoted, started, j) <==> 0 <= j < |rows| && VoteTargetDue(rows[j], now);
    TailLabel(Filter(Filter(Labelled(rows), notVoted), started))
  }

  /** The race the settlement step may pick: voted on, without a result,
      and started strictly more than fifteen minutes ago. */
  predicate SettleDue(e: RaceEntry, now: Timestamp)
  {
    e.voteTimestamp.Some? && e.resultTimestamp.None? && e.startDatetime < now - 15 * Minute
  }

  /** `get_target_race` of the settlement step: the last race in ledger
      order that is due, or `None`. */
  function SettleTarget(rows: seq<RaceEntry>, now: Timestamp): (found: Option<nat>)
    ensures found.Some? ==> found.value < |rows| && SettleDue(rows[found.value], now)
    ensures found.Some? ==> forall j :: found.value < j < |rows| ==> !SettleDue(rows[j], now)
    ensures found.None? <==> forall j :: 0 <= j < |rows| ==> !SettleDue(rows[j], now)
  {
    var t := now - 15 * Minute;
    var voted := (r: Row) => r.entry.voteTimestamp.Some?;
    var open := (r: Row) => r.entry.resultTimestamp.None? && r.entry.startDatetime < t;
    LastOf(rows, voted, open);
    assert forall j :: Passes(rows, voted, open, j) <==> 0 <= j < |rows| && SettleDue(rows[j], now);
    TailLabel(Filter(Filter(Labelled(rows), voted), open))
  }

  /** `crawl_race_before`: when a race is due for a vote, its
      `vote_timestamp` becomes `now` and nothing else changes; otherwise the
      ledger is left alone. (The crawl itself is not part of this model.) */
  method CrawlRaceBefore(ledger: array<RaceEntry>, now: Timestamp) returns (race: Option<nat>)
    modifies ledger
    ensures race == FindVoteRace(old(ledger[..]), now)
    ensures race.None? ==> ledger[..] == old(ledger[..])
    ensures race.Some? ==>
      ledger[..] == old(ledger[..])[race.value := old(ledger[race.value]).(voteTimestamp := Some(now))]
  {
    race := FindVoteRace(ledger[..], now);
    if race.Some? {
      var i := race.value;
      ledger[i] := ledger[i].(voteTimestamp := Some(now));
    }
  }

  /** `crawl_race_after`: when a race is due for settlement, its
      `payoff_timestamp` becomes `now` and nothing else changes. */
  method CrawlRaceAfter(ledger: array<RaceEntry>, now: Timestamp) returns (race: Option<nat>)
    modifies ledger
    ensures race == FindPayoffRace(old(ledger[..]), now)
    ensures race.None? ==> ledger[..] == old(ledger[..])
    ensures race.Some? ==>
      ledger[..] == old(ledger[..])[race.value := old(ledger[race.value]).(payoffTimestamp := Some(now))]
  {
    race := FindPayoffRace(ledger[..], now);
    if race.Some? {
      var i := race.value;
      ledger[i] := ledger[i].(payoffTimestamp := Some(now));
    }
  }

  /** Each vote step sets one timestamp that was unset, so the race it
      picked is never picked again and one race fewer awaits a vote. */
  lemma {:induction false} VoteProgress(rows: seq<RaceEntry>, now: Timestamp, later: Timestamp)
    requires FindVoteRace(rows, now).Some?
    ensures
      var i := FindVoteRace(rows, now).value;
      var next := rows[i := rows[i].(voteTimestamp := Some(now))];
      && Count(next, Unvoted) + 1 == Count(rows, Unvoted)
      && FindVoteRace(next, later) != Some(i)
  {
    var i := FindVoteRace(rows, now).value;
    CountUpdate(rows, i, rows[i].(voteTimestamp := Some(now)), Unvoted);
  }

  /** The same for the settlement step of the crawl loop. Nothing requires
      the race to have been voted on first. */
  lemma {:induction false} PayoffProgress(rows: seq<RaceEntry>, now: Timestamp, later: Timestamp)
    requires FindPayoffRace(rows, now).Some?
    ensures
      var i := FindPayoffRace(rows, now).value;
      var next := rows[i := rows[i].(payoffTimestamp := Some(now))];
      && Count(next, Unpaid) + 1 == Count(rows, Unpaid)
      && FindPayoffRace(next, later) != Some(i)
  {
    var i := FindPayoffRace(rows, now).value;
    CountUpdate(rows, i, rows[i].(payoffTimestamp := Some(now)), Unpaid);
  }

  predicate Remaining(e: RaceEntry)
  {
    e.voteTimestamp.None? || e.payoffTimestamp.None?
  }

  /** `remaining_racelist`: the rows still lacking a vote or a settlement,
      in ledger order. */
  function RemainingRacelist(rows: seq<RaceEntry>): (r: seq<RaceEntry>)
    ensures forall x :: x in r <==> x in rows && (x.voteTimestamp.None? || x.payoffTimestamp.None?)
  {
    FilterMembers(rows, Remaining);
    Filter(rows, Remaining)
  }

  /** Once every race has been voted on and settled, nothing remains. */
  lemma {:induction false} RemainingDone(rows: seq<RaceEntry>)
    requires Count(rows, Remaining) == 0
    ensures RemainingRacelist(rows) == []
  {
    if rows != [] {
      var init := rows[..|rows| - 1];
      RemainingDone(init);
      assert rows == init + [rows[|rows| - 1]];
      FilterAppend(init, [rows[|rows| - 1]], Remaining);
    }
  }

  /** Which crawl a feed file comes from: before the race or after it. */
  datatype Stage = Before | After

  function Suffix(stage: Stage): string
  {
    match stage
    case Before => "_before"
    case After => "_after"
  }

  /** The name of a race's feed file of one stage. */
  function FeedName(raceId: string, stage: Stage): string
  {
    "race_" + raceId + Suffix(stage) + ".json"
  }

  /** Some stored object's key contains the name. */
  predicate HasFeed(keys: seq<string>, name: string)
  {
    exists k :: k in keys && Contains(k, name)
  }

  /** `[k for k in keys if name in k]`: non-empty exactly when the feed is
      stored. */
  function KeysContaining(keys: seq<string>, name: string): (r: seq<string>)
    ensures |r| > 0 <==> HasFeed(keys, name)
  {
    var contains := (k: string) => Contains(k, name);
    FilterMembers(keys, contains);
    var found := Filter(keys, contains);
    assert found != [] ==> found[0] in found;
    found
  }

  /** Still waiting for the crawl of that stage: before the race, no vote
      yet; after it, voted on but not settled. */
  predicate Pending(stage: Stage, e: RaceEntry)
  {
    match stage
    case Before => e.voteTimestamp.None?
    case After => e.voteTimestamp.Some? && e.payoffTimestamp.None?
  }

  /** The `race_id` column of the pending rows, in ledger order. */
  function PendingIds(rows: seq<RaceEntry>, stage: Stage): (ids: seq<string>)
    ensures forall id :: id in ids <==> exists e :: e in rows && Pending(stage, e) && e.raceId == id
  {
    if rows == [] then []
    else
      var rest := PendingIds(rows[1..], stage);
      assert forall e :: e in rows <==> e == rows[0] || e in rows[1..];
      (if Pending(stage, rows[0]) then [rows[0].raceId] else []) + rest
  }

  /** The mask `df["race_id"].isin(ids)`. */
  function InIds(ids: seq<string>): RaceEntry -> bool
  {
    (e: RaceEntry) => e.raceId in ids
  }

  /** `df[df["race_id"].isin(ids)]`: the rows whose race is listed, each as
      often as the ledger holds it, in ledger order. */
  function WithIds(rows: seq<RaceEntry>, ids: seq<string>): (r: seq<RaceEntry>)
    ensures forall x :: x in r <==> x in rows && x.raceId in ids
    ensures forall x :: multiset(r)[x] == if x.raceId in ids then multiset(rows)[x] else 0
  {
    FilterMembers(rows, InIds(ids));
    FilterMultiset(rows, InIds(ids));
    Filter(rows, InIds(ids))
  }

  function EntryStartKey(e: RaceEntry): Key { [Num(e.startDatetime)] }

  /** The mask keeps the ledger's order: a ledger sorted by start time gives
      a racelist sorted by start time. */
  lemma WithIdsSorted(rows: seq<RaceEntry>, ids: seq<string>)
    requires SortedBy(rows, EntryStartKey)
    ensures SortedBy(WithIds(rows, ids), EntryStartKey)
  {
    FilterSorted(rows, InIds(ids), EntryStartKey);
  }

  /** The shared loop of `get_not_voted_racelist` and
      `get_not_paidoff_racelist`: the pending races whose feed file of the
      stage is stored, then the ledger rows of those races. */
  method FeedRacelist(rows: seq<RaceEntry>, keys: seq<string>, stage: Stage)
    returns (targets: seq<string>, r: seq<RaceEntry>)
    ensures forall id :: id in targets <==>
      (exists e :: e in rows && Pending(stage, e) && e.raceId == id) && HasFeed(keys, FeedName(id, stage))
    ensures forall x :: x in r <==> x in rows && x.raceId in targets
    ensures r == WithIds(rows, targets)
    ensures r == Filter(rows, PendingWithFeed(rows, keys, stage))
  {
    var pending := PendingIds(rows, stage);
    targets := WithFeed(pending, keys, stage);
    r := WithIds(rows, targets);
    FilterAgree(rows, InIds(targets), PendingWithFeed(rows, keys, stage));
  }

  /** The rows the two queries keep: some row of the same race is pending
      at the stage, and the race's feed file of the stage is stored. */
  function PendingWithFeed(rows: seq<RaceEntry>, keys: seq<string>, stage: Stage): RaceEntry -> bool
  {
    (x: RaceEntry) =>
      (exists e :: e in rows && Pending(stage, e) && e.raceId == x.raceId) && HasFeed(keys, FeedName(x.raceId, stage))
  }

  /** The loop over the pending races: those whose feed file of the stage
      is stored, in order. */
  method WithFeed(pending: seq<string>, keys: seq<string>, stage: Stage) returns (targets: seq<string>)
    ensures forall id :: id in targets <==> id in pending && HasFeed(keys, FeedName(id, stage))
  {
    targets := [];
    var i := 0;
    while i < |pending|
      invariant 0 <= i <= |pending|
      invariant forall id :: id in targets <==> id in pending[..i] && HasFeed(keys, FeedName(id, stage))
    {
      var result := KeysContaining(keys, FeedName(pending[i], stage));
      assert pending[..i + 1] == pending[..i] + [pending[i]];
      if |result| > 0 {
        targets := targets + [pending[i]];
      }
      i := i + 1;
    }
    assert pending[..i] == pending;
  }

  /** `get_not_voted_racelist`: the rows of races not yet voted on whose
      pre-race feed file is stored. */
  method NotVotedRacelist(rows: seq<RaceEntry>, keys: seq<string>) returns (r: seq<RaceEntry>)
    ensures r == Filter(rows, PendingWithFeed(rows, keys, Before))
    ensures forall x :: x in r <==>
      && x in rows
      && (exists e :: e in rows && e.voteTimestamp.None? && e.raceId == x.raceId)
      && HasFeed(keys, FeedName(x.raceId, Before))
    ensures forall x :: multiset(r)[x] ==
              if (exists e :: e in rows && e.voteTimestamp.None? && e.raceId == x.raceId)
                 && HasFeed(keys, FeedName(x.raceId, Before))
              then multiset(rows)[x] else 0
  {
    var targets, rs := FeedRacelist(rows, keys, Before);
    r := rs;
    assert forall id :: HasFeed(keys, FeedName(id, Before)) ==>
      ((exists e :: e in rows && Pending(Before, e) && e.raceId == id) <==>
       (exists e :: e in rows && e.voteTimestamp.None? && e.raceId == id));
  }

  /** `get_not_paidoff_racelist`: the rows of races voted on but not
      settled whose post-race feed file is stored. */
  method NotPaidoffRacelist(rows: seq<RaceEntry>, keys: seq<string>) returns (r: seq<RaceEntry>)
    ensures r == Filter(rows, PendingWithFeed(rows, keys, After))
    ensures forall x :: x in r <==>
      && x in rows
      && (exists e :: e in rows && e.voteTimestamp.Some? && e.payoffTimestamp.None? && e.raceId == x.raceId)
      && HasFeed(keys, FeedName(x.raceId, After))
    ensures forall x :: multiset(r)[x] ==
              if (exists e :: e in rows && e.voteTimestamp.Some? && e.payoffTimestamp.None? && e.raceId == x.raceId)
                 && HasFeed(keys, FeedName(x.raceId, After))
              then multiset(rows)[x] else 0
  {
    var targets, rs := FeedRacelist(rows, keys, After);
    r := rs;
    assert forall id :: HasFeed(keys, FeedName(id, After)) ==>
      ((exists e :: e in rows && Pending(After, e) && e.raceId == id) <==>
       (exists e :: e in rows && e.voteTimestamp.Some? && e.payoffTimestamp.None? && e.raceId == id));
  }

  predicate UniqueRaceIds(rows: seq<RaceEntry>)
  {
    forall i, j :: 0 <= i < j < |rows| ==> rows[i].raceId != rows[j].raceId
  }

  /** With one row per race, the filter keeps exactly the pending rows whose
      feed is stored: a settled row is never brought back by a pending row
      of the same race. */
  lemma FeedRacelistUnique(rows: seq<RaceEntry>, keys: seq<string>, stage: Stage, x: RaceEntry)
    requires UniqueRaceIds(rows) && x in rows
    ensures (exists e :: e in rows && Pending(stage, e) && e.raceId == x.raceId) <==> Pending(stage, x)
  {
    if e :| e in rows && Pending(stage, e) && e.raceId == x.raceId {
      var i :| 0 <= i < |rows| && rows[i] == e;
      var j :| 0 <= j < |rows| && rows[j] == x;
      assert i == j;
    }
  }

  /** `crawl_race`'s `s3://bucket/folder/race_<id><suffix>.json`. */
  function FeedUrl(bucket: string, folder: string, raceId: string, stage: Stage): string
  {
    "s3://" + bucket + "/" + folder + "/" + FeedName(raceId, stage)
  }

  /** The object key of the file a crawl stores is the folder and the
      feed name. */
  lemma FeedUrlKey(bucket: string, folder: string, raceId: string, stage: Stage)
    requires |bucket| > 0 && forall j :: 0 <= j < |bucket| ==> IsWordChar(bucket[j])
    requires '\n' !in folder && '\n' !in raceId
    ensures S3Key(FeedUrl(bucket, folder, raceId, stage)) == Some(folder + "/" + FeedName(raceId, stage))
  {
    var key := folder + "/" + FeedName(raceId, stage);
    assert '\n' !in key by {
      assert key == folder + "/" + "race_" + raceId + Suffix(stage) + ".json";
    }
    assert FeedUrl(bucket, folder, raceId, stage) == "s3://" + bucket + "/" + key;
    S3KeyRoundTrip(bucket, key);
  }

  /** Once that key is listed, the race counts as having its feed: the file
      a crawl stores is the one the feed filters look for. */
  lemma CrawledFeedFound(folder: string, raceId: string, stage: Stage, keys: seq<string>)
    requires folder + "/" + FeedName(raceId, stage) in keys
    ensures HasFeed(keys, FeedName(raceId, stage))
  {
    var name := FeedName(raceId, stage);
    var key := folder + "/" + name;
    assert key[|folder| + 1..] == name;
    ContainsAt(key, name, |folder| + 1);
  }

  /** A new ledger row: the four columns of a race and no timestamps. */
  function NewEntry(info: RaceInfo): RaceEntry
  {
    RaceEntry(info.raceId, info.placeId, info.raceRound, info.startDatetime, None, None, None, None)
  }

  function InfoStartKey(info: RaceInfo): Key { [Num(info.startDatetime)] }

  /** `create_racelist.extract_racelist`: the races starting on the target
      day, by start time, as fresh ledger rows. */
  function ExtractRacelist(infos: seq<RaceInfo>, targetDate: Timestamp): (r: seq<RaceEntry>)
    ensures forall k :: 0 <= k < |r| ==>
      && targetDate <= r[k].startDatetime < targetDate + Day
      && r[k].voteTimestamp.None? && r[k].payoffTimestamp.None?
      && r[k].resultTimestamp.None? && r[k].returnAmount.None?
    ensures forall k, l :: 0 <= k < l < |r| ==> r[k].startDatetime <= r[l].startDatetime
    ensures forall x :: x in r <==>
      exists info :: info in infos && targetDate <= info.startDatetime < targetDate + Day && x == NewEntry(info)
    ensures |r| == Count(infos, OnDay(targetDate))
  {
    var onDay := OnDay(targetDate);
    var day := Filter(infos, onDay);
    var sorted := SortBy(day, InfoStartKey);
    var r := seq(|sorted|, k requires 0 <= k < |sorted| => NewEntry(sorted[k]));
    assert Pipeline(infos, targetDate, onDay, day, sorted, r);
    ExtractWindow(infos, targetDate, onDay, day, sorted, r);
    ExtractOrder(infos, targetDate, onDay, day, sorted, r);
    ExtractMembers(infos, targetDate, onDay, day, sorted, r);
    ExtractCount(infos, targetDate, onDay, day, sorted, r);
    r
  }

  /** The query `start_datetime >= target_date and start_datetime < target_date + 1 day`. */
  function OnDay(targetDate: Timestamp): RaceInfo -> bool
  {
    (info: RaceInfo) => targetDate <= info.startDatetime < targetDate + Day
  }

  /** The query-sort pipeline of `extract_racelist`, stage by stage. */
  ghost predicate Pipeline(infos: seq<RaceInfo>, targetDate: Timestamp, onDay: RaceInfo -> bool,
                     day: seq<RaceInfo>, sorted: seq<RaceInfo>, r: seq<RaceEntry>)
  {
    && (forall info :: onDay(info) == (targetDate <= info.startDatetime < targetDate + Day))
    && day == Filter(infos, onDay) && sorted == SortBy(day, InfoStartKey)
    && |r| == |sorted| && forall k :: 0 <= k < |r| ==> r[k] == NewEntry(sorted[k])
  }

  /** Every row starts within the target day. */
  lemma ExtractWindow(infos: seq<RaceInfo>, targetDate: Timestamp, onDay: RaceInfo -> bool,
                      day: seq<RaceInfo>, sorted: seq<RaceInfo>, r: seq<RaceEntry>)
    requires Pipeline(infos, targetDate, onDay, day, sorted, r)
    ensures forall k :: 0 <= k < |r| ==> targetDate <= r[k].startDatetime < targetDate + Day
  {
    SortByPermutes(day, InfoStartKey);
    forall k | 0 <= k < |r|
      ensures targetDate <= r[k].startDatetime < targetDate + Day
    {
      assert sorted[k] in multiset(day);
      FilterMember(infos, onDay, sorted[k]);
    }
  }

  /** The rows ascend by start time. */
  lemma ExtractOrder(infos: seq<RaceInfo>, targetDate: Timestamp, onDay: RaceInfo -> bool,
                     day: seq<RaceInfo>, sorted: seq<RaceInfo>, r: seq<RaceEntry>)
    requires Pipeline(infos, targetDate, onDay, day, sorted, r)
    ensures forall k, l :: 0 <= k < l < |r| ==> r[k].startDatetime <= r[l].startDatetime
  {
    SortBySorted(day, InfoStartKey);
    forall k, l | 0 <= k < l < |r|
      ensures r[k].startDatetime <= r[l].startDatetime
    {
      assert KeyLe(InfoStartKey(sorted[k]), InfoStartKey(sorted[l]));
      if InfoStartKey(sorted[k]) != InfoStartKey(sorted[l]) {
        assert CellLt(InfoStartKey(sorted[k])[0], InfoStartKey(sorted[l])[0]);
      }
    }
  }

  /** The rows are exactly the fresh entries of the races on the day. */
  lemma ExtractMembers(infos: seq<RaceInfo>, targetDate: Timestamp, onDay: RaceInfo -> bool,
                       day: seq<RaceInfo>, sorted: seq<RaceInfo>, r: seq<RaceEntry>)
    requires Pipeline(infos, targetDate, onDay, day, sorted, r)
    ensures forall x :: x in r <==>
      exists info :: info in infos && targetDate <= info.startDatetime < targetDate + Day && x == NewEntry(info)
  {
    FilterMembers(infos, onDay);
    SortByPermutes(day, InfoStartKey);
    forall x
      ensures x in r <==>
        exists info :: info in infos && targetDate <= info.startDatetime < targetDate + Day && x == NewEntry(info)
    {
      if x in r {
        var k :| 0 <= k < |r| && r[k] == x;
        assert sorted[k] in multiset(day);
        assert sorted[k] in day;
      }
      if info :| info in infos && targetDate <= info.startDatetime < targetDate + Day && x == NewEntry(info) {
        assert info in day;
        assert info in multiset(sorted);
        var k :| 0 <= k < |sorted| && sorted[k] == info;
        assert r[k] == x;
      }
    }
  }

  /** One row per race on the day, duplicates included. */
  lemma ExtractCount(infos: seq<RaceInfo>, targetDate: Timestamp, onDay: RaceInfo -> bool,
                     day: seq<RaceInfo>, sorted: seq<RaceInfo>, r: seq<RaceEntry>)
    requires Pipeline(infos, targetDate, onDay, day, sorted, r)
    ensures |r| == Count(infos, onDay)
  {
    SortByPermutes(day, InfoStartKey);
    assert |multiset(sorted)| == |multiset(day)|;
    FilterCount(infos, onDay);
  }
}

=== FILE: parsers.dfy ===
/** The nine record parsers of the feed. A crawled record maps each field
    name to a list of strings, of which the parsers read the first; a parser
    either builds its entity or fails where the source raises (a missing
    field, a failed `int()`/`float()`/`strptime`, an unknown token, a URL
    that does not match). The race parsers take `race_id` from the page URL. */
module Parsers {
  import opened Wrappers
  import opened Text
  import opened Clock
  import opened Patterns
  import opened Vocabulary
  import opened Tables

  /** One crawled record: field name to the strings scraped for it. */
  type Record = map<string, seq<string>>

  datatype ParseError =
    | MissingField(name: string)          // `json_data[name][0]` raises
    | MissingPart(index: nat)             // a split has too few parts
    | NotANumber(text: string)            // `int()` or `float()` raises
    | NotADate(text: string)              // `strptime` raises
    | Unknown(field: string, text: string)  // the parser's own `raise`

  /** `json_data[name][0]` exists. */
  predicate Has(rec: Record, name: string) { name in rec && |rec[name]| > 0 }

  function First(rec: Record, name: string): string
    requires Has(rec, name)
  {
    rec[name][0]
  }

  function Field(rec: Record, name: string): (r: Result<string, ParseError>)
    ensures r.Ok? <==> Has(rec, name)
    ensures r.Ok? ==> r.value == First(rec, name)
  {
    if Has(rec, name) then Ok(First(rec, name)) else Err(MissingField(name))
  }

  function Int(text: string): (r: Result<int, ParseError>)
    ensures r.Ok? <==> ParseInt(text).Some?
    ensures r.Ok? ==> Some(r.value) == ParseInt(text)
  {
    ParseInt(text).ToResult(NotANumber(text))
  }

  function Float(text: string): (r: Result<real, ParseError>)
    ensures r.Ok? <==> ParseFloat(text).Some?
    ensures r.Ok? ==> Some(r.value) == ParseFloat(text)
  {
    ParseFloat(text).ToResult(NotANumber(text))
  }

  function Part(parts: seq<string>, i: nat): (r: Result<string, ParseError>)
    ensures r.Ok? <==> i < |parts|
    ensures r.Ok? ==> r.value == parts[i]
  {
    if i < |parts| then Ok(parts[i]) else Err(MissingPart(i))
  }

  /** The first value of a field split on `/`. */
  function PartsOf(rec: Record, name: string): seq<string>
    requires Has(rec, name)
  {
    Split(First(rec, name), '/')
  }

  /** The race groups of the record's URL for a `racelist` or `raceresult` page. */
  function UrlOf(rec: Record, page: string): Option<RaceUrl>
  {
    if Has(rec, "url") then SearchRaceUrl(First(rec, "url"), page) else None
  }

  function RaceUrlField(rec: Record, page: string): (r: Result<RaceUrl, ParseError>)
    ensures r.Ok? <==> UrlOf(rec, page).Some?
    ensures r.Ok? ==> Some(r.value) == UrlOf(rec, page) && WellFormedUrl(r.value)
  {
    var url :- Field(rec, "url");
    SearchRaceUrl(url, page).ToResult(Unknown("url", url))
  }

  // ---------------------------------------------------------------- race index

  datatype RaceIndex = RaceIndex(
    placeId: string, placeName: string, raceName: string,
    raceIndexId: string, raceGradeType: int)

  /** A day of a meeting tied to the meeting's first day. */
  datatype IndexLink = IndexLink(raceIndexId: string, childId: string)

  predicate AllIndexUrls(urls: seq<string>)
  {
    forall k :: 0 <= k < |urls| ==> SearchRaceIndexId(urls[k]).Some?
  }

  /** The `day_place` ids of the meeting's day URLs, in list order. */
  function IndexIds(urls: seq<string>): (ids: seq<string>)
    requires AllIndexUrls(urls)
    ensures |ids| == |urls|
    ensures forall k :: 0 <= k < |urls| ==> Some(ids[k]) == SearchRaceIndexId(urls[k])
  {
    if urls == [] then []
    else IndexIds(urls[..|urls| - 1]) + [SearchRaceIndexId(urls[|urls| - 1]).value]
  }

  function IdKey(id: string): Key { [Str(id)] }

  /** `sorted(ids)[0]` is the least id in Python's string order. */
  lemma SortedHeadLeast(ids: seq<string>)
    requires |ids| > 0
    ensures |SortBy(ids, IdKey)| == |ids|
    ensures forall x :: x in ids ==> x == SortBy(ids, IdKey)[0] || StrLt(SortBy(ids, IdKey)[0], x)
  {
    var s := SortBy(ids, IdKey);
    SortByPermutes(ids, IdKey);
    SortBySorted(ids, IdKey);
    assert |s| == |multiset(s)| == |multiset(ids)| == |ids|;
    forall x | x in ids
      ensures x == s[0] || StrLt(s[0], x)
    {
      assert x in multiset(ids);
      var j :| 0 <= j < |s| && s[j] == x;
      if j > 0 {
        assert KeyLe(IdKey(s[0]), IdKey(s[j]));
      }
    }
  }

  /** The link rows from the meeting's first day to each of its days. */
  method LinkAll(head: string, ids: seq<string>) returns (links: seq<IndexLink>)
    ensures |links| == |ids|
    ensures forall k :: 0 <= k < |ids| ==> links[k] == IndexLink(head, ids[k])
  {
    links := [];
    var j := 0;
    while j < |ids|
      invariant 0 <= j <= |ids| && |links| == j
      invariant forall k :: 0 <= k < j ==> links[k] == IndexLink(head, ids[k])
    {
      links := links + [IndexLink(head, ids[j])];
      j := j + 1;
    }
  }

  /** `parse_race_index`: the meeting's id is the least of its days' ids,
      and every day is linked to it, in sorted order. */
  method ParseRaceIndex(rec: Record) returns (r: Result<(RaceIndex, seq<IndexLink>), ParseError>)
    ensures r.Ok? ==> Has(rec, "place_id") && Has(rec, "place_name") && Has(rec, "race_name")
    ensures r.Ok? ==> r.value.0.placeId == First(rec, "place_id")
    ensures r.Ok? ==> r.value.0.placeName == First(rec, "place_name") && r.value.0.raceName == First(rec, "race_name")
    ensures r.Ok? ==>
      && "race_index_urls" in rec && |rec["race_index_urls"]| > 0
      && AllIndexUrls(rec["race_index_urls"])
      && var ids := SortBy(IndexIds(rec["race_index_urls"]), IdKey);
         && |ids| == |r.value.1| > 0
         && r.value.0.raceIndexId == ids[0]
         && forall k :: 0 <= k < |ids| ==> r.value.1[k] == IndexLink(ids[0], ids[k])
    ensures r.Ok? ==> Has(rec, "race_grade") && GradeCode(First(rec, "race_grade")) == Some(r.value.0.raceGradeType)
    ensures "race_index_urls" in rec && !AllIndexUrls(rec["race_index_urls"]) ==> r.Err?
    ensures "race_index_urls" in rec && rec["race_index_urls"] == [] ==> r.Err?
    ensures Has(rec, "race_grade") && GradeCode(First(rec, "race_grade")).None? ==> r.Err?
    /* Every column the source reads is there and well formed: the meeting is built. */
    ensures && Has(rec, "place_id") && Has(rec, "place_name") && Has(rec, "race_name")
            && "race_index_urls" in rec && rec["race_index_urls"] != [] && AllIndexUrls(rec["race_index_urls"])
            && Has(rec, "race_grade") && GradeCode(First(rec, "race_grade")).Some?
            ==> r.Ok?
  {
    if !Has(rec, "place_id") {
      return Err(MissingField("place_id"));
    }
    if !Has(rec, "place_name") {
      return Err(MissingField("place_name"));
    }
    if !Has(rec, "race_name") {
      return Err(MissingField("race_name"));
    }
    if "race_index_urls" !in rec {
      return Err(MissingField("race_index_urls"));
    }
    var urls := rec["race_index_urls"];
    var ids: seq<string> := [];
    var i := 0;
    while i < |urls|
      invariant 0 <= i <= |urls| && |ids| == i
      invariant forall k :: 0 <= k < i ==> Some(ids[k]) == SearchRaceIndexId(urls[k])
    {
      var id := SearchRaceIndexId(urls[i]);
      if id.None? {
        return Err(Unknown("race_index_urls", urls[i]));
      }
      ids := ids + [id.value];
      i := i + 1;
    }
    assert ids == IndexIds(urls);
    var sorted := SortBy(ids, IdKey);
    if ids == [] {
      return Err(MissingPart(0));
    }
    SortedHeadLeast(ids);
    var head := sorted[0];
    if !Has(rec, "race_grade") {
      return Err(MissingField("race_grade"));
    }
    var grade := GradeCode(First(rec, "race_grade"));
    if grade.None? {
      return Err(Unknown("race_grade", First(rec, "race_grade")));
    }
    var links := LinkAll(head, sorted);
    var index := RaceIndex(First(rec, "place_id"), First(rec, "place_name"), First(rec, "race_name"),
                           head, grade.value);
    return Ok((index, links));
  }

  // -------------------------------------------------------------- race bracket

  datatype RaceBracket = RaceBracket(
    raceId: string, bracketNumber: int,
    racerId: string, racerClassType: int,
    belongTo: string, birthPlace: string, age: int, weight: Option<real>,
    flyingStartCount: int, lateStartCount: int, averageStartTiming: Option<real>,
    firstPlaceRateAllPlace: real, secondPlaceRateAllPlace: real, thirdPlaceRateAllPlace: real,
    firstPlaceRateCurrentPlace: real, secondPlaceRateCurrentPlace: real, thirdPlaceRateCurrentPlace: real,
    motorId: int, secondPlaceRateMotor: real, thirdPlaceRateMotor: real,
    boatId: int, secondPlaceRateBoat: real, thirdPlaceRateBoat: real)

  /** A number with its unit, or `-` for none. */
  function DashOr(text: string, unit: string): (r: Result<Option<real>, ParseError>)
    ensures r.Ok? ==> (r.value.None? <==> text == "-")
    ensures text == "-" ==> r == Ok(None)
    ensures text != "-" ==> (r.Ok? <==> ParseFloat(Unitless(text, unit)).Some?)
    ensures r.Ok? && r.value.Some? ==> Some(r.value.value) == ParseFloat(Unitless(text, unit))
  {
    if text == "-" then Ok(None)
    else
      var v :- Float(Unitless(text, unit));
      Ok(Some(v))
  }

  /** The text with its unit removed, as `text.replace(unit, "")` does. */
  function Unitless(text: string, unit: string): string
  {
    if unit == [] then text else Replace(text, unit, "")
  }

  /** `racer_data1`, e.g. `4530/B2`: registration number and class. */
  function RacerData1(rec: Record): (r: Result<(string, int), ParseError>)
    ensures r.Ok? ==> Has(rec, "racer_data1") && |PartsOf(rec, "racer_data1")| >= 2
    ensures r.Ok? ==> r.value.0 == PartsOf(rec, "racer_data1")[0]
    ensures r.Ok? ==> ClassCode(PartsOf(rec, "racer_data1")[1]) == Some(r.value.1)
    ensures Has(rec, "racer_data1") && |PartsOf(rec, "racer_data1")| >= 2
            && ClassCode(PartsOf(rec, "racer_data1")[1]).Some?
            ==> r.Ok?
  {
    var text :- Field(rec, "racer_data1");
    var parts := Split(text, '/');
    var cls :- Part(parts, 1);
    var code :- ClassCode(cls).ToResult(Unknown("racer_class", cls));
    Ok((parts[0], code))
  }

  /** `racer_data2`, e.g. `福岡/福岡/34歳/44.5kg`: branch, birthplace, age
      and weight, the weight `-` when unknown. */
  function RacerData2(rec: Record): (r: Result<(string, string, int, Option<real>), ParseError>)
    ensures r.Ok? ==> Has(rec, "racer_data2") && |PartsOf(rec, "racer_data2")| >= 4
    ensures r.Ok? ==> r.value.0 == PartsOf(rec, "racer_data2")[0] && r.value.1 == PartsOf(rec, "racer_data2")[1]
    ensures r.Ok? ==> Some(r.value.2) == ParseInt(Replace(PartsOf(rec, "racer_data2")[2], "歳", ""))
    ensures r.Ok? ==> (r.value.3.None? <==> PartsOf(rec, "racer_data2")[3] == "-")
    ensures r.Ok? && r.value.3.Some? ==>
      Some(r.value.3.value) == ParseFloat(Replace(PartsOf(rec, "racer_data2")[3], "kg", ""))
    ensures Has(rec, "racer_data2") && |PartsOf(rec, "racer_data2")| >= 4
            && ParseInt(Replace(PartsOf(rec, "racer_data2")[2], "歳", "")).Some?
            && (PartsOf(rec, "racer_data2")[3] == "-" || ParseFloat(Replace(PartsOf(rec, "racer_data2")[3], "kg", "")).Some?)
            ==> r.Ok?
  {
    var text :- Field(rec, "racer_data2");
    var parts := Split(text, '/');
    var birthPlace :- Part(parts, 1);
    var ageText :- Part(parts, 2);
    var age :- Int(Replace(ageText, "歳", ""));
    var weightText :- Part(parts, 3);
    var weight :- DashOr(weightText, "kg");
    Ok((parts[0], birthPlace, age, weight))
  }

  /** `racer_data3`, e.g. `F0/L0/0.16`: flying and late starts and the
      average start timing, `-` when there is none. */
  function RacerData3(rec: Record): (r: Result<(int, int, Option<real>), ParseError>)
    ensures r.Ok? ==> Has(rec, "racer_data3") && |PartsOf(rec, "racer_data3")| >= 3
    ensures r.Ok? ==> Some(r.value.0) == ParseInt(Replace(PartsOf(rec, "racer_data3")[0], "F", ""))
    ensures r.Ok? ==> Some(r.value.1) == ParseInt(Replace(PartsOf(rec, "racer_data3")[1], "L", ""))
    ensures r.Ok? ==> (r.value.2.None? <==> PartsOf(rec, "racer_data3")[2] == "-")
    ensures r.Ok? && r.value.2.Some? ==> Some(r.value.2.value) == ParseFloat(PartsOf(rec, "racer_data3")[2])
    ensures Has(rec, "racer_data3") && |PartsOf(rec, "racer_data3")| >= 3
            && ParseInt(Replace(PartsOf(rec, "racer_data3")[0], "F", "")).Some?
            && ParseInt(Replace(PartsOf(rec, "racer_data3")[1], "L", "")).Some?
            && (PartsOf(rec, "racer_data3")[2] == "-" || ParseFloat(PartsOf(rec, "racer_data3")[2]).Some?)
            ==> r.Ok?
  {
    var text :- Field(rec, "racer_data3");
    var parts := Split(text, '/');
    var flying :- Int(Replace(parts[0], "F", ""));
    var lateText :- Part(parts, 1);
    var late :- Int(Replace(lateText, "L", ""));
    var timingText :- Part(parts, 2);
    var timing :- DashOr(timingText, "");
    Ok((flying, late, timing))
  }

  /** Three rates `a/b/c`, e.g. `7.06/53.62/75.36`. */
  function Rates(rec: Record, name: string): (r: Result<(real, real, real), ParseError>)
    ensures r.Ok? ==> Has(rec, name) && |PartsOf(rec, name)| >= 3
    ensures r.Ok? ==> Some(r.value.0) == ParseFloat(PartsOf(rec, name)[0])
    ensures r.Ok? ==> Some(r.value.1) == ParseFloat(PartsOf(rec, name)[1])
    ensures r.Ok? ==> Some(r.value.2) == ParseFloat(PartsOf(rec, name)[2])
    ensures Has(rec, name) && |PartsOf(rec, name)| >= 3 && ParseFloat(PartsOf(rec, name)[0]).Some?
            && ParseFloat(PartsOf(rec, name)[1]).Some? && ParseFloat(PartsOf(rec, name)[2]).Some?
            ==> r.Ok?
  {
    var text :- Field(rec, name);
    var parts := Split(text, '/');
    var a :- Float(parts[0]);
    var bText :- Part(parts, 1);
    var b :- Float(bText);
    var cText :- Part(parts, 2);
    var c :- Float(cText);
    Ok((a, b, c))
  }

  /** A motor or boat: its number and two rates, e.g. `20/35.35/49.49`. */
  function Equipment(rec: Record, name: string): (r: Result<(int, real, real), ParseError>)
    ensures r.Ok? ==> Has(rec, name) && |PartsOf(rec, name)| >= 3
    ensures r.Ok? ==> Some(r.value.0) == ParseInt(PartsOf(rec, name)[0])
    ensures r.Ok? ==> Some(r.value.1) == ParseFloat(PartsOf(rec, name)[1])
    ensures r.Ok? ==> Some(r.value.2) == ParseFloat(PartsOf(rec, name)[2])
    ensures Has(rec, name) && |PartsOf(rec, name)| >= 3 && ParseInt(PartsOf(rec, name)[0]).Some?
            && ParseFloat(PartsOf(rec, name)[1]).Some? && ParseFloat(PartsOf(rec, name)[2]).Some?
            ==> r.Ok?
  {
    var text :- Field(rec, name);
    var parts := Split(text, '/');
    var id :- Int(parts[0]);
    var bText :- Part(parts, 1);
    var b :- Float(bText);
    var cText :- Part(parts, 2);
    var c :- Float(cText);
    Ok((id, b, c))
  }

  /** The racer's win rates overall and at this place, then motor and boat. */
  function RacerRates(rec: Record): (r: Result<((real, real, real), (real, real, real), (int, real, real), (int, real, real)), ParseError>)
    ensures r.Ok? ==> Rates(rec, "racer_rate_all_place") == Ok(r.value.0)
    ensures r.Ok? ==> Rates(rec, "racer_rate_current_place") == Ok(r.value.1)
    ensures r.Ok? ==> Equipment(rec, "motor_rate") == Ok(r.value.2)
    ensures r.Ok? ==> Equipment(rec, "boat_rate") == Ok(r.value.3)
    ensures r.Ok? <==> (Rates(rec, "racer_rate_all_place").Ok? && Rates(rec, "racer_rate_current_place").Ok?
                        && Equipment(rec, "motor_rate").Ok? && Equipment(rec, "boat_rate").Ok?)
  {
    var all :- Rates(rec, "racer_rate_all_place");
    var cur :- Rates(rec, "racer_rate_current_place");
    var motor :- Equipment(rec, "motor_rate");
    var boat :- Equipment(rec, "boat_rate");
    Ok((all, cur, motor, boat))
  }

  /** `parse_race_bracket`: one racer's line of the race card. */
  function ParseRaceBracket(rec: Record): (r: Result<RaceBracket, ParseError>)
    ensures r.Ok? ==> Has(rec, "bracket_number") && ParseInt(First(rec, "bracket_number")) == Some(r.value.bracketNumber)
    ensures r.Ok? ==> UrlOf(rec, "racelist").Some? && r.value.raceId == RaceId(UrlOf(rec, "racelist").value)
    ensures r.Ok? ==> RacerData1(rec) == Ok((r.value.racerId, r.value.racerClassType))
    ensures r.Ok? ==> RacerData2(rec) == Ok((r.value.belongTo, r.value.birthPlace, r.value.age, r.value.weight))
    ensures r.Ok? ==> RacerData3(rec) == Ok((r.value.flyingStartCount, r.value.lateStartCount, r.value.averageStartTiming))
    ensures r.Ok? ==> RacerRates(rec) == Ok((
      (r.value.firstPlaceRateAllPlace, r.value.secondPlaceRateAllPlace, r.value.thirdPlaceRateAllPlace),
      (r.value.firstPlaceRateCurrentPlace, r.value.secondPlaceRateCurrentPlace, r.value.thirdPlaceRateCurrentPlace),
      (r.value.motorId, r.value.secondPlaceRateMotor, r.value.thirdPlaceRateMotor),
      (r.value.boatId, r.value.secondPlaceRateBoat, r.value.thirdPlaceRateBoat)))
    ensures UrlOf(rec, "racelist").None? ==> r.Err?
    /* Every column reads: the racer's line is built. */
    ensures && Has(rec, "bracket_number") && ParseInt(First(rec, "bracket_number")).Some?
            && UrlOf(rec, "racelist").Some? && RacerData1(rec).Ok? && RacerData2(rec).Ok?
            && RacerData3(rec).Ok? && RacerRates(rec).Ok?
            ==> r.Ok?
  {
    var bn :- Field(rec, "bracket_number");
    var bracketNumber :- Int(bn);
    var u :- RaceUrlField(rec, "racelist");
    var d1 :- RacerData1(rec);
    var d2 :- RacerData2(rec);
    var d3 :- RacerData3(rec);
    var rates :- RacerRates(rec);
    var (all, cur, motor, boat) := rates;
    Ok(RaceBracket(
      RaceId(u), bracketNumber, d1.0, d1.1,
      d2.0, d2.1, d2.2, d2.3,
      d3.0, d3.1, d3.2,
      all.0, all.1, all.2, cur.0, cur.1, cur.2,
      motor.0, motor.1, motor.2, boat.0, boat.1, boat.2))
  }

  /** `int()` reads one digit, ASCII or full-width (the race card writes
      bracket numbers as `２`), as its value. */
  lemma SingleDigitInt(c: char)
    requires IsDigit(c)
    ensures ParseInt([c]) == Some(DigitValue(c))
  {
    var s := [c];
    assert s[..0] == [] && s[0] == c;
    assert AllDigits(s) && DigitsValue(s) == DigitValue(c);
  }

  // ------------------------------------------------------- bracket race result

  datatype BracketResult = BracketResult(
    raceId: string, bracketNumber: int, runNumber: int, raceRound: int,
    startTiming: real, result: int, approachCourse: Option<int>, bracketNumberRun: int)

  /** A result column: a fault mark or a finishing position. */
  function ResultField(rec: Record): (r: Result<int, ParseError>)
    ensures r.Ok? <==> Has(rec, "result") && ResultCode(First(rec, "result")).Some?
    ensures r.Ok? ==> Some(r.value) == ResultCode(First(rec, "result"))
  {
    var text :- Field(rec, "result");
    ResultCode(text).ToResult(NotANumber(text))
  }

  /** The leading numbers of a past race: bracket, run, round and start timing. */
  function ResultHeader(rec: Record): (r: Result<(int, int, int, real), ParseError>)
    ensures r.Ok? ==> Has(rec, "bracket_number") && ParseInt(First(rec, "bracket_number")) == Some(r.value.0)
    ensures r.Ok? ==> Has(rec, "run_number") && ParseInt(First(rec, "run_number")) == Some(r.value.1)
    ensures r.Ok? ==> Has(rec, "race_round") && ParseInt(First(rec, "race_round")) == Some(r.value.2)
    ensures r.Ok? ==> Has(rec, "start_timing") && ParseFloat("0" + First(rec, "start_timing")) == Some(r.value.3)
    ensures && Has(rec, "bracket_number") && ParseInt(First(rec, "bracket_number")).Some?
            && Has(rec, "run_number") && ParseInt(First(rec, "run_number")).Some?
            && Has(rec, "race_round") && ParseInt(First(rec, "race_round")).Some?
            && Has(rec, "start_timing") && ParseFloat("0" + First(rec, "start_timing")).Some?
            ==> r.Ok?
  {
    var bn :- Field(rec, "bracket_number");
    var bracketNumber :- Int(bn);
    var rn :- Field(rec, "run_number");
    var runNumber :- Int(rn);
    var rr :- Field(rec, "race_round");
    var raceRound :- Int(rr);
    var st :- Field(rec, "start_timing");
    var startTiming :- Float("0" + st);
    Ok((bracketNumber, runNumber, raceRound, startTiming))
  }

  /** The approach course, blank (a no-break space) when the boat did not start. */
  function ApproachCourse(text: string): (r: Result<Option<int>, ParseError>)
    ensures r.Ok? ==> (r.value.None? <==> text == "\U{A0}")
    ensures r.Ok? && r.value.Some? ==> Some(r.value.value) == ParseInt(text)
    ensures r.Ok? <==> text == "\U{A0}" || ParseInt(text).Some?
  {
    if text == "\U{A0}" then Ok(None)
    else
      var c :- Int(text);
      Ok(Some(c))
  }

  /** The trailing columns of a past race: approach course, race link and
      the boat's colour. */
  function ResultTail(rec: Record): (r: Result<(Option<int>, RaceUrl, int), ParseError>)
    ensures r.Ok? ==> Has(rec, "approach_course") && (r.value.0.None? <==> First(rec, "approach_course") == "\U{A0}")
    ensures r.Ok? && r.value.0.Some? ==> Some(r.value.0.value) == ParseInt(First(rec, "approach_course"))
    ensures r.Ok? ==> UrlOf(rec, "racelist") == Some(r.value.1)
    ensures r.Ok? ==> Has(rec, "bracket_color") && SearchBoatColor(First(rec, "bracket_color")) == Some(r.value.2)
    ensures r.Ok? ==> 0 <= r.value.2 <= 9
    ensures && Has(rec, "approach_course") && ApproachCourse(First(rec, "approach_course")).Ok?
            && UrlOf(rec, "racelist").Some?
            && Has(rec, "bracket_color") && SearchBoatColor(First(rec, "bracket_color")).Some?
            ==> r.Ok?
  {
    var ac :- Field(rec, "approach_course");
    var approach :- ApproachCourse(ac);
    var u :- RaceUrlField(rec, "racelist");
    var color :- Field(rec, "bracket_color");
    var run :- SearchBoatColor(color).ToResult(Unknown("bracket_color", color));
    Ok((approach, u, run))
  }

  /** `parse_race_bracket_result`: one past race of a racer, from the race card. */
  function ParseRaceBracketResult(rec: Record): (r: Result<BracketResult, ParseError>)
    ensures r.Ok? ==> ResultHeader(rec) == Ok((r.value.bracketNumber, r.value.runNumber, r.value.raceRound, r.value.startTiming))
    ensures r.Ok? ==> Has(rec, "start_timing") && ParseFloat("0" + First(rec, "start_timing")) == Some(r.value.startTiming)
    ensures r.Ok? ==> Has(rec, "result") && ResultCode(First(rec, "result")) == Some(r.value.result)
    ensures r.Ok? ==> Has(rec, "approach_course") && (r.value.approachCourse.None? <==> First(rec, "approach_course") == "\U{A0}")
    ensures r.Ok? && r.value.approachCourse.Some? ==>
      Some(r.value.approachCourse.value) == ParseInt(First(rec, "approach_course"))
    ensures r.Ok? ==> UrlOf(rec, "racelist").Some? && r.value.raceId == RaceId(UrlOf(rec, "racelist").value)
    ensures r.Ok? ==> Has(rec, "bracket_color") && SearchBoatColor(First(rec, "bracket_color")) == Some(r.value.bracketNumberRun)
    ensures r.Ok? ==> 0 <= r.value.bracketNumberRun <= 9
    ensures Has(rec, "result") && First(rec, "result") in FaultTokens ==> r.Err? || r.value.result < 0
    ensures r.Ok? <==> ResultHeader(rec).Ok? && ResultField(rec).Ok? && ResultTail(rec).Ok?
  {
    var h :- ResultHeader(rec);
    var result :- ResultField(rec);
    var t :- ResultTail(rec);
    Ok(BracketResult(RaceId(t.1), h.0, h.1, h.2, h.3, result, t.0, t.2))
  }

  // ------------------------------------------------------------------ race info

  datatype RaceInfo = RaceInfo(
    raceId: string, raceRound: int, placeId: string,
    startDatetime: Timestamp, raceSubname: string, courseLength: int)

  /** `parse_race_info`: round, place, start time and course of a race. */
  function ParseRaceInfo(rec: Record): (r: Result<RaceInfo, ParseError>)
    ensures r.Ok? ==> UrlOf(rec, "racelist").Some?
    ensures r.Ok? ==>
      var u := UrlOf(rec, "racelist").value;
      && r.value.raceId == RaceId(u)
      && ParseInt(u.rno) == Some(r.value.raceRound) && r.value.raceRound >= 0
      && r.value.placeId == u.jcd
    ensures r.Ok? ==> (Has(rec, "start_time")
      && StartDatetime(UrlOf(rec, "racelist").value.hd, First(rec, "start_time")) == Some(r.value.startDatetime))
    ensures r.Ok? ==>
      var d := ParseYmd(UrlOf(rec, "racelist").value.hd);
      d.Some? && Midnight(d.value) <= r.value.startDatetime < Midnight(d.value) + Day
    ensures r.Ok? ==> Has(rec, "course_length") && CourseOf(First(rec, "course_length"), r.value.raceSubname, r.value.courseLength)
    ensures UrlOf(rec, "racelist").None? ==> r.Err?
    ensures UrlOf(rec, "racelist").Some? ==>
      (r.Ok? <==> StartField(rec, UrlOf(rec, "racelist").value.hd).Ok? && CourseField(rec).Ok?)
  {
    var u :- RaceUrlField(rec, "racelist");
    assert AllDigits(u.rno);
    var raceRound := ParseInt(u.rno).value;
    var start :- StartField(rec, u.hd);
    var course :- CourseField(rec);
    Ok(RaceInfo(RaceId(u), raceRound, u.jcd, start, course.0, course.1))
  }

  /** The `start_time` column on the race's day `hd`. */
  function StartField(rec: Record, hd: string): (r: Result<Timestamp, ParseError>)
    ensures r.Ok? ==> Has(rec, "start_time") && StartDatetime(hd, First(rec, "start_time")) == Some(r.value)
    ensures r.Ok? <==> Has(rec, "start_time") && StartDatetime(hd, First(rec, "start_time")).Some?
  {
    var startTime :- Field(rec, "start_time");
    StartDatetime(hd, startTime).ToResult(NotADate(hd + " " + startTime))
  }

  /** The course cell names the race's subtitle and, in metres, its length. */
  predicate CourseOf(text: string, subname: string, length: int)
  {
    && SearchCourseLength(text).Some?
    && subname == Strip(SearchCourseLength(text).value.0)
    && ParseInt(SearchCourseLength(text).value.1) == Some(length)
  }

  /** The `course_length` column: subtitle and course length. */
  function CourseField(rec: Record): (r: Result<(string, int), ParseError>)
    ensures r.Ok? ==> Has(rec, "course_length") && CourseOf(First(rec, "course_length"), r.value.0, r.value.1)
    ensures r.Ok? <==> (Has(rec, "course_length") && SearchCourseLength(First(rec, "course_length")).Some?
                        && ParseInt(SearchCourseLength(First(rec, "course_length")).value.1).Some?)
  {
    var cl :- Field(rec, "course_length");
    var g :- SearchCourseLength(cl).ToResult(Unknown("course_length", cl));
    var length :- Int(g.1);
    Ok((Strip(g.0), length))
  }

  // ---------------------------------------------------------------- race result

  datatype RaceResult = RaceResult(raceId: string, bracketNumber: int, result: int, resultTime: Option<real>)

  /** Minutes, seconds and tenths as seconds. */
  function ResultSeconds(g: (string, string, string)): real
    requires AllDigits(g.0) && AllDigits(g.1) && AllDigits(g.2)
  {
    DigitsValue(g.0) as real * 60.0 + DigitsValue(g.1) as real + DigitsValue(g.2) as real / 10.0
  }

  /** The race time `m'ss"t`, none when the cell is blank. */
  function ResultTime(text: string): (r: Result<Option<real>, ParseError>)
    ensures r.Ok? && r.value.Some? <==> SearchResultTime(text).Some?
    ensures r.Ok? && r.value.Some? ==> r.value.value == ResultSeconds(SearchResultTime(text).value)
    ensures r.Ok? && r.value.None? ==> Strip(text) == []
    ensures SearchResultTime(text).None? && Strip(text) != [] ==> r.Err?
    ensures SearchResultTime(text).Some? || Strip(text) == [] ==> r.Ok?
  {
    var g := SearchResultTime(text);
    if g.Some? then Ok(Some(TimeOf(g.value)))
    else if |Strip(text)| == 0 then Ok(None)
    else Err(Unknown("result_time", text))
  }

  /** `int(m) * 60.0 + int(s) + int(t) / 10.0` on the three digit groups. */
  function TimeOf(g: (string, string, string)): (t: real)
    requires |g.0| > 0 && AllAsciiDigits(g.0) && |g.1| > 0 && AllAsciiDigits(g.1)
    requires |g.2| > 0 && AllAsciiDigits(g.2)
    ensures AllDigits(g.0) && AllDigits(g.1) && AllDigits(g.2) && t == ResultSeconds(g)
  {
    assert AllDigits(g.0) && AllDigits(g.1) && AllDigits(g.2);
    ParseInt(g.0).value as real * 60.0 + ParseInt(g.1).value as real + ParseInt(g.2).value as real / 10.0
  }

  /** `parse_race_result`: a boat's finish and race time. */
  function ParseRaceResult(rec: Record): (r: Result<RaceResult, ParseError>)
    ensures r.Ok? ==> Has(rec, "bracket_number") && ParseInt(First(rec, "bracket_number")) == Some(r.value.bracketNumber)
    ensures r.Ok? ==> Has(rec, "result") && ResultCode(First(rec, "result")) == Some(r.value.result)
    ensures r.Ok? ==> UrlOf(rec, "raceresult").Some? && r.value.raceId == RaceId(UrlOf(rec, "raceresult").value)
    ensures r.Ok? ==> Has(rec, "result_time")
    ensures r.Ok? ==> (r.value.resultTime.Some? <==> SearchResultTime(First(rec, "result_time")).Some?)
    ensures r.Ok? && r.value.resultTime.Some? ==>
      r.value.resultTime.value == ResultSeconds(SearchResultTime(First(rec, "result_time")).value)
    ensures r.Ok? && r.value.resultTime.None? ==> Strip(First(rec, "result_time")) == []
    ensures UrlOf(rec, "raceresult").None? ==> r.Err?
    /* Every column reads: the boat's result is built. */
    ensures && Has(rec, "bracket_number") && ParseInt(First(rec, "bracket_number")).Some?
            && Has(rec, "result") && ResultCode(First(rec, "result")).Some?
            && UrlOf(rec, "raceresult").Some? && Has(rec, "result_time")
            && (SearchResultTime(First(rec, "result_time")).Some? || Strip(First(rec, "result_time")) == [])
            ==> r.Ok?
  {
    var bn :- Field(rec, "bracket_number");
    var bracketNumber :- Int(bn);
    var result :- ResultField(rec);
    var u :- RaceUrlField(rec, "raceresult");
    var rt :- Field(rec, "result_time");
    var time :- ResultTime(rt);
    Ok(RaceResult(RaceId(u), bracketNumber, result, time))
  }

  // ------------------------------------------------------ race result, start

  datatype ResultStart = ResultStart(
    raceId: string, bracketNumber: int, resultStartTime: Option<real>, kimarite: Option<string>)

  /** The start column, e.g. `.12   まくり`: start timing in hundredths and
      the winning move, or `L` for a late start. */
  function StartColumn(text: string): (r: Result<(Option<real>, Option<string>), ParseError>)
    ensures r.Ok? ==> (r.value.0.Some? <==> SearchStartTiming(text).Some?)
    ensures r.Ok? && r.value.0.Some? ==>
      var g := SearchStartTiming(text).value;
      r.value.0.value == Hundredths(g.0[1], g.0[2])
    ensures r.Ok? && r.value.0.Some? ==> 0.0 <= r.value.0.value < 1.0
    ensures r.Ok? && r.value.0.None? ==> Strip(text) == "L" && r.value.1.None?
    ensures r.Ok? && r.value.0.Some? ==>
      var move := Strip(SearchStartTiming(text).value.1);
      r.value.1 == if move == [] then None else Some(move)
    ensures r.Ok? && r.value.1.Some? ==> r.value.1.value != [] && Trimmed(r.value.1.value)
    ensures SearchStartTiming(text).None? && Strip(text) != "L" ==> r.Err?
    ensures SearchStartTiming(text).Some? || Strip(text) == "L" ==> r.Ok?
  {
    match SearchStartTiming(text)
    case Some(g) =>
      HundredthsValue("0" + g.0);
      var time := ParseFloat("0" + g.0).value;
      var move := Strip(g.1);
      assert Trimmed(move);
      Ok((Some(time), if |move| == 0 then None else Some(move)))
    case None =>
      if Strip(text) == "L" then Ok((None, None)) else Err(Unknown("start_time", text))
  }

  /** `parse_race_result_start`: a boat's start timing and winning move. */
  function ParseRaceResultStart(rec: Record): (r: Result<ResultStart, ParseError>)
    ensures r.Ok? ==> Has(rec, "bracket_number") && ParseInt(First(rec, "bracket_number")) == Some(r.value.bracketNumber)
    ensures r.Ok? ==> Has(rec, "start_time") && StartColumn(First(rec, "start_time")) == Ok((r.value.resultStartTime, r.value.kimarite))
    ensures r.Ok? ==> UrlOf(rec, "raceresult").Some? && r.value.raceId == RaceId(UrlOf(rec, "raceresult").value)
    ensures r.Ok? ==> Has(rec, "start_time")
    ensures r.Ok? ==> (r.value.resultStartTime.Some? <==> SearchStartTiming(First(rec, "start_time")).Some?)
    ensures r.Ok? && r.value.resultStartTime.Some? ==> 0.0 <= r.value.resultStartTime.value < 1.0
    ensures r.Ok? && r.value.resultStartTime.None? ==>
      Strip(First(rec, "start_time")) == "L" && r.value.kimarite.None?
    ensures UrlOf(rec, "raceresult").None? ==> r.Err?
    /* Every column reads: the boat's start is built. */
    ensures && Has(rec, "bracket_number") && ParseInt(First(rec, "bracket_number")).Some?
            && UrlOf(rec, "raceresult").Some? && Has(rec, "start_time")
            && (SearchStartTiming(First(rec, "start_time")).Some? || Strip(First(rec, "start_time")) == "L")
            ==> r.Ok?
  {
    var bn :- Field(rec, "bracket_number");
    var bracketNumber :- Int(bn);
    var u :- RaceUrlField(rec, "raceresult");
    var st :- Field(rec, "start_time");
    var col :- StartColumn(st);
    Ok(ResultStart(RaceId(u), bracketNumber, col.0, col.1))
  }

  // --------------------------------------------------------------------- payoff

  datatype RacePayoff = RacePayoff(
    raceId: string, betType: int,
    bracketNumber1: Option<int>, bracketNumber2: Option<int>, bracketNumber3: Option<int>,
    favorite: Option<int>, payoff: Option<real>)

  /** What a stake returns at a payoff, `vote_amount * payoff`. */
  function Returned(stake: real, payoff: real): real
  {
    stake * payoff
  }

  /** How many boats a bet of each type names. */
  function Arity(betType: int): nat
  {
    if betType <= 2 then 1 else if betType <= 5 then 2 else 3
  }

  /** The separator of a combination: `-` for the ordered bets (exacta,
      trifecta), `=` for the unordered ones. */
  function BracketSep(betType: int): char
  {
    if betType == 4 || betType == 6 then '-' else '='
  }

  /** The boats of a payoff line for a bet type. */
  function PayoffBrackets(betType: int, text: string): (r: Result<(Option<int>, Option<int>, Option<int>), ParseError>)
    requires 1 <= betType <= 7
    ensures r.Ok? ==> r.value.0.Some?
    ensures r.Ok? ==> (r.value.1.Some? <==> Arity(betType) >= 2) && (r.value.2.Some? <==> Arity(betType) == 3)
    ensures r.Ok? && Arity(betType) == 1 ==> r.value.0 == ParseInt(text)
    ensures r.Ok? && Arity(betType) == 2 ==>
      SearchPair(text, BracketSep(betType)) == Some((r.value.0.value, r.value.1.value))
    ensures r.Ok? && Arity(betType) == 3 ==>
      SearchTriple(text, BracketSep(betType)) == Some((r.value.0.value, r.value.1.value, r.value.2.value))
    ensures r.Ok? <==>
      if Arity(betType) == 1 then ParseInt(text).Some?
      else if Arity(betType) == 2 then SearchPair(text, BracketSep(betType)).Some?
      else SearchTriple(text, BracketSep(betType)).Some?
  {
    if betType <= 2 then
      var b :- Int(text);
      Ok((Some(b), None, None))
    else if betType <= 5 then
      var p :- SearchPair(text, BracketSep(betType)).ToResult(Unknown("bracket_number", text));
      Ok((Some(p.0), Some(p.1), None))
    else
      var t :- SearchTriple(text, BracketSep(betType)).ToResult(Unknown("bracket_number", text));
      Ok((Some(t.0), Some(t.1), Some(t.2)))
  }

  /** The digit character of a boat number. */
  function DigitChar(d: nat): (c: char)
    requires d < 10
    ensures IsAsciiDigit(c) && DigitValue(c) == d
  {
    ('0' as int + d) as char
  }

  /** A combination as the payoff page writes it, e.g. `2-3-4` or `3=4`. */
  function BracketText(betType: int, a: nat, b: nat, c: nat): string
    requires a < 10 && b < 10 && c < 10
  {
    var sep := BracketSep(betType);
    if Arity(betType) == 1 then [DigitChar(a)]
    else if Arity(betType) == 2 then [DigitChar(a), sep, DigitChar(b)]
    else [DigitChar(a), sep, DigitChar(b), sep, DigitChar(c)]
  }

  /** Every combination reads back as its boats, with as many boats as the
      bet type names. */
  lemma PayoffBracketsRoundTrip(betType: int, a: nat, b: nat, c: nat)
    requires 1 <= betType <= 7 && a < 10 && b < 10 && c < 10
    ensures PayoffBrackets(betType, BracketText(betType, a, b, c)) ==
      Ok((Some(a),
          if Arity(betType) >= 2 then Some(b) else None,
          if Arity(betType) == 3 then Some(c) else None))
  {
    var s := BracketText(betType, a, b, c);
    var sep := BracketSep(betType);
    if Arity(betType) == 1 {
      assert AllDigits(s) && s[..0] == [];
      assert DigitsValue(s) == a;
      assert ParseInt(s) == Some(a);
    } else if Arity(betType) == 2 {
      assert PairAt(s, sep, 0) == Some((a, b));
      assert SearchPair(s, sep) == Some((a, b));
    } else {
      assert TripleAt(s, sep, 0) == Some((a, b, c));
      assert SearchTriple(s, sep) == Some((a, b, c));
    }
  }

  /** Yen paid per 100-yen ticket, as a rate per yen staked. */
  function PerYen(yen: int): real
  {
    yen as real / 100.0
  }

  /** The payoff cell `¥1,450`: yen per 100-yen ticket, as a rate per yen. */
  function PayoffAmount(text: string): (r: Result<Option<real>, ParseError>)
    ensures text == "\U{A0}" ==> r == Ok(None)
    ensures r.Ok? && r.value.Some? ==>
      var n := ParseInt(Replace(Replace(text, "¥", ""), ",", ""));
      n.Some? && r.value.value == PerYen(n.value)
    ensures text != "\U{A0}" ==> (r.Ok? <==> ParseInt(Replace(Replace(text, "¥", ""), ",", "")).Some?)
  {
    if text == "\U{A0}" then Ok(None)
    else
      var n :- Int(Replace(Replace(text, "¥", ""), ",", ""));
      Ok(Some(PerYen(n)))
  }

  /** A yen amount with a thousands comma, such as `¥1,450`, pays its
      thousands and its last three digits per yen staked (14.5). */
  lemma {:induction false} PayoffAmountGrouped(a: string, b: string)
    requires |a| > 0 && AllAsciiDigits(a) && |b| == 3 && AllAsciiDigits(b)
    ensures AllDigits(a) && AllDigits(b)
    ensures PayoffAmount("¥" + a + "," + b) == Ok(Some(PerYen(DigitsValue(a) * 1000 + DigitsValue(b))))
  {
    var text := "¥" + a + "," + b;
    var d := a + b;
    assert Replace(Replace(text, "¥", ""), ",", "") == d by {
      assert text == ['¥'] + (a + [','] + b);
      GroupedDigits(a, b);
    }
    DigitsConcat(a, b);
    PayoffDigits(text, d);
    DigitsValueConcat(a, b);
    assert Pow10(|b|) == 1000;
    assert DigitsValue(d) == DigitsValue(a) * 1000 + DigitsValue(b);
  }

  lemma DigitsConcat(a: string, b: string)
    requires AllAsciiDigits(a) && AllAsciiDigits(b)
    ensures AllAsciiDigits(a + b)
  {
    assert forall k :: 0 <= k < |a + b| ==> (a + b)[k] == if k < |a| then a[k] else b[k - |a|];
  }

  /** Removing `¥` and then `,` from `¥a,b` leaves the digits `a + b`. */
  lemma GroupedDigits(a: string, b: string)
    requires AllAsciiDigits(a) && AllAsciiDigits(b)
    ensures Replace(Replace(['¥'] + (a + [','] + b), "¥", ""), ",", "") == a + b
  {
    var t := a + [','] + b;
    DigitsLack(a, '¥');
    DigitsLack(b, '¥');
    DigitsLack(a, ',');
    DigitsLack(b, ',');
    DropOne('¥', t);
    DropMiddle(a, ',', b);
  }

  /** A yen amount without a comma, such as `¥280`, pays its digits in
      hundredths per yen staked. */
  lemma PayoffAmountPlain(a: string)
    requires |a| > 0 && AllAsciiDigits(a)
    ensures AllDigits(a)
    ensures PayoffAmount("¥" + a) == Ok(Some(PerYen(DigitsValue(a))))
  {
    assert "¥" + a == ['¥'] + a;
    DigitsLack(a, '¥');
    DigitsLack(a, ',');
    DropOne('¥', a);
    NoOccurrence(a, ',');
    PayoffDigits(['¥'] + a, a);
  }

  /** A payoff cell whose digits, once `¥` and `,` are removed, are `d`. */
  lemma {:induction false} PayoffDigits(text: string, d: string)
    requires |text| > 0 && text[0] == '¥'
    requires |d| > 0 && AllAsciiDigits(d) && Replace(Replace(text, "¥", ""), ",", "") == d
    ensures AllDigits(d)
    ensures PayoffAmount(text) == Ok(Some(PerYen(DigitsValue(d))))
  {
    assert text != "\U{A0}" by {
      assert text[0] != "\U{A0}"[0];
    }
    assert AllDigits(d);
  }

  /** The boats of a payoff line; a void race (不成立) or a special payout
      (特払) names none. */
  function PayoffBracketField(rec: Record, betType: int): (r: Result<(Option<int>, Option<int>, Option<int>), ParseError>)
    requires 1 <= betType <= 7
    ensures r.Ok? ==> Has(rec, "bracket_number")
    ensures r.Ok? ==> (r.value.0.None? <==> First(rec, "bracket_number") in {"不成立", "特払"})
    ensures r.Ok? && r.value.0.Some? ==> PayoffBrackets(betType, First(rec, "bracket_number")) == Ok(r.value)
    ensures r.Ok? && r.value.0.None? ==> r.value.1.None? && r.value.2.None?
    ensures Has(rec, "bracket_number") && First(rec, "bracket_number") in {"不成立", "特払"} ==> r.Ok?
    ensures Has(rec, "bracket_number") && PayoffBrackets(betType, First(rec, "bracket_number")).Ok? ==> r.Ok?
  {
    var bn :- Field(rec, "bracket_number");
    if bn == "不成立" || bn == "特払" then Ok((None, None, None)) else PayoffBrackets(betType, bn)
  }

  /** The popularity rank, blank for a void race, and the payoff, a no-break
      space when there is none. */
  /** The favourite column: blank when no favourite is shown. */
  function FavoriteField(rec: Record): (r: Result<Option<int>, ParseError>)
    ensures r.Ok? ==> Has(rec, "favorite") && (r.value.None? <==> Strip(First(rec, "favorite")) == [])
    ensures r.Ok? && r.value.Some? ==> ParseInt(First(rec, "favorite")) == r.value
    ensures Has(rec, "favorite") && (Strip(First(rec, "favorite")) == [] || ParseInt(First(rec, "favorite")).Some?) ==> r.Ok?
  {
    var fav :- Field(rec, "favorite");
    if |Strip(fav)| == 0 then Ok(None)
    else
      var f :- Int(fav);
      Ok(Some(f))
  }

  /** The payoff column, per yen staked. */
  function PayoffField(rec: Record): (r: Result<Option<real>, ParseError>)
    ensures r.Ok? ==> Has(rec, "payoff") && (r.value.None? <==> First(rec, "payoff") == "\U{A0}")
    ensures r.Ok? ==> PayoffAmount(First(rec, "payoff")) == r
    ensures Has(rec, "payoff") ==> PayoffAmount(First(rec, "payoff")) == r
  {
    var p :- Field(rec, "payoff");
    PayoffAmount(p)
  }

  function PayoffTail(rec: Record): (r: Result<(Option<int>, Option<real>), ParseError>)
    ensures r.Ok? ==> FavoriteField(rec) == Ok(r.value.0) && PayoffField(rec) == Ok(r.value.1)
    ensures r.Ok? <==> FavoriteField(rec).Ok? && PayoffField(rec).Ok?
  {
    var favorite :- FavoriteField(rec);
    var payoff :- PayoffField(rec);
    Ok((favorite, payoff))
  }

  /** `parse_race_payoff`: one payoff line of a race. */
  function ParseRacePayoff(rec: Record): (r: Result<RacePayoff, ParseError>)
    ensures r.Ok? ==> UrlOf(rec, "raceresult").Some? && r.value.raceId == RaceId(UrlOf(rec, "raceresult").value)
    ensures r.Ok? ==> Has(rec, "bet_type") && BetTypeCode(First(rec, "bet_type")) == Some(r.value.betType)
    ensures r.Ok? ==> Has(rec, "bracket_number")
    ensures r.Ok? ==>
      (r.value.bracketNumber1.None? <==> First(rec, "bracket_number") in {"不成立", "特払"})
    ensures r.Ok? && r.value.bracketNumber1.None? ==> r.value.bracketNumber2.None? && r.value.bracketNumber3.None?
    ensures r.Ok? && r.value.bracketNumber1.Some? ==>
      PayoffBrackets(r.value.betType, First(rec, "bracket_number")) ==
        Ok((r.value.bracketNumber1, r.value.bracketNumber2, r.value.bracketNumber3))
    ensures r.Ok? ==> PayoffTail(rec) == Ok((r.value.favorite, r.value.payoff))
    ensures UrlOf(rec, "raceresult").None? ==> r.Err?
    ensures Has(rec, "bet_type") && First(rec, "bet_type") !in BetTypeNames ==> r.Err?
    /* Every column reads: the payoff line is built. */
    ensures && UrlOf(rec, "raceresult").Some? && Has(rec, "bet_type") && BetTypeCode(First(rec, "bet_type")).Some?
            && PayoffBracketField(rec, BetTypeCode(First(rec, "bet_type")).value).Ok? && PayoffTail(rec).Ok?
            ==> r.Ok?
  {
    var u :- RaceUrlField(rec, "raceresult");
    var bt :- Field(rec, "bet_type");
    var betType :- BetTypeCode(bt).ToResult(Unknown("bet_type", bt));
    var brackets :- PayoffBracketField(rec, betType);
    var t :- PayoffTail(rec);
    Ok(RacePayoff(RaceId(u), betType, brackets.0, brackets.1, brackets.2, t.0, t.1))
  }

  /** A parsed payoff line carries the favourite and the payoff read from
      their own columns. */
  lemma RacePayoffValues(rec: Record)
    requires ParseRacePayoff(rec).Ok?
    ensures var p := ParseRacePayoff(rec).value;
      && Has(rec, "favorite") && (p.favorite.None? <==> Strip(First(rec, "favorite")) == [])
      && (p.favorite.Some? ==> ParseInt(First(rec, "favorite")) == p.favorite)
      && Has(rec, "payoff") && (p.payoff.None? <==> First(rec, "payoff") == "\U{A0}")
      && PayoffAmount(First(rec, "payoff")) == Ok(p.payoff)
  {
  }

  // ----------------------------------------------------------------------- odds

  datatype RaceOdds = RaceOdds(
    raceId: string, betType: int,
    bracketNumber1: int, bracketNumber2: Option<int>, bracketNumber3: Option<int>,
    odds1: Option<real>, odds2: Option<real>)

  /** The groups of the record's URL for an odds page. */
  function OddsUrlOf(rec: Record): Option<OddsUrl>
  {
    if Has(rec, "url") then SearchOddsUrl(First(rec, "url")) else None
  }

  /** The boats of an odds line, one field each. */
  function OddsBrackets(rec: Record, betType: int): (r: Result<(int, Option<int>, Option<int>), ParseError>)
    ensures r.Ok? ==> (r.value.1.Some? <==> Arity(betType) >= 2) && (r.value.2.Some? <==> Arity(betType) == 3)
    ensures r.Ok? ==> Has(rec, "bracket_number_1") && ParseInt(First(rec, "bracket_number_1")) == Some(r.value.0)
    ensures r.Ok? && r.value.1.Some? ==> Has(rec, "bracket_number_2") && ParseInt(First(rec, "bracket_number_2")) == r.value.1
    ensures r.Ok? && r.value.2.Some? ==> Has(rec, "bracket_number_3") && ParseInt(First(rec, "bracket_number_3")) == r.value.2
    ensures && Has(rec, "bracket_number_1") && ParseInt(First(rec, "bracket_number_1")).Some?
            && (Arity(betType) >= 2 ==> Has(rec, "bracket_number_2") && ParseInt(First(rec, "bracket_number_2")).Some?)
            && (Arity(betType) == 3 ==> Has(rec, "bracket_number_3") && ParseInt(First(rec, "bracket_number_3")).Some?)
            ==> r.Ok?
  {
    var t1 :- Field(rec, "bracket_number_1");
    var b1 :- Int(t1);
    if Arity(betType) == 1 then Ok((b1, None, None))
    else
      var t2 :- Field(rec, "bracket_number_2");
      var b2 :- Int(t2);
      if Arity(betType) == 2 then Ok((b1, Some(b2), None))
      else
        var t3 :- Field(rec, "bracket_number_3");
        var b3 :- Int(t3);
        Ok((b1, Some(b2), Some(b3)))
  }

  /** The odds cell: `欠場` for a withdrawn boat, one number, or for place
      and quinella-place bets a range `a-b`; a range that does not match
      drops the line. */
  function OddsValues(betType: int, text: string): (r: Result<Option<(Option<real>, Option<real>)>, ParseError>)
    ensures r.Ok? && r.value.Some? ==> (r.value.value.0.None? <==> text == "欠場")
    ensures r.Ok? && r.value.Some? && r.value.value.0.None? ==> r.value.value.1.None?
    ensures r.Ok? && r.value.Some? && r.value.value.1.Some? ==> betType == 2 || betType == 3
    ensures r.Ok? && r.value.Some? && text != "欠場" && (betType == 2 || betType == 3) ==> r.value.value.1.Some?
    ensures r.Ok? && r.value.None? <==>
      text != "欠場" && (betType == 2 || betType == 3) && SearchOddsPair(text).None?
    ensures r.Ok? && r.value.Some? && text != "欠場" && betType != 2 && betType != 3 ==>
      r.value.value.0 == ParseFloat(text)
    ensures r.Ok? && r.value.Some? && r.value.value.1.Some? ==>
      && SearchOddsPair(text).Some?
      && r.value.value.0 == ParseFloat(SearchOddsPair(text).value.0)
      && r.value.value.1 == ParseFloat(SearchOddsPair(text).value.1)
    ensures text != "欠場" && betType != 2 && betType != 3 && ParseFloat(text).None? ==> r.Err?
    ensures text == "欠場" ==> r == Ok(Some((None, None)))
    ensures text != "欠場" && betType != 2 && betType != 3 && ParseFloat(text).Some? ==> r.Ok?
    ensures && text != "欠場" && (betType == 2 || betType == 3) && SearchOddsPair(text).Some?
            && ParseFloat(SearchOddsPair(text).value.0).Some? && ParseFloat(SearchOddsPair(text).value.1).Some?
            ==> r.Ok?
  {
    if text == "欠場" then Ok(Some((None, None)))
    else if betType != 2 && betType != 3 then
      var x :- Float(text);
      Ok(Some((Some(x), None)))
    else
      match SearchOddsPair(text)
      case None => Ok(None)
      case Some(p) =>
        var x :- Float(p.0);
        var y :- Float(p.1);
        Ok(Some((Some(x), Some(y))))
  }

  /** `parse_race_odds`: one odds line; none when the race was called off
      (no `odds` field) or a range did not parse. */
  function ParseRaceOdds(rec: Record): (r: Result<Option<RaceOdds>, ParseError>)
    ensures "odds" !in rec ==> r == Ok(None)
    ensures r.Ok? && r.value.Some? ==>
      && OddsUrlOf(rec).Some?
      && r.value.value.raceId == RaceId(OddsUrlOf(rec).value.race)
      && OddsBetType(OddsUrlOf(rec).value.page, OddsUrlOf(rec).value.fragment) == Some(r.value.value.betType)
    ensures r.Ok? && r.value.Some? ==>
      (r.value.value.bracketNumber2.Some? <==> Arity(r.value.value.betType) >= 2)
      && (r.value.value.bracketNumber3.Some? <==> Arity(r.value.value.betType) == 3)
    ensures r.Ok? && r.value.Some? ==> Has(rec, "odds") && (r.value.value.odds1.None? <==> First(rec, "odds") == "欠場")
    ensures r.Ok? && r.value.Some? && r.value.value.odds2.Some? ==> r.value.value.betType in {2, 3}
    ensures r.Ok? && r.value.Some? ==>
      var o := r.value.value;
      OddsBrackets(rec, o.betType) == Ok((o.bracketNumber1, o.bracketNumber2, o.bracketNumber3))
    ensures r.Ok? && r.value.Some? ==>
      var o := r.value.value;
      OddsValues(o.betType, First(rec, "odds")) == Ok(Some((o.odds1, o.odds2)))
    ensures "odds" in rec && OddsUrlOf(rec).None? ==> r.Err?
    ensures ("odds" in rec && OddsUrlOf(rec).Some? &&
             OddsBetType(OddsUrlOf(rec).value.page, OddsUrlOf(rec).value.fragment).None?) ==> r.Err?
    /* Every column reads: the odds line is built, or dropped for a range that does not match. */
    ensures var o := OddsUrlOf(rec);
      var betType := if o.Some? then OddsBetType(o.value.page, o.value.fragment) else None;
      (Has(rec, "odds") && betType.Some? && OddsBrackets(rec, betType.value).Ok?
       && OddsValues(betType.value, First(rec, "odds")).Ok?) ==> r.Ok?
  {
    if "odds" !in rec then Ok(None)
    else
      var url :- Field(rec, "url");
      var o :- SearchOddsUrl(url).ToResult(Unknown("url", url));
      var betType :- OddsBetType(o.page, o.fragment).ToResult(Unknown("url", url));
      var b :- OddsBrackets(rec, betType);
      var text :- Field(rec, "odds");
      var v :- OddsValues(betType, text);
      match v
      case None => Ok(None)
      case Some((x, y)) => Ok(Some(RaceOdds(RaceId(o.race), betType, b.0, b.1, b.2, x, y)))
  }

  // ------------------------------------------------------------- racer profile

  datatype RacerProfile = RacerProfile(
    name: string, nameKana: string, birthDay: Date, height: int, weight: int,
    belongTo: string, birthPlace: string, debutPeriod: int,
    bloodType: int, racerClassType: int, racerId: string)

  /** A number with its unit suffix, e.g. `163cm`. */
  function WithUnit(rec: Record, name: string, unit: string): (r: Result<int, ParseError>)
    requires |unit| > 0
    ensures r.Ok? ==> Has(rec, name) && ParseInt(Replace(First(rec, name), unit, "")) == Some(r.value)
    ensures r.Ok? <==> Has(rec, name) && ParseInt(Replace(First(rec, name), unit, "")).Some?
  {
    var text :- Field(rec, name);
    Int(Replace(text, unit, ""))
  }

  /** Blood type and class of a profile page. */
  function ProfileCodes(rec: Record): (r: Result<(int, int), ParseError>)
    ensures r.Ok? ==> Has(rec, "blood_type") && BloodTypeCode(First(rec, "blood_type")) == Some(r.value.0)
    ensures r.Ok? ==> Has(rec, "racer_class") && ProfileClassCode(First(rec, "racer_class")) == Some(r.value.1)
    ensures Has(rec, "blood_type") && First(rec, "blood_type") !in BloodTypeNames ==> r.Err?
    ensures && Has(rec, "blood_type") && BloodTypeCode(First(rec, "blood_type")).Some?
            && Has(rec, "racer_class") && ProfileClassCode(First(rec, "racer_class")).Some?
            ==> r.Ok?
  {
    var bt :- Field(rec, "blood_type");
    var blood :- BloodTypeCode(bt).ToResult(Unknown("blood_type", bt));
    var rc :- Field(rec, "racer_class");
    var cls :- ProfileClassCode(rc).ToResult(Unknown("racer_class", rc));
    Ok((blood, cls))
  }

  /** The personal details of a profile page, in the order they are read. */
  function Personal(rec: Record): (r: Result<(string, string, Date, int, int, string, string, int), ParseError>)
    ensures r.Ok? ==> Has(rec, "birth_day") && ParseSlashDate(First(rec, "birth_day")) == Some(r.value.2)
    ensures r.Ok? ==> ValidDate(r.value.2)
    ensures r.Ok? ==> Has(rec, "name") && r.value.0 == First(rec, "name")
    ensures r.Ok? ==> Has(rec, "name_kana") && r.value.1 == First(rec, "name_kana")
    ensures r.Ok? ==> Has(rec, "height") && ParseInt(Replace(First(rec, "height"), "cm", "")) == Some(r.value.3)
    ensures r.Ok? ==> Has(rec, "weight") && ParseInt(Replace(First(rec, "weight"), "kg", "")) == Some(r.value.4)
    ensures r.Ok? ==> Has(rec, "belong_to") && r.value.5 == First(rec, "belong_to")
    ensures r.Ok? ==> Has(rec, "birth_place") && r.value.6 == First(rec, "birth_place")
    ensures r.Ok? ==> Has(rec, "debut_period") && ParseInt(Replace(First(rec, "debut_period"), "期", "")) == Some(r.value.7)
    ensures && Has(rec, "name") && Has(rec, "name_kana") && Has(rec, "belong_to") && Has(rec, "birth_place")
            && Has(rec, "birth_day") && ParseSlashDate(First(rec, "birth_day")).Some?
            && WithUnit(rec, "height", "cm").Ok? && WithUnit(rec, "weight", "kg").Ok?
            && WithUnit(rec, "debut_period", "期").Ok?
            ==> r.Ok?
  {
    var name :- Field(rec, "name");
    var kana :- Field(rec, "name_kana");
    var bd :- Field(rec, "birth_day");
    var birthDay :- ParseSlashDate(bd).ToResult(NotADate(bd));
    var height :- WithUnit(rec, "height", "cm");
    var weight :- WithUnit(rec, "weight", "kg");
    var belongTo :- Field(rec, "belong_to");
    var birthPlace :- Field(rec, "birth_place");
    var debut :- WithUnit(rec, "debut_period", "期");
    Ok((name, kana, birthDay, height, weight, belongTo, birthPlace, debut))
  }

  /** The racer id column: the first four-digit run in it. */
  function RacerIdField(rec: Record): (r: Result<string, ParseError>)
    ensures r.Ok? ==> Has(rec, "racer_id") && SearchFourDigits(First(rec, "racer_id")) == Some(r.value)
    ensures r.Ok? ==> |r.value| == 4 && AllAsciiDigits(r.value)
    ensures r.Ok? <==> Has(rec, "racer_id") && SearchFourDigits(First(rec, "racer_id")).Some?
  {
    var rid :- Field(rec, "racer_id");
    SearchFourDigits(rid).ToResult(Unknown("racer_id", rid))
  }

  /** The profile a record describes: its personal details, its codes and
      its four-digit racer id. */
  predicate ProfileOf(rec: Record, p: RacerProfile)
  {
    && Personal(rec) == Ok((p.name, p.nameKana, p.birthDay, p.height, p.weight, p.belongTo, p.birthPlace, p.debutPeriod))
    && ProfileCodes(rec) == Ok((p.bloodType, p.racerClassType))
    && RacerIdField(rec) == Ok(p.racerId)
  }

  /** `parse_racer_profile`: none when the page has no racer. */
  function ParseRacerProfile(rec: Record): (r: Result<Option<RacerProfile>, ParseError>)
    ensures "racer_id" !in rec ==> r == Ok(None)
    ensures r.Ok? && "racer_id" in rec ==> r.value.Some?
    ensures r.Ok? && r.value.Some? ==> ProfileOf(rec, r.value.value)
    /* Every column reads: the profile is built. */
    ensures "racer_id" in rec && Personal(rec).Ok? && ProfileCodes(rec).Ok? && RacerIdField(rec).Ok?
            ==> r.Ok? && r.value.Some?
  {
    if "racer_id" !in rec then Ok(None)
    else
      var p :- Personal(rec);
      var codes :- ProfileCodes(rec);
      var racerId :- RacerIdField(rec);
      Ok(Some(RacerProfile(p.0, p.1, p.2, p.3, p.4, p.5, p.6, p.7, codes.0, codes.1, racerId)))
  }

  /** A parsed profile holds a valid birthday, the codes of its blood type
      and class, and the four-digit id, each read from its own column. */
  lemma ProfileValues(rec: Record, p: RacerProfile)
    requires ProfileOf(rec, p)
    ensures ValidDate(p.birthDay)
    ensures Has(rec, "birth_day") && ParseSlashDate(First(rec, "birth_day")) == Some(p.birthDay)
    ensures Has(rec, "name") && p.name == First(rec, "name")
    ensures Has(rec, "name_kana") && p.nameKana == First(rec, "name_kana")
    ensures Has(rec, "height") && ParseInt(Replace(First(rec, "height"), "cm", "")) == Some(p.height)
    ensures Has(rec, "weight") && ParseInt(Replace(First(rec, "weight"), "kg", "")) == Some(p.weight)
    ensures Has(rec, "belong_to") && p.belongTo == First(rec, "belong_to")
    ensures Has(rec, "birth_place") && p.birthPlace == First(rec, "birth_place")
    ensures Has(rec, "debut_period") && ParseInt(Replace(First(rec, "debut_period"), "期", "")) == Some(p.debutPeriod)
    ensures Has(rec, "blood_type") && BloodTypeCode(First(rec, "blood_type")) == Some(p.bloodType)
    ensures Has(rec, "racer_class") && ProfileClassCode(First(rec, "racer_class")) == Some(p.racerClassType)
    ensures Has(rec, "racer_id") && SearchFourDigits(First(rec, "racer_id")) == Some(p.racerId)
    ensures |p.racerId| == 4 && AllAsciiDigits(p.racerId)
  {
  }

  /** The `race_id` a bracket record crawled from a ledger row's URL carries
      is the id the crawler composed for that row. */
  lemma BracketRaceIdFromCrawl(rec: Record, hd: string, jcd: string, rno: nat)
    requires |jcd| == 2 && AllAsciiDigits(jcd) && |hd| == 8 && AllAsciiDigits(hd)
    requires Has(rec, "url") && First(rec, "url") == CrawlUrl(hd, jcd, rno) + "#bracket"
    requires ParseRaceBracket(rec).Ok?
    ensures ParseRaceBracket(rec).value.raceId == CrawlRaceId(hd, jcd, rno)
  {
    CrawlUrlRoundTrip(hd, jcd, rno, "#bracket");
  }
}

=== FILE: patterns.dfy ===
/** The regular expressions the feed parser applies, each written out as a
    matcher at one position, and `re.search` as the leftmost position at
    which a matcher succeeds. Also the URLs and storage keys the crawl side
    builds, with the round trips that tie the two sides together. */
module Patterns {
  import opened Wrappers
  import opened Text

  /** `re.search`: the leftmost position in `from..n` at which `at` matches,
      with what it matched. */
  function Search<X>(n: nat, at: nat -> Option<X>, from: nat): (r: Option<(nat, X)>)
    decreases n + 1 - from
    ensures r.Some? ==> from <= r.value.0 <= n && at(r.value.0) == Some(r.value.1)
    ensures r.Some? ==> forall q :: from <= q < r.value.0 ==> at(q).None?
    ensures r.None? ==> forall q :: from <= q <= n ==> at(q).None?
  {
    if from > n then None
    else
      match at(from)
      case Some(x) => Some((from, x))
      case None => Search(n, at, from + 1)
  }

  /** The text `lit` occurs at position `p`. */
  predicate LiteralAt(s: string, p: nat, lit: string)
  {
    p + |lit| <= |s| && s[p..p + |lit|] == lit
  }

  /** Python's `\w` on the ASCII range: letters, digits and `_`. */
  predicate IsWordChar(c: char)
  {
    ('a' <= c <= 'z') || ('A' <= c <= 'Z') || ('0' <= c <= '9') || c == '_'
  }

  const PagePrefix: string := "https://www.boatrace.jp/owpc/pc/race/"

  /** The three groups of a race page URL: round, place and day. */
  datatype RaceUrl = RaceUrl(rno: string, jcd: string, hd: string)

  /** `race_id` as every parser composes it from the groups. */
  function RaceId(u: RaceUrl): string
  {
    u.hd + "_" + u.jcd + "_" + u.rno
  }

  /** `rno=([0-9]+)&jcd=([0-9]{2})&hd=([0-9]{8})` at position `a`: the
      digit run stops at the first non-digit, which must be the `&`. */
  function QueryAt(s: string, a: nat): (r: Option<(RaceUrl, nat)>)
    ensures r.Some? ==> a < r.value.1 <= |s|
    ensures r.Some? ==> |r.value.0.rno| > 0 && AllAsciiDigits(r.value.0.rno)
    ensures r.Some? ==> |r.value.0.jcd| == 2 && AllAsciiDigits(r.value.0.jcd)
    ensures r.Some? ==> |r.value.0.hd| == 8 && AllAsciiDigits(r.value.0.hd)
  {
    if !LiteralAt(s, a, "rno=") then None
    else
      var b := a + 4;
      var n := DigitRun(s, b);
      var c := b + n;
      if n > 0 && LiteralAt(s, c, "&jcd=") && c + 7 <= |s| && AllAsciiDigits(s[c + 5..c + 7])
         && LiteralAt(s, c + 7, "&hd=") && c + 19 <= |s| && AllAsciiDigits(s[c + 11..c + 19])
      then Some((RaceUrl(s[b..c], s[c + 5..c + 7], s[c + 11..c + 19]), c + 19))
      else None
  }

  /** `https://www.boatrace.jp/owpc/pc/race/<page>?rno=...&jcd=...&hd=...` at `p`. */
  /** The groups of a race URL: a round in digits, a two-digit place and an
      eight-digit day. */
  predicate WellFormedUrl(u: RaceUrl)
  {
    && |u.rno| > 0 && AllAsciiDigits(u.rno)
    && |u.jcd| == 2 && AllAsciiDigits(u.jcd)
    && |u.hd| == 8 && AllAsciiDigits(u.hd)
  }

  function RaceUrlAt(s: string, page: string, p: nat): (r: Option<RaceUrl>)
    ensures r.Some? ==> WellFormedUrl(r.value)
  {
    if LiteralAt(s, p, PagePrefix + page + "?") then
      match QueryAt(s, p + |PagePrefix + page + "?"|)
      case Some((u, _)) => Some(u)
      case None => None
    else None
  }

  /** `race_url_pattern.search(url)` for `racelist` and `raceresult` pages. */
  function SearchRaceUrl(s: string, page: string): (r: Option<RaceUrl>)
    ensures r.Some? ==> WellFormedUrl(r.value)
  {
    match Search(|s|, p => RaceUrlAt(s, page, p), 0)
    case Some((_, u)) => Some(u)
    case None => None
  }

  /** The crawl URL of a race, built from the ledger's day, place and round. */
  function CrawlUrl(hd: string, jcd: string, rno: nat): (u: string)
    ensures StartsWith(u, PagePrefix + "racelist" + "?")
  {
    PagePrefix + "racelist" + "?" + "rno=" + NatToString(rno) + "&jcd=" + jcd + "&hd=" + hd
  }

  /** The `race_id` the crawl side composes for the same race. */
  function CrawlRaceId(hd: string, jcd: string, rno: nat): string
  {
    hd + "_" + jcd + "_" + NatToString(rno)
  }

  lemma LiteralSplit(s: string, p: nat, x: string, y: string)
    requires LiteralAt(s, p, x + y)
    ensures LiteralAt(s, p, x) && LiteralAt(s, p + |x|, y)
  {
    var w := s[p..p + |x| + |y|];
    assert w == x + y;
    assert w[..|x|] == x;
    assert w[|x|..] == y;
    assert s[p..p + |x|] == w[..|x|];
    assert s[p + |x|..p + |x| + |y|] == w[|x|..];
  }

  lemma QueryOf(s: string, a: nat, rno: string, jcd: string, hd: string)
    requires |rno| > 0 && AllAsciiDigits(rno)
    requires |jcd| == 2 && AllAsciiDigits(jcd) && |hd| == 8 && AllAsciiDigits(hd)
    requires LiteralAt(s, a, "rno=") && LiteralAt(s, a + 4, rno)
    requires LiteralAt(s, a + 4 + |rno|, "&jcd=") && LiteralAt(s, a + 9 + |rno|, jcd)
    requires LiteralAt(s, a + 11 + |rno|, "&hd=") && LiteralAt(s, a + 15 + |rno|, hd)
    ensures QueryAt(s, a) == Some((RaceUrl(rno, jcd, hd), a + 23 + |rno|))
  {
    var c := a + 4 + |rno|;
    assert s[c] == s[c..c + 5][0] == '&';
    DigitRunOf(s, a + 4, rno);
  }

  /** The crawl URL, with whatever fragment the crawler appends, parses back
      to the same race: the parsers' `race_id` equals the crawl side's. */
  lemma CrawlUrlRoundTrip(hd: string, jcd: string, rno: nat, fragment: string)
    requires |jcd| == 2 && AllAsciiDigits(jcd) && |hd| == 8 && AllAsciiDigits(hd)
    ensures SearchRaceUrl(CrawlUrl(hd, jcd, rno) + fragment, "racelist")
            == Some(RaceUrl(NatToString(rno), jcd, hd))
    ensures RaceId(RaceUrl(NatToString(rno), jcd, hd)) == CrawlRaceId(hd, jcd, rno)
  {
    var u := CrawlUrl(hd, jcd, rno);
    var s := u + fragment;
    var r := NatToString(rno);
    var x0 := PagePrefix + "racelist" + "?";
    var x1 := x0 + "rno=";
    var x2 := x1 + r;
    var x3 := x2 + "&jcd=";
    var x4 := x3 + jcd;
    var x5 := x4 + "&hd=";
    assert u == x5 + hd;
    assert LiteralAt(s, 0, u) by {
      assert s[..|u|] == u;
    }
    LiteralSplit(s, 0, x5, hd);
    LiteralSplit(s, 0, x4, "&hd=");
    LiteralSplit(s, 0, x3, jcd);
    LiteralSplit(s, 0, x2, "&jcd=");
    LiteralSplit(s, 0, x1, r);
    LiteralSplit(s, 0, x0, "rno=");
    QueryOf(s, |x0|, r, jcd, hd);
    assert RaceUrlAt(s, "racelist", 0) == Some(RaceUrl(r, jcd, hd));
  }

  /** The pages an odds URL can name, and the fragments after it. */
  const OddsPages: seq<string> := ["oddstf", "oddsk", "odds2tf", "odds3t", "odds3f"]
  const OddsFragments: seq<string> := ["#oddst", "#oddsf", "#odds2t", "#odds2f"]

  /** The five groups of an odds URL; the fragment is optional. */
  datatype OddsUrl = OddsUrl(page: string, race: RaceUrl, fragment: Option<string>)

  /** The first alternative that occurs at `p`. */
  function FirstLiteralAt(s: string, p: nat, alts: seq<string>): (r: Option<string>)
    ensures r.Some? ==> r.value in alts && LiteralAt(s, p, r.value)
    ensures r.None? ==> forall a :: a in alts ==> !LiteralAt(s, p, a)
  {
    if alts == [] then None
    else if LiteralAt(s, p, alts[0]) then Some(alts[0])
    else FirstLiteralAt(s, p, alts[1..])
  }

  /** `odds_url_pattern` at `p`: the page must be followed by `?`, and the
      optional fragment group takes the first alternative that occurs. */
  function OddsUrlAt(s: string, p: nat): Option<OddsUrl>
  {
    if !LiteralAt(s, p, PagePrefix) then None
    else
      var a := p + |PagePrefix|;
      var pages := seq(|OddsPages|, i requires 0 <= i < |OddsPages| => OddsPages[i] + "?");
      match FirstLiteralAt(s, a, pages)
      case None => None
      case Some(pq) =>
        match QueryAt(s, a + |pq|)
        case None => None
        case Some((u, e)) => Some(OddsUrl(pq[..|pq| - 1], u, FirstLiteralAt(s, e, OddsFragments)))
  }

  function SearchOddsUrl(s: string): Option<OddsUrl>
  {
    match Search(|s|, p => OddsUrlAt(s, p), 0)
    case Some((_, u)) => Some(u)
    case None => None
  }

  /** The bet type an odds page stands for; `oddstf` and `odds2tf` need the
      fragment to tell the two bet types they list apart. */
  function OddsBetType(page: string, fragment: Option<string>): (b: Option<int>)
    ensures b.Some? ==> 1 <= b.value <= 7
  {
    if page == "oddstf" && fragment == Some("#oddst") then Some(1)
    else if page == "oddstf" && fragment == Some("#oddsf") then Some(2)
    else if page == "oddsk" then Some(3)
    else if page == "odds2tf" && fragment == Some("#odds2t") then Some(4)
    else if page == "odds2tf" && fragment == Some("#odds2f") then Some(5)
    else if page == "odds3t" then Some(6)
    else if page == "odds3f" then Some(7)
    else None
  }

  /** The page and fragment that carry the odds of a bet type; the parser
      reads the bet type back from them. */
  function OddsPageOf(betType: int): (pf: (string, Option<string>))
    requires 1 <= betType <= 7
    ensures '?' !in pf.0
    ensures OddsBetType(pf.0, pf.1) == Some(betType)
  {
    match betType
    case 1 => ("oddstf", Some("#oddst"))
    case 2 => ("oddstf", Some("#oddsf"))
    case 3 => ("oddsk", None)
    case 4 => ("odds2tf", Some("#odds2t"))
    case 5 => ("odds2tf", Some("#odds2f"))
    case 6 => ("odds3t", None)
    case _ => ("odds3f", None)
  }

  /** A bet type read from an odds page is the one that page carries. */
  lemma OddsBetTypeInverse(page: string, fragment: Option<string>)
    requires OddsBetType(page, fragment).Some?
    ensures OddsPageOf(OddsBetType(page, fragment).value).0 == page
  {
  }

  /** `raceindex?jcd=([0-9]{2})&hd=([0-9]{8})` at `p`: place and day. */
  function RaceIndexUrlAt(s: string, p: nat): (r: Option<(string, string)>)
    ensures r.Some? ==> |r.value.0| == 2 && |r.value.1| == 8
  {
    var pre := PagePrefix + "raceindex?jcd=";
    if LiteralAt(s, p, pre) && p + |pre| + 14 <= |s| then
      var a := p + |pre|;
      if AllAsciiDigits(s[a..a + 2]) && s[a + 2..a + 6] == "&hd=" && AllAsciiDigits(s[a + 6..a + 14])
      then Some((s[a..a + 2], s[a + 6..a + 14]))
      else None
    else None
  }

  /** `race_index_id`: day and place. */
  function SearchRaceIndexId(s: string): (r: Option<string>)
    ensures r.Some? ==> |r.value| == 11 && r.value[8] == '_'
  {
    match Search(|s|, p => RaceIndexUrlAt(s, p), 0)
    case Some((_, (jcd, hd))) => Some(hd + "_" + jcd)
    case None => None
  }

  /** `([0-9]{4})` at `p`. */
  function FourDigitsAt(s: string, p: nat): (r: Option<string>)
    ensures r.Some? ==> |r.value| == 4 && AllAsciiDigits(r.value)
  {
    if p + 4 <= |s| && AllAsciiDigits(s[p..p + 4]) then Some(s[p..p + 4]) else None
  }

  /** `is-boatColor([0-9])` at `p`: the digit's value. */
  function BoatColorAt(s: string, p: nat): (r: Option<int>)
    ensures r.Some? ==> 0 <= r.value <= 9
  {
    if LiteralAt(s, p, "is-boatColor") && p + 12 < |s| && IsAsciiDigit(s[p + 12])
    then Some(DigitValue(s[p + 12]))
    else None
  }

  /** `([0-9])<sep>([0-9])` at `p`. */
  function PairAt(s: string, sep: char, p: nat): (r: Option<(int, int)>)
    ensures r.Some? ==> 0 <= r.value.0 <= 9 && 0 <= r.value.1 <= 9
  {
    if p + 3 <= |s| && IsAsciiDigit(s[p]) && s[p + 1] == sep && IsAsciiDigit(s[p + 2])
    then Some((DigitValue(s[p]), DigitValue(s[p + 2])))
    else None
  }

  /** `([0-9])<sep>([0-9])<sep>([0-9])` at `p`. */
  function TripleAt(s: string, sep: char, p: nat): (r: Option<(int, int, int)>)
    ensures r.Some? ==> 0 <= r.value.0 <= 9 && 0 <= r.value.1 <= 9 && 0 <= r.value.2 <= 9
  {
    if p + 5 <= |s| && IsAsciiDigit(s[p]) && s[p + 1] == sep && IsAsciiDigit(s[p + 2])
       && s[p + 3] == sep && IsAsciiDigit(s[p + 4])
    then Some((DigitValue(s[p]), DigitValue(s[p + 2]), DigitValue(s[p + 4])))
    else None
  }

  /** `([0-9]+)'([0-9]+)"([0-9]+)` at `p`: each run is as long as it can
      be, since the character after it must be the separator. */
  function ResultTimeAt(s: string, p: nat): (r: Option<(string, string, string)>)
    ensures r.Some? ==> |r.value.0| > 0 && AllAsciiDigits(r.value.0)
    ensures r.Some? ==> |r.value.1| > 0 && AllAsciiDigits(r.value.1)
    ensures r.Some? ==> |r.value.2| > 0 && AllAsciiDigits(r.value.2)
  {
    if p > |s| then None
    else
      var n1 := DigitRun(s, p);
      var a := p + n1;
      if n1 == 0 || a >= |s| || s[a] != '\'' then None
      else
        var n2 := DigitRun(s, a + 1);
        var b := a + 1 + n2;
        if n2 == 0 || b >= |s| || s[b] != '"' then None
        else
          var n3 := DigitRun(s, b + 1);
          if n3 == 0 then None
          else Some((s[p..a], s[a + 1..b], s[b + 1..b + 1 + n3]))
  }

  /** The end of the line that starts at `i`: `.` does not match a newline. */
  function LineEnd(s: string, i: nat): (e: nat)
    requires i <= |s|
    ensures i <= e <= |s| && '\n' !in s[i..e] && (e < |s| ==> s[e] == '\n')
    decreases |s| - i
  {
    if i == |s| || s[i] == '\n' then i else LineEnd(s, i + 1)
  }

  /** `(\.[0-9]{2})(.*)` at `p`: both groups always take part in a match. */
  function StartTimingAt(s: string, p: nat): (r: Option<(string, string)>)
    ensures r.Some? ==> |r.value.0| == 3 && r.value.0[0] == '.'
    ensures r.Some? ==> IsAsciiDigit(r.value.0[1]) && IsAsciiDigit(r.value.0[2])
    ensures r.Some? ==> '\n' !in r.value.1
  {
    if p + 3 <= |s| && s[p] == '.' && IsAsciiDigit(s[p + 1]) && IsAsciiDigit(s[p + 2])
    then Some((s[p..p + 3], s[p + 3..LineEnd(s, p + 3)]))
    else None
  }

  predicate IsOddsChar(c: char) { c == '.' || IsAsciiDigit(c) }

  /** The longest run of `[\.0-9]` from `i`. */
  function OddsRun(s: string, i: nat): (n: nat)
    requires i <= |s|
    ensures i + n <= |s| && (i + n < |s| ==> !IsOddsChar(s[i + n]))
    decreases |s| - i
  {
    if i < |s| && IsOddsChar(s[i]) then 1 + OddsRun(s, i + 1) else 0
  }

  /** `([\.0-9]+)-([\.0-9]+)` at `p`. */
  function OddsPairAt(s: string, p: nat): (r: Option<(string, string)>)
    ensures r.Some? ==> |r.value.0| > 0 && |r.value.1| > 0
  {
    if p > |s| then None
    else
      var n1 := OddsRun(s, p);
      var a := p + n1;
      if n1 == 0 || a >= |s| || s[a] != '-' then None
      else
        var n2 := OddsRun(s, a + 1);
        if n2 == 0 then None else Some((s[p..a], s[a + 1..a + 1 + n2]))
  }

  /** `([0-9]+)m` at `q`: the digit run must be followed by `m`. */
  function LengthTailAt(s: string, q: nat): (r: Option<string>)
    ensures r.Some? ==> |r.value| > 0 && AllAsciiDigits(r.value)
  {
    if q > |s| then None
    else
      var n := DigitRun(s, q);
      if n > 0 && q + n < |s| && s[q + n] == 'm' then Some(s[q..q + n]) else None
  }

  /** The lazy `(.+?)` ending at `q`, followed by the length. */
  function CourseSplitAt(s: string, p: nat, q: nat): (r: Option<(string, string)>)
    ensures r.Some? ==> |r.value.0| > 0 && '\n' !in r.value.0
    ensures r.Some? ==> |r.value.1| > 0 && AllAsciiDigits(r.value.1)
  {
    if p < q <= |s| && '\n' !in s[p..q] then
      match LengthTailAt(s, q)
      case Some(d) => Some((s[p..q], d))
      case None => None
    else None
  }

  /** `(.+?)([0-9]+)m` at `p`: the shortest name before a length. */
  function CourseLengthAt(s: string, p: nat): Option<(string, string)>
  {
    match Search(|s|, q => CourseSplitAt(s, p, q), p + 1)
    case Some((_, g)) => Some(g)
    case None => None
  }

  /** Leftmost match of a matcher, with only the groups kept. */
  function SearchGroups<X>(s: string, at: nat -> Option<X>): (r: Option<X>)
    ensures r.Some? <==> exists p :: 0 <= p <= |s| && at(p).Some?
    ensures r.Some? ==> exists p :: 0 <= p <= |s| && at(p) == Some(r.value)
  {
    match Search(|s|, at, 0)
    case Some((_, x)) => Some(x)
    case None => None
  }

  /** The searches the parsers run, one per pattern. */
  function SearchFourDigits(s: string): (r: Option<string>)
    ensures r.Some? ==> |r.value| == 4 && AllAsciiDigits(r.value)
  {
    SearchGroups(s, p => FourDigitsAt(s, p))
  }

  function SearchBoatColor(s: string): (r: Option<int>)
    ensures r.Some? ==> 0 <= r.value <= 9
  {
    SearchGroups(s, p => BoatColorAt(s, p))
  }

  function SearchPair(s: string, sep: char): (r: Option<(int, int)>)
    ensures r.Some? ==> 0 <= r.value.0 <= 9 && 0 <= r.value.1 <= 9
  {
    SearchGroups(s, p => PairAt(s, sep, p))
  }

  function SearchTriple(s: string, sep: char): (r: Option<(int, int, int)>)
    ensures r.Some? ==> 0 <= r.value.0 <= 9 && 0 <= r.value.1 <= 9 && 0 <= r.value.2 <= 9
  {
    SearchGroups(s, p => TripleAt(s, sep, p))
  }

  function SearchResultTime(s: string): (r: Option<(string, string, string)>)
    ensures r.Some? ==> |r.value.0| > 0 && AllAsciiDigits(r.value.0)
    ensures r.Some? ==> |r.value.1| > 0 && AllAsciiDigits(r.value.1)
    ensures r.Some? ==> |r.value.2| > 0 && AllAsciiDigits(r.value.2)
  {
    SearchGroups(s, p => ResultTimeAt(s, p))
  }

  function SearchStartTiming(s: string): (r: Option<(string, string)>)
    ensures r.Some? ==> |r.value.0| == 3 && r.value.0[0] == '.'
    ensures r.Some? ==> IsAsciiDigit(r.value.0[1]) && IsAsciiDigit(r.value.0[2])
  {
    SearchGroups(s, p => StartTimingAt(s, p))
  }

  function SearchOddsPair(s: string): Option<(string, string)>
  {
    SearchGroups(s, p => OddsPairAt(s, p))
  }

  function SearchCourseLength(s: string): (r: Option<(string, string)>)
    ensures r.Some? ==> |r.value.1| > 0 && AllAsciiDigits(r.value.1)
  {
    SearchGroups(s, p => CourseLengthAt(s, p))
  }

  /** `re.fullmatch(r"^s3://(\w+)/(.*)$", url).group(2)`: the bucket is a run
      of word characters up to the first `/`, and the key is the rest, which
      may hold no newline. */
  function S3Key(url: string): (k: Option<string>)
    ensures k.Some? ==> EndsWith(url, k.value) && '\n' !in k.value
  {
    if !StartsWith(url, "s3://") then None
    else
      var rest := url[5..];
      if '/' !in rest then None
      else
        var i := IndexOf(rest, '/');
        var bucket, key := rest[..i], rest[i + 1..];
        if i > 0 && (forall j :: 0 <= j < i ==> IsWordChar(rest[j])) && '\n' !in key
        then
          assert url[|url| - |key|..] == key;
          Some(key)
        else None
  }

  lemma {:induction false} IndexOfAfter(a: string, c: char, b: string)
    requires c !in a
    ensures c in a + [c] + b && IndexOf(a + [c] + b, c) == |a|
  {
    if a != [] {
      assert (a + [c] + b)[1..] == a[1..] + [c] + b;
      IndexOfAfter(a[1..], c, b);
    }
  }

  /** The key of an `s3://bucket/key` URL is exactly `key`. */
  lemma S3KeyRoundTrip(bucket: string, key: string)
    requires |bucket| > 0 && forall j :: 0 <= j < |bucket| ==> IsWordChar(bucket[j])
    requires '\n' !in key
    ensures S3Key("s3://" + bucket + "/" + key) == Some(key)
  {
    var url := "s3://" + bucket + "/" + key;
    var rest := url[5..];
    assert rest == bucket + "/" + key;
    assert '/' !in bucket by {
      forall j | 0 <= j < |bucket| ensures bucket[j] != '/' {
        assert IsWordChar(bucket[j]);
      }
    }
    IndexOfAfter(bucket, '/', key);
    assert rest[|bucket| + 1..] == key;
  }

  /** The object `put_racelist` stores the ledger under, and returns. */
  function RacelistKey(folder: string): (k: string)
    ensures StartsWith(k, folder) && EndsWith(k, "/df_racelist.joblib")
    ensures |k| == |folder| + |"/df_racelist.joblib"|
  {
    var k := folder + "/df_racelist" + ".joblib";
    assert k[..|folder|] == folder;
    assert k[|k| - |"/df_racelist.joblib"|..] == "/df_racelist.joblib";
    k
  }
}

=== FILE: settlement.dfy ===
/** Settling a race after it has run (`payoff_race.payoff_race`): the vote
    rows are priced with the win odds and paid with the win payoffs, and the
    ledger row of the race records when it was settled and what it returned. */
module Settlement {
  import opened Wrappers
  import opened Clock
  import opened Tables
  import opened Parsers
  import opened Ledger

  /** A row of the vote table this step reads: the race, the boat backed to
      win, and the stake. */
  datatype Stake = Stake(raceId: string, bracketNumber: int, voteAmount: real)

  /** `df_odds`: the win odds of one boat. */
  datatype WinOdds = WinOdds(raceId: string, bracketNumber: int, oddsFix: Option<real>)

  /** `df_payoff`: the win payoff of one boat. */
  datatype WinPayoff = WinPayoff(raceId: string, bracketNumber: Option<int>, payoff: Option<real>)

  /** A vote row after the odds join. */
  datatype PricedStake = PricedStake(stake: Stake, oddsFix: Option<real>)

  /** A vote row after the payoff join. */
  datatype PaidStake = PaidStake(stake: Stake, oddsFix: Option<real>, payoff: Option<real>)

  /** A settled vote row. */
  datatype SettledStake = SettledStake(
    raceId: string, bracketNumber: int, voteAmount: real,
    oddsFix: Option<real>, payoff: Option<real>, payoffAmount: real)

  /** `df_arg_odds.query("bet_type==1")` with boat and odds renamed. */
  function WinOddsOf(odds: seq<RaceOdds>): (r: seq<WinOdds>)
    ensures |r| <= |odds|
    ensures forall w :: w in r <==>
      exists o :: o in odds && o.betType == 1 && w == WinOdds(o.raceId, o.bracketNumber1, o.odds1)
  {
    if odds == [] then []
    else
      var o := odds[0];
      assert forall x :: x in odds <==> x == o || x in odds[1..];
      (if o.betType == 1 then [WinOdds(o.raceId, o.bracketNumber1, o.odds1)] else []) + WinOddsOf(odds[1..])
  }

  /** `df_arg_payoff.query("bet_type==1")` with the boat renamed. */
  function WinPayoffsOf(payoffs: seq<RacePayoff>): (r: seq<WinPayoff>)
    ensures |r| <= |payoffs|
    ensures forall w :: w in r <==>
      exists p :: p in payoffs && p.betType == 1 && w == WinPayoff(p.raceId, p.bracketNumber1, p.payoff)
  {
    if payoffs == [] then []
    else
      var p := payoffs[0];
      assert forall x :: x in payoffs <==> x == p || x in payoffs[1..];
      (if p.betType == 1 then [WinPayoff(p.raceId, p.bracketNumber1, p.payoff)] else [])
        + WinPayoffsOf(payoffs[1..])
  }

  predicate WinOddsLine(o: RaceOdds) { o.betType == 1 }
  predicate WinPayoffLine(p: RacePayoff) { p.betType == 1 }

  /** The win odds are the win lines renamed, one for one and in order. */
  lemma {:induction false} WinOddsRenamed(odds: seq<RaceOdds>)
    ensures |WinOddsOf(odds)| == |Filter(odds, WinOddsLine)|
    ensures forall k :: 0 <= k < |WinOddsOf(odds)| ==>
      var o := Filter(odds, WinOddsLine)[k];
      WinOddsOf(odds)[k] == WinOdds(o.raceId, o.bracketNumber1, o.odds1)
  {
    if odds != [] {
      WinOddsRenamed(odds[1..]);
    }
  }

  /** The win payoffs are the win lines renamed, one for one and in order. */
  lemma {:induction false} WinPayoffsRenamed(payoffs: seq<RacePayoff>)
    ensures |WinPayoffsOf(payoffs)| == |Filter(payoffs, WinPayoffLine)|
    ensures forall k :: 0 <= k < |WinPayoffsOf(payoffs)| ==>
      var p := Filter(payoffs, WinPayoffLine)[k];
      WinPayoffsOf(payoffs)[k] == WinPayoff(p.raceId, p.bracketNumber1, p.payoff)
  {
    if payoffs != [] {
      WinPayoffsRenamed(payoffs[1..]);
    }
  }

  /** Both joins are on `(race_id, bracket_number)`. */
  function StakeKey(v: Stake): Key { [Str(v.raceId), Num(v.bracketNumber)] }
  function PricedKey(p: PricedStake): Key { StakeKey(p.stake) }
  function WinOddsKey(w: WinOdds): Key { [Str(w.raceId), Num(w.bracketNumber)] }
  function WinPayoffKey(w: WinPayoff): Key { [Str(w.raceId), Opt(w.bracketNumber)] }

  function PricedWith(v: Stake, m: Option<WinOdds>): PricedStake
  {
    PricedStake(v, if m.Some? then m.value.oddsFix else None)
  }

  function PaidWith(p: PricedStake, m: Option<WinPayoff>): PaidStake
  {
    PaidStake(p.stake, p.oddsFix, if m.Some? then m.value.payoff else None)
  }

  /** `fillna(0.0)` on the payoff, then `payoff_amount = vote_amount * payoff`. */
  function Settle(p: PaidStake): SettledStake
  {
    var payoff := if p.payoff.Some? then p.payoff.value else 0.0;
    SettledStake(p.stake.raceId, p.stake.bracketNumber, p.stake.voteAmount,
                 p.oddsFix, Some(payoff), Returned(p.stake.voteAmount, payoff))
  }

  function AmountOf(s: SettledStake): real { s.payoffAmount }

  /** The normal branch: both left joins, the fill and the product. Every
      row has a payoff, never a missing one, and its amount is the stake
      times that payoff. */
  function SettleVotes(votes: seq<Stake>, odds: seq<RaceOdds>, payoffs: seq<RacePayoff>): (r: seq<SettledStake>)
    ensures forall k :: 0 <= k < |r| ==>
      r[k].payoff.Some? && r[k].payoffAmount == Returned(r[k].voteAmount, r[k].payoff.value)
  {
    var priced := LeftJoin(votes, WinOddsOf(odds), StakeKey, WinOddsKey, PricedWith);
    var paid := LeftJoin(priced, WinPayoffsOf(payoffs), PricedKey, WinPayoffKey, PaidWith);
    seq(|paid|, k requires 0 <= k < |paid| => Settle(paid[k]))
  }

  /** The payoff a vote row meets: the win payoff of its race and boat, or
      0.0 when there is none. */
  function PayoffFor(v: Stake, payoffs: seq<RacePayoff>): real
  {
    var m := Lookup(StakeKey(v), WinPayoffsOf(payoffs), WinPayoffKey);
    if m.Some? && m.value.payoff.Some? then m.value.payoff.value else 0.0
  }

  /** With one win line per race and boat on each side (as the feed's
      deduplicated tables have), every vote row is settled exactly once, in
      order, with the odds and the payoff of its own boat. */
  lemma {:induction false} SettleVotesUnique(votes: seq<Stake>, odds: seq<RaceOdds>, payoffs: seq<RacePayoff>)
    requires UniqueKeys(WinOddsOf(odds), WinOddsKey)
    requires UniqueKeys(WinPayoffsOf(payoffs), WinPayoffKey)
    ensures |SettleVotes(votes, odds, payoffs)| == |votes|
    ensures forall k :: 0 <= k < |votes| ==>
      var s := SettleVotes(votes, odds, payoffs)[k];
      && s.raceId == votes[k].raceId && s.bracketNumber == votes[k].bracketNumber
      && s.voteAmount == votes[k].voteAmount
      && s.payoff == Some(PayoffFor(votes[k], payoffs))
      && s.payoffAmount == Returned(votes[k].voteAmount, PayoffFor(votes[k], payoffs))
  {
    var priced := LeftJoin(votes, WinOddsOf(odds), StakeKey, WinOddsKey, PricedWith);
    var paid := LeftJoin(priced, WinPayoffsOf(payoffs), PricedKey, WinPayoffKey, PaidWith);
    LeftJoinUnique(votes, WinOddsOf(odds), StakeKey, WinOddsKey, PricedWith);
    LeftJoinUnique(priced, WinPayoffsOf(payoffs), PricedKey, WinPayoffKey, PaidWith);
    var r := SettleVotes(votes, odds, payoffs);
    assert r == seq(|paid|, k requires 0 <= k < |paid| => Settle(paid[k]));
    forall k | 0 <= k < |votes|
      ensures r[k].raceId == votes[k].raceId && r[k].bracketNumber == votes[k].bracketNumber
      ensures r[k].voteAmount == votes[k].voteAmount
      ensures r[k].payoff == Some(PayoffFor(votes[k], payoffs))
      ensures r[k].payoffAmount == Returned(votes[k].voteAmount, PayoffFor(votes[k], payoffs))
    {
      assert priced[k].stake == votes[k];
      assert paid[k] == PaidWith(priced[k], Lookup(StakeKey(votes[k]), WinPayoffsOf(payoffs), WinPayoffKey));
      assert r[k] == Settle(paid[k]);
    }
  }

  /** Which branch `payoff_race` takes. */
  datatype Outcome =
    | NotVoted
    | Voided(votes: seq<SettledStake>)
    | NoVotes
    | Paid(votes: seq<SettledStake>)

  /** What the race returned, as the ledger records it: the sum of the
      payoff amounts when votes were paid, 0 otherwise. */
  function ReturnOf(o: Outcome): real
  {
    match o
    case Paid(vs) => Sum(vs, AmountOf)
    case _ => 0.0
  }

  /** The vote table a branch returns. */
  function VoteTable(o: Outcome): Option<seq<SettledStake>>
  {
    match o
    case Voided(vs) => Some(vs)
    case Paid(vs) => Some(vs)
    case _ => None
  }

  /** A vote on a race without odds (cancelled): zero odds and zero amount. */
  function Voiding(v: Stake): SettledStake
  {
    SettledStake(v.raceId, v.bracketNumber, v.voteAmount, Some(0.0), None, 0.0)
  }

  /** The decision of `payoff_race`, with the cancelled-race branch as it
      is meant to work. */
  function Settlement(race: RaceEntry, odds: Option<seq<RaceOdds>>, payoffs: seq<RacePayoff>,
                      votes: seq<Stake>): (o: Outcome)
    ensures o.NotVoted? <==> race.voteTimestamp.None?
    ensures o.Voided? <==> race.voteTimestamp.Some? && odds.None?
    ensures o.NoVotes? <==> race.voteTimestamp.Some? && odds.Some? && votes == []
    ensures o.Voided? ==> |o.votes| == |votes| && forall k :: 0 <= k < |votes| ==>
      && o.votes[k].raceId == votes[k].raceId && o.votes[k].bracketNumber == votes[k].bracketNumber
      && o.votes[k].voteAmount == votes[k].voteAmount
      && o.votes[k].oddsFix == Some(0.0) && o.votes[k].payoffAmount == 0.0
    ensures o.Paid? ==> forall k :: 0 <= k < |o.votes| ==>
      o.votes[k].payoff.Some? && o.votes[k].payoffAmount == Returned(o.votes[k].voteAmount, o.votes[k].payoff.value)
    ensures !o.Paid? ==> ReturnOf(o) == 0.0
  {
    if race.voteTimestamp.None? then NotVoted
    else if odds.None? then Voided(seq(|votes|, k requires 0 <= k < |votes| => Voiding(votes[k])))
    else if |votes| == 0 then NoVotes
    else Paid(SettleVotes(votes, odds.value, payoffs))
  }

  datatype SettleError = UnboundLocal(name: string) | NoLedgerRow(raceId: string)

  /** The decision as written: the cancelled-race branch assigns a column of
      `df_vote` before anything has bound that local, which raises. */
  function SettlementAsWritten(race: RaceEntry, odds: Option<seq<RaceOdds>>, payoffs: seq<RacePayoff>,
                               votes: seq<Stake>): (r: Result<Outcome, SettleError>)
    ensures r.Err? <==> race.voteTimestamp.Some? && odds.None?
    ensures r.Ok? ==> r.value == Settlement(race, odds, payoffs, votes)
  {
    if race.voteTimestamp.None? then Ok(NotVoted)
    else if odds.None? then Err(UnboundLocal("df_vote"))
    else if |votes| == 0 then Ok(NoVotes)
    else Ok(Paid(SettleVotes(votes, odds.value, payoffs)))
  }

  /** A voted race without odds: as written the step fails, so the race is
      never settled and is picked again on every later round; as intended it
      settles with a zero return. */
  lemma CancelledRace(race: RaceEntry, payoffs: seq<RacePayoff>, votes: seq<Stake>)
    requires race.voteTimestamp.Some?
    ensures SettlementAsWritten(race, None, payoffs, votes) == Err(UnboundLocal("df_vote"))
    ensures Settlement(race, None, payoffs, votes).Voided?
    ensures ReturnOf(Settlement(race, None, payoffs, votes)) == 0.0
  {
  }

  /** `df[df["race_id"] == race_id].index[0]`: the first row of the race. */
  function RowOf(rows: seq<RaceEntry>, raceId: string): (i: Option<nat>)
    ensures i.Some? ==> i.value < |rows| && rows[i.value].raceId == raceId
    ensures i.Some? ==> forall j :: 0 <= j < i.value ==> rows[j].raceId != raceId
    ensures i.None? <==> forall j :: 0 <= j < |rows| ==> rows[j].raceId != raceId
  {
    if rows == [] then None
    else if rows[0].raceId == raceId then Some(0)
    else
      match RowOf(rows[1..], raceId)
      case Some(j) => Some(j + 1)
      case None => None
  }

  /** `payoff_race`: decides the branch, then records the settlement time
      and the return on the race's ledger row and on nothing else. The
      cancelled-race branch follows the corrected `Settlement`: the race is
      settled voided with a zero return, where the code as written raises
      before any write (see `SettlementAsWritten`). */
  method PayoffRace(ledger: array<RaceEntry>, now: Timestamp, race: RaceEntry,
                    odds: Option<seq<RaceOdds>>, payoffs: seq<RacePayoff>, votes: seq<Stake>)
    returns (r: Result<Option<seq<SettledStake>>, SettleError>)
    modifies ledger
    ensures
      var o := Settlement(race, odds, payoffs, votes);
      var i := RowOf(old(ledger[..]), race.raceId);
      && (o.NotVoted? ==> r == Ok(None) && ledger[..] == old(ledger[..]))
      && (!o.NotVoted? && i.None? ==> r == Err(NoLedgerRow(race.raceId)) && ledger[..] == old(ledger[..]))
      && (!o.NotVoted? && i.Some? ==>
            && r == Ok(VoteTable(o))
            && ledger[..] == old(ledger[..])[i.value := old(ledger[i.value]).(
                 resultTimestamp := Some(now), returnAmount := Some(ReturnOf(o)))])
  {
    if race.voteTimestamp.None? {
      return Ok(None);
    }
    var settled: seq<SettledStake>;
    var table: Option<seq<SettledStake>>;
    var amount: real;
    if odds.None? {
      settled := seq(|votes|, k requires 0 <= k < |votes| => Voiding(votes[k]));
      table, amount := Some(settled), 0.0;
    } else if |votes| == 0 {
      table, amount := None, 0.0;
    } else {
      settled := SettleVotes(votes, odds.value, payoffs);
      table, amount := Some(settled), Sum(settled, AmountOf);
    }
    var idx := RowOf(ledger[..], race.raceId);
    if idx.None? {
      return Err(NoLedgerRow(race.raceId));
    }
    var i := idx.value;
    ledger[i] := ledger[i].(resultTimestamp := Some(now), returnAmount := Some(amount));
    return Ok(table);
  }

  predicate Unsettled(e: RaceEntry) { e.voteTimestamp.Some? && e.resultTimestamp.None? }

  /** With one ledger row per race, the row the settlement writes is the one
      `get_target_race` picked; afterwards that race is never picked again
      and one race fewer awaits settlement. */
  lemma {:induction false} SettleProgress(rows: seq<RaceEntry>, now: Timestamp, amount: real, later: Timestamp, i: nat)
    requires UniqueRaceIds(rows) && SettleTarget(rows, now) == Some(i)
    ensures RowOf(rows, rows[i].raceId) == Some(i)
    ensures Count(Written(rows, i, now, amount), Unsettled) + 1 == Count(rows, Unsettled)
    ensures SettleTarget(Written(rows, i, now, amount), later) != Some(i)
  {
    CountUpdate(rows, i, rows[i].(resultTimestamp := Some(now), returnAmount := Some(amount)), Unsettled);
  }

  /** The ledger after the settlement of row `i` at `now`. */
  function Written(rows: seq<RaceEntry>, i: nat, now: Timestamp, amount: real): (r: seq<RaceEntry>)
    requires i < |rows|
    ensures |r| == |rows| && r[i].resultTimestamp == Some(now) && r[i].returnAmount == Some(amount)
    ensures forall j :: 0 <= j < |rows| && j != i ==> r[j] == rows[j]
  {
    rows[i := rows[i].(resultTimestamp := Some(now), returnAmount := Some(amount))]
  }
}

=== FILE: tables.dfy ===
/** The little of pandas the core relies on, on sequences of records: the
    order `sort_values` sorts by, a stable sort, `drop_duplicates` (first
    occurrence kept), a row filter, a left `merge` on key columns, and sums. */
module Tables {
  import opened Wrappers

  /** One cell of a key column: a string, a number, or a missing value
      (None/NaN). Missing values compare equal to each other, as
      `drop_duplicates` and `merge` treat them, and sort after everything. */
  datatype Cell = Str(s: string) | Num(n: int) | Null

  type Key = seq<Cell>

  /** A nullable integer column: a missing value is `NaN`. */
  function Opt(o: Option<int>): Cell
  {
    match o
    case Some(n) => Num(n)
    case None => Null
  }

  /** Python's string order: code point by code point, a proper prefix first. */
  predicate StrLt(a: string, b: string)
  {
    if a == [] then b != []
    else if b == [] then false
    else if a[0] != b[0] then a[0] < b[0]
    else StrLt(a[1..], b[1..])
  }

  lemma {:induction false} StrLtIrreflexive(a: string)
    ensures !StrLt(a, a)
  {
    if a != [] {
      StrLtIrreflexive(a[1..]);
    }
  }

  lemma {:induction false} StrLtTransitive(a: string, b: string, c: string)
    requires StrLt(a, b) && StrLt(b, c)
    ensures StrLt(a, c)
  {
    if a != [] && b != [] && c != [] && a[0] == b[0] && b[0] == c[0] {
      StrLtTransitive(a[1..], b[1..], c[1..]);
    }
  }

  lemma {:induction false} StrLtTotal(a: string, b: string)
    requires a != b
    ensures StrLt(a, b) || StrLt(b, a)
  {
    if a != [] && b != [] && a[0] == b[0] {
      assert a == [a[0]] + a[1..] && b == [b[0]] + b[1..];
      StrLtTotal(a[1..], b[1..]);
    }
  }

  /** The order of one column: numbers by value, strings as Python orders
      them, missing values last. A column never mixes numbers and strings;
      numbers are put first only to make the order total. */
  predicate CellLt(a: Cell, b: Cell)
  {
    match (a, b)
    case (Null, _) => false
    case (_, Null) => true
    case (Num(x), Num(y)) => x < y
    case (Num(_), Str(_)) => true
    case (Str(_), Num(_)) => false
    case (Str(x), Str(y)) => StrLt(x, y)
  }

  lemma CellLtIrreflexive(a: Cell)
    ensures !CellLt(a, a)
  {
    if a.Str? {
      StrLtIrreflexive(a.s);
    }
  }

  lemma CellLtTransitive(a: Cell, b: Cell, c: Cell)
    requires CellLt(a, b) && CellLt(b, c)
    ensures CellLt(a, c)
  {
    if a.Str? && b.Str? && c.Str? {
      StrLtTransitive(a.s, b.s, c.s);
    }
  }

  lemma CellLtTotal(a: Cell, b: Cell)
    requires a != b
    ensures CellLt(a, b) || CellLt(b, a)
  {
    if a.Str? && b.Str? {
      StrLtTotal(a.s, b.s);
    }
  }

  /** `sort_values` over several columns: the first column decides, later
      ones break ties. */
  predicate KeyLt(a: Key, b: Key)
  {
    if a == [] then b != []
    else if b == [] then false
    else if a[0] != b[0] then CellLt(a[0], b[0])
    else KeyLt(a[1..], b[1..])
  }

  predicate KeyLe(a: Key, b: Key) { a == b || KeyLt(a, b) }

  lemma {:induction false} KeyLtIrreflexive(a: Key)
    ensures !KeyLt(a, a)
  {
    if a != [] {
      KeyLtIrreflexive(a[1..]);
    }
  }

  lemma {:induction false} KeyLtTransitive(a: Key, b: Key, c: Key)
    requires KeyLt(a, b) && KeyLt(b, c)
    ensures KeyLt(a, c)
  {
    if a != [] && b != [] && c != [] {
      if a[0] == b[0] && b[0] == c[0] {
        KeyLtTransitive(a[1..], b[1..], c[1..]);
      } else if a[0] != b[0] && b[0] != c[0] {
        CellLtTransitive(a[0], b[0], c[0]);
        if a[0] == c[0] {
          CellLtIrreflexive(a[0]);
        }
      }
    }
  }

  lemma {:induction false} KeyLtTotal(a: Key, b: Key)
    requires a != b
    ensures KeyLt(a, b) || KeyLt(b, a)
  {
    if a != [] && b != [] {
      if a[0] == b[0] {
        assert a == [a[0]] + a[1..] && b == [b[0]] + b[1..];
        KeyLtTotal(a[1..], b[1..]);
      } else {
        CellLtTotal(a[0], b[0]);
      }
    }
  }

  lemma KeyLeTransitive(a: Key, b: Key, c: Key)
    requires KeyLe(a, b) && KeyLe(b, c)
    ensures KeyLe(a, c)
  {
    if a != b && b != c {
      KeyLtTransitive(a, b, c);
    }
  }

  lemma KeyLeTotal(a: Key, b: Key)
    ensures KeyLe(a, b) || KeyLe(b, a)
  {
    if a != b {
      KeyLtTotal(a, b);
    }
  }

  /** Ascending by key, ties allowed. */
  predicate SortedBy<T>(s: seq<T>, key: T -> Key)
  {
    forall i, j :: 0 <= i < j < |s| ==> KeyLe(key(s[i]), key(s[j]))
  }

  /** Strictly ascending by key: each key appears once. */
  predicate StrictlySortedBy<T>(s: seq<T>, key: T -> Key)
  {
    forall i, j :: 0 <= i < j < |s| ==> KeyLt(key(s[i]), key(s[j]))
  }

  /** No two rows share a key. */
  predicate UniqueKeys<T>(s: seq<T>, key: T -> Key)
  {
    forall i, j :: 0 <= i < j < |s| ==> key(s[i]) != key(s[j])
  }

  function KeysOf<T(==)>(s: seq<T>, key: T -> Key): set<Key>
  {
    set x | x in s :: key(x)
  }

  /** Puts `x` before the first row whose key is not smaller, so that it
      goes ahead of rows with an equal key. */
  function InsertBy<T>(x: T, s: seq<T>, key: T -> Key): seq<T>
  {
    if s == [] || KeyLe(key(x), key(s[0])) then [x] + s
    else [s[0]] + InsertBy(x, s[1..], key)
  }

  /** A stable sort by key: rows with equal keys keep their order. */
  function SortBy<T>(s: seq<T>, key: T -> Key): seq<T>
  {
    if s == [] then [] else InsertBy(s[0], SortBy(s[1..], key), key)
  }

  lemma {:induction false} InsertByPermutes<T>(x: T, s: seq<T>, key: T -> Key)
    ensures multiset(InsertBy(x, s, key)) == multiset(s) + multiset{x}
  {
    if s != [] && !KeyLe(key(x), key(s[0])) {
      InsertByPermutes(x, s[1..], key);
      assert s == [s[0]] + s[1..];
    }
  }

  lemma {:induction false} InsertBySorted<T>(x: T, s: seq<T>, key: T -> Key)
    requires SortedBy(s, key)
    ensures SortedBy(InsertBy(x, s, key), key)
  {
    var r := InsertBy(x, s, key);
    if s == [] {
    } else if KeyLe(key(x), key(s[0])) {
      forall i, j | 0 <= i < j < |r|
        ensures KeyLe(key(r[i]), key(r[j]))
      {
        if i == 0 && j > 1 {
          KeyLeTransitive(key(x), key(s[0]), key(s[j - 1]));
        }
      }
    } else {
      var t := InsertBy(x, s[1..], key);
      InsertBySorted(x, s[1..], key);
      InsertByPermutes(x, s[1..], key);
      KeyLeTotal(key(x), key(s[0]));
      forall j | 0 <= j < |t|
        ensures KeyLe(key(s[0]), key(t[j]))
      {
        assert t[j] in multiset(t);
        if t[j] != x {
          assert t[j] in multiset(s[1..]);
          var k :| 0 <= k < |s[1..]| && s[1..][k] == t[j];
          assert s[k + 1] == t[j];
        }
      }
      assert r == [s[0]] + t;
    }
  }

  lemma {:induction false} SortByPermutes<T>(s: seq<T>, key: T -> Key)
    ensures multiset(SortBy(s, key)) == multiset(s)
  {
    if s != [] {
      SortByPermutes(s[1..], key);
      InsertByPermutes(s[0], SortBy(s[1..], key), key);
      assert s == [s[0]] + s[1..];
    }
  }

  lemma {:induction false} SortBySorted<T>(s: seq<T>, key: T -> Key)
    ensures SortedBy(SortBy(s, key), key)
  {
    if s != [] {
      SortBySorted(s[1..], key);
      InsertBySorted(s[0], SortBy(s[1..], key), key);
    }
  }

  lemma SameElementsSameKeys<T>(a: seq<T>, b: seq<T>, key: T -> Key)
    requires multiset(a) == multiset(b)
    ensures KeysOf(a, key) == KeysOf(b, key)
  {
    forall x | x in a ensures x in b {
      assert x in multiset(a);
    }
    forall x | x in b ensures x in a {
      assert x in multiset(b);
    }
  }

  /** Sorting rows whose keys are all different yields strictly ascending keys. */
  lemma {:induction false} SortByUnique<T>(s: seq<T>, key: T -> Key)
    requires UniqueKeys(s, key)
    ensures StrictlySortedBy(SortBy(s, key), key)
  {
    var r := SortBy(s, key);
    SortBySorted(s, key);
    SortByUniqueKeys(s, key);
  }

  lemma {:induction false} SortByUniqueKeys<T>(s: seq<T>, key: T -> Key)
    requires UniqueKeys(s, key)
    ensures UniqueKeys(SortBy(s, key), key)
  {
    if s != [] {
      var rest := SortBy(s[1..], key);
      SortByUniqueKeys(s[1..], key);
      SortByPermutes(s[1..], key);
      SameElementsSameKeys(rest, s[1..], key);
      assert key(s[0]) !in KeysOf(s[1..], key);
      InsertByUniqueKeys(s[0], rest, key);
    }
  }

  lemma {:induction false} InsertByUniqueKeys<T>(x: T, s: seq<T>, key: T -> Key)
    requires UniqueKeys(s, key) && key(x) !in KeysOf(s, key)
    ensures UniqueKeys(InsertBy(x, s, key), key)
  {
    if s != [] && !KeyLe(key(x), key(s[0])) {
      var t := InsertBy(x, s[1..], key);
      assert KeysOf(s[1..], key) <= KeysOf(s, key);
      InsertByUniqueKeys(x, s[1..], key);
      InsertByPermutes(x, s[1..], key);
      forall j | 0 <= j < |t|
        ensures key(s[0]) != key(t[j])
      {
        assert t[j] in multiset(t);
        if t[j] != x {
          assert t[j] in multiset(s[1..]);
          var k :| 0 <= k < |s[1..]| && s[1..][k] == t[j];
          assert s[k + 1] == t[j];
        }
      }
      assert InsertBy(x, s, key) == [s[0]] + t;
    }
  }

  /** The first row carrying a key. */
  function FirstWithKey<T(==)>(s: seq<T>, key: T -> Key, k: Key): (x: T)
    requires k in KeysOf(s, key)
    ensures x in s && key(x) == k
  {
    if key(s[0]) == k then s[0]
    else
      assert KeysOf(s, key) == {key(s[0])} + KeysOf(s[1..], key) by {
        assert s == [s[0]] + s[1..];
      }
      FirstWithKey(s[1..], key, k)
  }

  /** `drop_duplicates(subset=key)`: keeps the first row of each key, in order. */
  function DedupBy<T(==)>(s: seq<T>, key: T -> Key): seq<T>
  {
    if s == [] then []
    else
      var d := DedupBy(s[..|s| - 1], key);
      if key(s[|s| - 1]) in KeysOf(d, key) then d else d + [s[|s| - 1]]
  }

  lemma {:induction false} DedupKeys<T>(s: seq<T>, key: T -> Key)
    ensures KeysOf(DedupBy(s, key), key) == KeysOf(s, key)
    ensures UniqueKeys(DedupBy(s, key), key)
  {
    if s != [] {
      var p := s[..|s| - 1];
      DedupKeys(p, key);
      assert s == p + [s[|s| - 1]];
      assert KeysOf(s, key) == KeysOf(p, key) + {key(s[|s| - 1])};
    }
  }

  lemma {:induction false} FirstWithKeyPrefix<T>(p: seq<T>, x: T, key: T -> Key, k: Key)
    requires k in KeysOf(p, key)
    ensures k in KeysOf(p + [x], key)
    ensures FirstWithKey(p + [x], key, k) == FirstWithKey(p, key, k)
  {
    assert (p + [x])[0] == p[0];
    if key(p[0]) != k {
      assert (p + [x])[1..] == p[1..] + [x];
      FirstWithKeyPrefix(p[1..], x, key, k);
    }
  }

  lemma {:induction false} FirstWithKeyNew<T>(p: seq<T>, x: T, key: T -> Key)
    requires key(x) !in KeysOf(p, key)
    ensures key(x) in KeysOf(p + [x], key)
    ensures FirstWithKey(p + [x], key, key(x)) == x
  {
    assert x in p + [x];
    if p != [] {
      assert (p + [x])[0] == p[0];
      assert (p + [x])[1..] == p[1..] + [x];
      assert KeysOf(p[1..], key) <= KeysOf(p, key);
      FirstWithKeyNew(p[1..], x, key);
    }
  }

  /** Every row `drop_duplicates` keeps is the first row of the input with its key. */
  lemma {:induction false} DedupFirst<T>(s: seq<T>, key: T -> Key)
    ensures forall i :: 0 <= i < |DedupBy(s, key)| ==>
      key(DedupBy(s, key)[i]) in KeysOf(s, key) &&
      DedupBy(s, key)[i] == FirstWithKey(s, key, key(DedupBy(s, key)[i]))
  {
    if s != [] {
      var p, x := s[..|s| - 1], s[|s| - 1];
      var d := DedupBy(p, key);
      DedupFirst(p, key);
      DedupKeys(p, key);
      assert s == p + [x];
      forall i | 0 <= i < |DedupBy(s, key)|
        ensures key(DedupBy(s, key)[i]) in KeysOf(s, key)
        ensures DedupBy(s, key)[i] == FirstWithKey(s, key, key(DedupBy(s, key)[i]))
      {
        var y := DedupBy(s, key)[i];
        if i < |d| {
          assert y == d[i];
          FirstWithKeyPrefix(p, x, key, key(y));
        } else {
          assert y == x && key(x) !in KeysOf(p, key);
          FirstWithKeyNew(p, x, key);
        }
      }
    }
  }

  /** A frame built from a list of records with `drop_duplicates` on the key
      columns and `sort_values` on the same columns; `None` when the list is
      empty. */
  function TableOf<T(==)>(rows: seq<T>, key: T -> Key): Option<seq<T>>
  {
    if rows == [] then None else Some(SortBy(DedupBy(rows, key), key))
  }

  /** The frame has one row per key of the input, in ascending key order,
      and that row is the first input row with its key. */
  lemma TableOfSpec<T>(rows: seq<T>, key: T -> Key)
    ensures TableOf(rows, key).None? <==> rows == []
    ensures TableOf(rows, key).Some? ==>
      var t := TableOf(rows, key).value;
      && StrictlySortedBy(t, key)
      && KeysOf(t, key) == KeysOf(rows, key)
      && forall i :: 0 <= i < |t| ==>
           key(t[i]) in KeysOf(rows, key) && t[i] == FirstWithKey(rows, key, key(t[i]))
  {
    if rows != [] {
      var d := DedupBy(rows, key);
      var t := SortBy(d, key);
      DedupKeys(rows, key);
      DedupFirst(rows, key);
      SortByUnique(d, key);
      SortByPermutes(d, key);
      SameElementsSameKeys(t, d, key);
      forall i | 0 <= i < |t|
        ensures key(t[i]) in KeysOf(rows, key) && t[i] == FirstWithKey(rows, key, key(t[i]))
      {
        assert t[i] in multiset(d);
        var j :| 0 <= j < |d| && d[j] == t[i];
      }
    }
  }

  /** `df[mask]`: the rows that satisfy `p`, in their order. */
  function Filter<T>(s: seq<T>, p: T -> bool): (r: seq<T>)
    ensures |r| <= |s|
    ensures forall i :: 0 <= i < |r| ==> p(r[i])
  {
    if s == [] then []
    else (if p(s[0]) then [s[0]] else []) + Filter(s[1..], p)
  }

  lemma {:induction false} FilterMembers<T>(s: seq<T>, p: T -> bool)
    ensures forall x :: x in Filter(s, p) <==> x in s && p(x)
  {
    if s != [] {
      FilterMembers(s[1..], p);
      assert s == [s[0]] + s[1..];
    }
  }

  lemma FilterMember<T>(s: seq<T>, p: T -> bool, y: T)
    requires y in Filter(s, p)
    ensures y in s && p(y)
  {
    FilterMembers(s, p);
  }

  /** Filtering keeps each row that satisfies `p` as often as it occurs
      and drops every other row. */
  lemma {:induction false} FilterMultiset<T>(s: seq<T>, p: T -> bool)
    ensures forall x :: multiset(Filter(s, p))[x] == if p(x) then multiset(s)[x] else 0
  {
    if s != [] {
      FilterMultiset(s[1..], p);
      assert s == [s[0]] + s[1..];
      assert multiset(s) == multiset([s[0]]) + multiset(s[1..]);
      var head := if p(s[0]) then [s[0]] else [];
      assert Filter(s, p) == head + Filter(s[1..], p);
      assert multiset(Filter(s, p)) == multiset(head) + multiset(Filter(s[1..], p));
    }
  }

  /** A filter's rows are a sub-multiset of the frame's. */
  lemma FilterSubMultiset<T>(s: seq<T>, p: T -> bool)
    ensures multiset(Filter(s, p)) <= multiset(s)
  {
    FilterMultiset(s, p);
  }

  /** A filter keeps as many rows as `p` counts. */
  lemma {:induction false} FilterCount<T>(s: seq<T>, p: T -> bool)
    ensures |Filter(s, p)| == Count(s, p)
  {
    if s != [] {
      var n := |s| - 1;
      assert s == s[..n] + [s[n]];
      FilterAppend(s[..n], [s[n]], p);
      FilterCount(s[..n], p);
      assert Filter([s[n]], p) == (if p(s[n]) then [s[n]] else []) + Filter([], p);
    }
  }

  /** Two masks that agree on every row of the frame select the same rows. */
  lemma {:induction false} FilterAgree<T>(s: seq<T>, p: T -> bool, q: T -> bool)
    requires forall x :: x in s ==> p(x) == q(x)
    ensures Filter(s, p) == Filter(s, q)
  {
    if s != [] {
      assert s[0] in s;
      assert forall x :: x in s[1..] ==> x in s;
      FilterAgree(s[1..], p, q);
    }
  }

  lemma {:induction false} FilterAppend<T>(a: seq<T>, b: seq<T>, p: T -> bool)
    ensures Filter(a + b, p) == Filter(a, p) + Filter(b, p)
  {
    if a == [] {
      assert a + b == b;
    } else {
      assert (a + b)[1..] == a[1..] + b;
      FilterAppend(a[1..], b, p);
    }
  }

  /** Filtering keeps the rows' order, so a frame sorted by a key stays so. */
  lemma {:induction false} FilterSorted<T>(s: seq<T>, p: T -> bool, key: T -> Key)
    requires SortedBy(s, key)
    ensures SortedBy(Filter(s, p), key)
  {
    if s != [] {
      var rest := Filter(s[1..], p);
      FilterSorted(s[1..], p, key);
      FilterMembers(s[1..], p);
      if p(s[0]) {
        var r := Filter(s, p);
        assert r == [s[0]] + rest;
        forall i, j | 0 <= i < j < |r|
          ensures KeyLe(key(r[i]), key(r[j]))
        {
          if i == 0 {
            var y := rest[j - 1];
            assert r[j] == y;
            FilterMember(s[1..], p, y);
            var m :| 0 <= m < |s| - 1 && s[1..][m] == y;
            assert s[m + 1] == y;
          } else {
            assert r[i] == rest[i - 1] && r[j] == rest[j - 1];
          }
        }
      }
    }
  }

  /** The same for a strict order. */
  lemma {:induction false} FilterStrictlySorted<T>(s: seq<T>, p: T -> bool, key: T -> Key)
    requires StrictlySortedBy(s, key)
    ensures StrictlySortedBy(Filter(s, p), key)
  {
    if s != [] {
      var rest := Filter(s[1..], p);
      FilterStrictlySorted(s[1..], p, key);
      FilterMembers(s[1..], p);
      if p(s[0]) {
        var r := Filter(s, p);
        assert r == [s[0]] + rest;
        forall i, j | 0 <= i < j < |r|
          ensures KeyLt(key(r[i]), key(r[j]))
        {
          if i == 0 {
            var y := rest[j - 1];
            assert r[j] == y;
            FilterMember(s[1..], p, y);
            var m :| 0 <= m < |s| - 1 && s[1..][m] == y;
            assert s[m + 1] == y;
          } else {
            assert r[i] == rest[i - 1] && r[j] == rest[j - 1];
          }
        }
      }
    }
  }

  /** The rows of `right` whose key equals `k`, in their order. */
  function Matches<R>(k: Key, right: seq<R>, rkey: R -> Key): (ms: seq<R>)
    ensures |ms| <= |right|
    ensures forall i :: 0 <= i < |ms| ==> rkey(ms[i]) == k
  {
    if right == [] then []
    else (if rkey(right[0]) == k then [right[0]] else []) + Matches(k, right[1..], rkey)
  }

  /** `left.merge(right, on=..., how="left")`: each left row, in order, once
      per matching right row (in right's order), or once with no right row
      when none matches. */
  function LeftJoin<L, R, O>(left: seq<L>, right: seq<R>, lkey: L -> Key, rkey: R -> Key,
                             row: (L, Option<R>) -> O): seq<O>
  {
    if left == [] then []
    else
      var ms := Matches(lkey(left[0]), right, rkey);
      (if ms == [] then [row(left[0], None)]
       else seq(|ms|, k requires 0 <= k < |ms| => row(left[0], Some(ms[k]))))
      + LeftJoin(left[1..], right, lkey, rkey, row)
  }

  /** The right row a left key meets, when there is one. */
  function Lookup<R>(k: Key, right: seq<R>, rkey: R -> Key): (m: Option<R>)
    ensures m.Some? ==> rkey(m.value) == k
  {
    var ms := Matches(k, right, rkey);
    if ms == [] then None else Some(ms[0])
  }

  lemma {:induction false} MatchesUnique<R>(k: Key, right: seq<R>, rkey: R -> Key)
    requires UniqueKeys(right, rkey)
    ensures |Matches(k, right, rkey)| <= 1
  {
    if right != [] {
      if rkey(right[0]) == k {
        MatchesNone(k, right[1..], rkey);
      } else {
        MatchesUnique(k, right[1..], rkey);
      }
    }
  }

  lemma {:induction false} MatchesNone<R>(k: Key, right: seq<R>, rkey: R -> Key)
    requires forall j :: 0 <= j < |right| ==> rkey(right[j]) != k
    ensures Matches(k, right, rkey) == []
  {
    if right != [] {
      MatchesNone(k, right[1..], rkey);
    }
  }

  /** When the right side has one row per key, the left join keeps the left
      side's length and order, and row `i` pairs left row `i` with the right
      row its key meets. */
  lemma {:induction false} LeftJoinUnique<L, R, O>(left: seq<L>, right: seq<R>, lkey: L -> Key,
                                                   rkey: R -> Key, row: (L, Option<R>) -> O)
    requires UniqueKeys(right, rkey)
    ensures |LeftJoin(left, right, lkey, rkey, row)| == |left|
    ensures forall i :: 0 <= i < |left| ==>
      LeftJoin(left, right, lkey, rkey, row)[i] == row(left[i], Lookup(lkey(left[i]), right, rkey))
  {
    if left != [] {
      MatchesUnique(lkey(left[0]), right, rkey);
      LeftJoinUnique(left[1..], right, lkey, rkey, row);
    }
  }

  /** `sum()` of a column. */
  function Sum<T>(s: seq<T>, f: T -> real): real
  {
    if s == [] then 0.0 else Sum(s[..|s| - 1], f) + f(s[|s| - 1])
  }

  lemma {:induction false} SumAppend<T>(a: seq<T>, b: seq<T>, f: T -> real)
    ensures Sum(a + b, f) == Sum(a, f) + Sum(b, f)
  {
    if b == [] {
      assert a + b == a;
    } else {
      assert (a + b)[..|a + b| - 1] == a + b[..|b| - 1];
      SumAppend(a, b[..|b| - 1], f);
    }
  }

  /** A column that is pointwise no larger sums to no more. */
  lemma {:induction false} SumMonotone<T>(s: seq<T>, f: T -> real, g: T -> real)
    requires forall i :: 0 <= i < |s| ==> f(s[i]) <= g(s[i])
    ensures Sum(s, f) <= Sum(s, g)
  {
    if s != [] {
      SumMonotone(s[..|s| - 1], f, g);
    }
  }

  /** The number of rows satisfying `p`. */
  function Count<T>(s: seq<T>, p: T -> bool): (n: nat)
    ensures n <= |s|
  {
    if s == [] then 0 else Count(s[..|s| - 1], p) + (if p(s[|s| - 1]) then 1 else 0)
  }

  /** The positions of the rows that satisfy `p`. */
  function Positions<T>(s: seq<T>, p: T -> bool): set<nat>
  {
    set i: nat | i < |s| && p(s[i])
  }

  /** `len(df.query(p))`: the count is the number of row positions that
      satisfy `p`. */
  lemma {:induction false} CountIndices<T>(s: seq<T>, p: T -> bool)
    ensures Count(s, p) == |Positions(s, p)|
  {
    if s == [] {
      assert Positions(s, p) == {};
    } else {
      var n := |s| - 1;
      CountIndices(s[..n], p);
      PositionsLast(s, p);
    }
  }

  /** The positions in `s` are those in all but its last row, and the last
      position when that row satisfies `p`. */
  lemma PositionsLast<T>(s: seq<T>, p: T -> bool)
    requires s != []
    ensures var n := |s| - 1;
      && n !in Positions(s[..n], p)
      && Positions(s, p) == Positions(s[..n], p) + (if p(s[n]) then {n} else {})
  {
    var n := |s| - 1;
    forall i: nat | i < n
      ensures i in Positions(s[..n], p) <==> i in Positions(s, p)
    {
      assert s[..n][i] == s[i];
    }
  }

  /** Rows outside the filter that add nothing to a sum can be dropped. */
  lemma {:induction false} SumFilterZero<T>(s: seq<T>, f: T -> real, p: T -> bool)
    requires forall i :: 0 <= i < |s| && !p(s[i]) ==> f(s[i]) == 0.0
    ensures Sum(Filter(s, p), f) == Sum(s, f)
  {
    if s != [] {
      var n := |s| - 1;
      assert s == s[..n] + [s[n]];
      SumFilterZero(s[..n], f, p);
      FilterAppend(s[..n], [s[n]], p);
      var last := if p(s[n]) then [s[n]] else [];
      assert Filter([s[n]], p) == last + Filter([], p);
      SumAppend(Filter(s[..n], p), last, f);
      assert Sum([s[n]], f) == Sum([], f) + f(s[n]);
    }
  }

  /** Replacing one row changes the count by what the old and the new row
      contribute. */
  lemma {:induction false} CountUpdate<T>(s: seq<T>, i: nat, x: T, p: T -> bool)
    requires i < |s|
    ensures Count(s[i := x], p) + (if p(s[i]) then 1 else 0) == Count(s, p) + (if p(x) then 1 else 0)
  {
    var n := |s| - 1;
    if i < n {
      assert s[i := x][..n] == s[..n][i := x];
      CountUpdate(s[..n], i, x, p);
    } else {
      assert s[i := x][..n] == s[..n];
    }
  }

  /** A weaker condition counts at least as many rows. */
  lemma {:induction false} CountMonotone<T>(s: seq<T>, p: T -> bool, q: T -> bool)
    requires forall i :: 0 <= i < |s| ==> p(s[i]) ==> q(s[i])
    ensures Count(s, p) <= Count(s, q)
  {
    if s != [] {
      CountMonotone(s[..|s| - 1], p, q);
    }
  }
  /** Two columns that agree row by row have the same sum. */
  lemma {:induction false} SumPointwise<T, U>(s: seq<T>, f: T -> real, t: seq<U>, g: U -> real)
    requires |s| == |t| && forall i :: 0 <= i < |s| ==> f(s[i]) == g(t[i])
    ensures Sum(s, f) == Sum(t, g)
  {
    if s != [] {
      SumPointwise(s[..|s| - 1], f, t[..|t| - 1], g);
    }
  }

  /** Two masks that agree row by row count the same rows. */
  lemma {:induction false} CountPointwise<T, U>(s: seq<T>, p: T -> bool, t: seq<U>, q: U -> bool)
    requires |s| == |t| && forall i :: 0 <= i < |s| ==> p(s[i]) == q(t[i])
    ensures Count(s, p) == Count(t, q)
  {
    if s != [] {
      CountPointwise(s[..|s| - 1], p, t[..|t| - 1], q);
    }
  }

  /** Every row of a left join is built from a left row and either no right
      row or one of the right rows, so a property of all such rows holds of
      the whole join. */
  lemma {:induction false} LeftJoinPreserves<L, R, O>(left: seq<L>, right: seq<R>, lkey: L -> Key,
                                                      rkey: R -> Key, row: (L, Option<R>) -> O,
                                                      ok: O -> bool)
    requires forall l :: l in left ==> ok(row(l, None))
    requires forall l, m :: l in left && m in right ==> ok(row(l, Some(m)))
    ensures forall o :: o in LeftJoin(left, right, lkey, rkey, row) ==> ok(o)
  {
    if left != [] {
      var ms := Matches(lkey(left[0]), right, rkey);
      MatchesMembers(lkey(left[0]), right, rkey);
      assert left[0] in left;
      assert forall l :: l in left[1..] ==> l in left;
      LeftJoinPreserves(left[1..], right, lkey, rkey, row, ok);
      var head := if ms == [] then [row(left[0], None)]
        else seq(|ms|, k requires 0 <= k < |ms| => row(left[0], Some(ms[k])));
      assert LeftJoin(left, right, lkey, rkey, row) == head + LeftJoin(left[1..], right, lkey, rkey, row);
      forall o | o in head ensures ok(o) {
        if ms != [] {
          var k :| 0 <= k < |ms| && head[k] == o;
          assert ms[k] in ms;
        }
      }
    }
  }

  lemma {:induction false} MatchesMembers<R>(k: Key, right: seq<R>, rkey: R -> Key)
    ensures forall m :: m in Matches(k, right, rkey) ==> m in right
  {
    if right != [] {
      MatchesMembers(k, right[1..], rkey);
      assert forall m :: m in right[1..] ==> m in right;
    }
  }
}

=== FILE: text.dfy ===
/** The string primitives the feed parser leans on, with Python's meaning:
    `str.strip()`, `str.split(sep)`, `str.replace(old, new)`, the `in`
    substring test, `startswith`/`endswith`, and the numeric conversions
    `int(s)` and `float(s)` on the decimal forms the feed contains. */
module Text {
  import opened Wrappers

  /** `[0-9]` in a regular expression: ASCII digits only. */
  predicate IsAsciiDigit(c: char) { '0' <= c <= '9' }

  /** Digits that `int()` and `float()` accept here: ASCII and full-width
      (the feed writes bracket numbers as "２"). */
  predicate IsDigit(c: char) { IsAsciiDigit(c) || '０' <= c <= '９' }

  function DigitValue(c: char): (d: nat)
    requires IsDigit(c)
    ensures d < 10
    ensures IsAsciiDigit(c) ==> d == c as int - '0' as int
  {
    if IsAsciiDigit(c) then c as int - '0' as int else c as int - '０' as int
  }

  /** Characters `str.isspace()` accepts, so `str.strip()`, `int()` and
      `float()` remove them at either end. */
  predicate IsSpace(c: char) {
    || ('\t' <= c <= '\r')
    || ('\U{1C}' <= c <= ' ')
    || c == '\U{85}' || c == '\U{A0}' || c == '\U{1680}'
    || ('\U{2000}' <= c <= '\U{200A}')
    || c == '\U{2028}' || c == '\U{2029}' || c == '\U{202F}' || c == '\U{205F}'
    || c == '\U{3000}'
  }

  predicate AllDigits(s: string) { forall i :: 0 <= i < |s| ==> IsDigit(s[i]) }

  predicate AllAsciiDigits(s: string) { forall i :: 0 <= i < |s| ==> IsAsciiDigit(s[i]) }

  predicate NoSpace(s: string) { forall i :: 0 <= i < |s| ==> !IsSpace(s[i]) }

  function TrimStart(s: string): (r: string)
    ensures |r| <= |s| && r == s[|s| - |r|..]
    ensures |r| > 0 ==> !IsSpace(r[0])
    ensures forall i :: 0 <= i < |s| - |r| ==> IsSpace(s[i])
  {
    if |s| > 0 && IsSpace(s[0]) then TrimStart(s[1..]) else s
  }

  function TrimEnd(s: string): (r: string)
    ensures |r| <= |s| && r == s[..|r|]
    ensures |r| > 0 ==> !IsSpace(r[|r| - 1])
    ensures forall i :: |r| <= i < |s| ==> IsSpace(s[i])
  {
    if |s| > 0 && IsSpace(s[|s| - 1]) then TrimEnd(s[..|s| - 1]) else s
  }

  /** No whitespace at either end. */
  predicate Trimmed(r: string)
  {
    |r| > 0 ==> !IsSpace(r[0]) && !IsSpace(r[|r| - 1])
  }

  /** `r` sits at position `i` of `s` with nothing but whitespace around it. */
  predicate Padded(s: string, r: string, i: nat)
  {
    && i + |r| <= |s| && s[i..i + |r|] == r
    && (forall k :: 0 <= k < i ==> IsSpace(s[k]))
    && (forall k :: i + |r| <= k < |s| ==> IsSpace(s[k]))
  }

  /** `r` is `s` with some whitespace cut from either end. */
  ghost predicate CutFrom(s: string, r: string)
  {
    exists i: nat :: i <= |s| && Padded(s, r, i)
  }

  /** `s.strip()`: the text between the leading and the trailing whitespace. */
  function Strip(s: string): (r: string)
    ensures Trimmed(r)
    ensures |r| <= |s|
    ensures r == [] <==> forall i :: 0 <= i < |s| ==> IsSpace(s[i])
  {
    var t := TrimStart(s);
    var r := TrimEnd(t);
    r
  }

  /** `strip()` is exactly the trimmed text that only whitespace surrounds in `s`. */
  lemma StripSpec(s: string, r: string)
    ensures r == Strip(s) <==> Trimmed(r) && CutFrom(s, r)
  {
    StripCuts(s);
    if Trimmed(r) && CutFrom(s, r) {
      var i: nat :| i <= |s| && Padded(s, r, i);
      StripUnique(s, r, i);
    }
  }

  /** What `strip()` returns has only whitespace around it in `s`. */
  lemma {:induction false} StripCuts(s: string)
    ensures CutFrom(s, Strip(s))
  {
    var t := TrimStart(s);
    var r := TrimEnd(t);
    PaddedSlice(s, t, r);
    assert Padded(s, Strip(s), |s| - |t|);
  }

  /** A prefix of a suffix, each cut off whitespace, is padded in `s`. */
  lemma PaddedSlice(s: string, t: string, r: string)
    requires |t| <= |s| && t == s[|s| - |t|..] && forall k :: 0 <= k < |s| - |t| ==> IsSpace(s[k])
    requires |r| <= |t| && r == t[..|r|] && forall k :: |r| <= k < |t| ==> IsSpace(t[k])
    ensures Padded(s, r, |s| - |t|)
  {
    var a := |s| - |t|;
    assert s[a..][..|r|] == s[a..a + |r|];
    forall k | a + |r| <= k < |s|
      ensures IsSpace(s[k])
    {
      assert s[k] == t[k - a];
    }
  }

  /** Only one trimmed text has nothing but whitespace around it in `s`:
      `Strip` is the whole of `strip()`. */
  lemma {:induction false} StripUnique(s: string, r: string, i: nat)
    requires Trimmed(r) && Padded(s, r, i)
    ensures r == Strip(s)
  {
    var t := Strip(s);
    StripCuts(s);
    var j: nat :| j <= |s| && Padded(s, t, j);
    if r == [] {
      forall k | 0 <= k < |s|
        ensures IsSpace(s[k])
      {
        if k >= i {
          assert i + |r| <= k;
        }
      }
    } else {
      assert s[i] == r[0];
      assert t != [];
      PaddedUnique(s, r, i, t, j);
    }
  }

  /** Two non-empty trimmed texts with only whitespace around them in `s`
      are the same text. */
  lemma PaddedUnique(s: string, r: string, i: nat, t: string, j: nat)
    requires r != [] && Trimmed(r) && Padded(s, r, i)
    requires t != [] && Trimmed(t) && Padded(s, t, j)
    ensures r == t
  {
    assert s[i] == r[0] && s[i + |r| - 1] == r[|r| - 1];
    assert s[j] == t[0] && s[j + |t| - 1] == t[|t| - 1];
    SameFirst(s, i, j);
    SameLast(s, i + |r| - 1, j + |t| - 1);
  }

  /** Two positions that are each the first non-space of `s` coincide. */
  lemma SameFirst(s: string, i: nat, j: nat)
    requires i < |s| && !IsSpace(s[i]) && forall k :: 0 <= k < i ==> IsSpace(s[k])
    requires j < |s| && !IsSpace(s[j]) && forall k :: 0 <= k < j ==> IsSpace(s[k])
    ensures i == j
  {
  }

  /** Two positions that are each the last non-space of `s` coincide. */
  lemma SameLast(s: string, i: nat, j: nat)
    requires i < |s| && !IsSpace(s[i]) && forall k :: i < k < |s| ==> IsSpace(s[k])
    requires j < |s| && !IsSpace(s[j]) && forall k :: j < k < |s| ==> IsSpace(s[k])
    ensures i == j
  {
  }

  lemma StripUnchanged(s: string)
    requires |s| > 0 && !IsSpace(s[0]) && !IsSpace(s[|s| - 1])
    ensures Strip(s) == s
  {
  }

  /** `p` is a prefix of `s` (`s.startswith(p)`). */
  predicate StartsWith(s: string, p: string) { |p| <= |s| && s[..|p|] == p }

  /** `s.endswith(p)`. */
  predicate EndsWith(s: string, p: string) { |p| <= |s| && s[|s| - |p|..] == p }

  /** `sub in s`: some position of `s` starts an occurrence of `sub`. */
  predicate Contains(s: string, sub: string)
    decreases |s|
  {
    StartsWith(s, sub) || (|s| > 0 && Contains(s[1..], sub))
  }

  lemma {:induction false} ContainsAt(s: string, sub: string, k: nat)
    requires k + |sub| <= |s| && s[k..k + |sub|] == sub
    ensures Contains(s, sub)
    decreases k
  {
    if k > 0 {
      assert s[1..][k - 1..k - 1 + |sub|] == s[k..k + |sub|];
      ContainsAt(s[1..], sub, k - 1);
    }
  }

  lemma {:induction false} ContainsWitness(s: string, sub: string) returns (k: nat)
    requires Contains(s, sub)
    ensures k + |sub| <= |s| && s[k..k + |sub|] == sub
    decreases |s|
  {
    if StartsWith(s, sub) {
      k := 0;
    } else {
      var k' := ContainsWitness(s[1..], sub);
      k := k' + 1;
      assert s[k..k + |sub|] == s[1..][k'..k' + |sub|];
    }
  }

  /** `s.replace(pat, rep)`: every non-overlapping occurrence of `pat`, scanned
      from the left, is replaced. */
  function Replace(s: string, pat: string, rep: string): (r: string)
    requires |pat| > 0
    ensures !Contains(s, pat) ==> r == s
    decreases |s|
  {
    if |s| < |pat| then s
    else if s[..|pat|] == pat then rep + Replace(s[|pat|..], pat, rep)
    else [s[0]] + Replace(s[1..], pat, rep)
  }

  /** An occurrence of `pat` starts at position `k` of `s`. */
  predicate OccursAt(s: string, pat: string, k: nat)
  {
    k + |pat| <= |s| && s[k..k + |pat|] == pat
  }

  /** The leftmost occurrence is replaced and the scan goes on after it:
      with `!Contains(s, pat) ==> Replace(s, pat, rep) == s` this determines
      `Replace` on every input. */
  lemma {:induction false} ReplaceLeftmost(s: string, a: string, pat: string, rep: string, b: string)
    requires |pat| > 0 && s == a + pat + b
    requires forall k: nat :: k < |a| ==> !OccursAt(s, pat, k)
    ensures Replace(s, pat, rep) == a + rep + Replace(b, pat, rep)
    decreases |a|
  {
    if a == [] {
      assert s[..|pat|] == pat && s[|pat|..] == b;
    } else {
      assert !OccursAt(s, pat, 0);
      assert s[..|pat|] != pat by {
        assert s[0..0 + |pat|] == s[..|pat|];
      }
      var s' := s[1..];
      assert Replace(s, pat, rep) == [s[0]] + Replace(s', pat, rep);
      assert s' == a[1..] + pat + b;
      forall k: nat | k < |a[1..]|
        ensures !OccursAt(s', pat, k)
      {
        assert !OccursAt(s, pat, k + 1);
        assert s'[k..k + |pat|] == s[k + 1..k + 1 + |pat|];
      }
      ReplaceLeftmost(s', a[1..], pat, rep, b);
      assert [s[0]] + a[1..] == a;
    }
  }

  /** ASCII digits hold no other character. */
  lemma DigitsLack(s: string, c: char)
    requires AllAsciiDigits(s) && !IsAsciiDigit(c)
    ensures c !in s
  {
  }

  /** Text without the character has no occurrence of it to replace. */
  lemma {:induction false} NoOccurrence(s: string, c: char)
    requires c !in s
    ensures Replace(s, [c], "") == s
  {
    if |s| > 0 {
      assert s[0] != c;
      assert s[..1] != [c] by {
        assert s[..1][0] == s[0];
      }
      NoOccurrence(s[1..], c);
      assert [s[0]] + s[1..] == s;
    }
  }

  /** A single leading occurrence is the only one removed. */
  lemma DropOne(c: char, t: string)
    requires c !in t
    ensures Replace([c] + t, [c], "") == t
  {
    ReplaceLeftmost([c] + t, [], [c], "", t);
    NoOccurrence(t, c);
  }

  /** A single occurrence between two texts without it is the only one removed. */
  lemma DropMiddle(a: string, c: char, b: string)
    requires c !in a && c !in b
    ensures Replace(a + [c] + b, [c], "") == a + b
  {
    var t := a + [c] + b;
    forall k: nat | k < |a|
      ensures !OccursAt(t, [c], k)
    {
      assert t[k..k + 1] == [a[k]];
    }
    ReplaceLeftmost(t, a, [c], "", b);
    NoOccurrence(b, c);
    AppendNothing(a, b);
  }

  lemma AppendNothing(a: string, b: string)
    ensures a + "" + b == a + b
  {
  }

  function IndexOf(s: string, c: char): (k: nat)
    requires c in s
    ensures k < |s| && s[k] == c && c !in s[..k]
  {
    if s[0] == c then 0 else IndexOf(s[1..], c) + 1
  }

  /** Parts joined back with the separator: the inverse of `Split`. */
  function Join(parts: seq<string>, sep: char): string
    requires |parts| > 0
  {
    if |parts| == 1 then parts[0] else parts[0] + [sep] + Join(parts[1..], sep)
  }

  /** `s.split(sep)` for a one-character separator: the maximal pieces of `s`
      between separators, empty ones included. */
  function Split(s: string, sep: char): (parts: seq<string>)
    ensures |parts| > 0
    ensures forall i :: 0 <= i < |parts| ==> sep !in parts[i]
    ensures Join(parts, sep) == s
    decreases |s|
  {
    if sep !in s then [s]
    else
      var k := IndexOf(s, sep);
      var rest := Split(s[k + 1..], sep);
      assert s == s[..k] + [sep] + s[k + 1..];
      [s[..k]] + rest
  }

  /** Digits read as a decimal number, most significant first. */
  function DigitsValue(s: string): nat
    requires AllDigits(s)
  {
    if s == [] then 0 else DigitsValue(s[..|s| - 1]) * 10 + DigitValue(s[|s| - 1])
  }

  /** `str(n)` for a non-negative integer. */
  function NatToString(n: nat): (s: string)
    ensures |s| > 0 && AllAsciiDigits(s)
  {
    if n < 10 then [('0' as int + n) as char]
    else NatToString(n / 10) + [('0' as int + n % 10) as char]
  }

  lemma {:induction false} NatToStringValue(n: nat)
    ensures AllDigits(NatToString(n)) && DigitsValue(NatToString(n)) == n
  {
    var s := NatToString(n);
    if n >= 10 {
      NatToStringValue(n / 10);
      assert s[..|s| - 1] == NatToString(n / 10);
    }
  }

  /** The text `int()` and `float()` read after stripping: an optional sign
      and the unsigned body. */
  function SignAndBody(t: string): (r: (int, string))
    ensures r.0 == 1 || r.0 == -1
    ensures |r.1| <= |t| && r.1 == t[|t| - |r.1|..]
  {
    if |t| > 0 && t[0] == '-' then (-1, t[1..])
    else if |t| > 0 && t[0] == '+' then (1, t[1..])
    else (1, t)
  }

  /** Python `int(s)` on a string: surrounding whitespace, an optional sign and
      one or more decimal digits; anything else raises (`None` here). */
  function ParseInt(s: string): (r: Option<int>)
    ensures |s| > 0 && AllDigits(s) ==> r == Some(DigitsValue(s))
    ensures r.Some? ==> Strip(s) != []
  {
    PlainDigits(s);
    var (sign, body) := SignAndBody(Strip(s));
    if |body| > 0 && AllDigits(body) then
      Some(if sign < 0 then -(DigitsValue(body) as int) else DigitsValue(body))
    else None
  }

  /** A plain run of digits has nothing to strip and no sign. */
  lemma PlainDigits(s: string)
    ensures |s| > 0 && AllDigits(s) ==> SignAndBody(Strip(s)) == (1, s)
  {
    if |s| > 0 && AllDigits(s) {
      assert IsDigit(s[0]) && IsDigit(s[|s| - 1]);
      StripUnchanged(s);
    }
  }

  /** `int(str(n)) == n`: the decimal rendering of a count reads back as it. */
  lemma {:induction false} ParseIntRoundTrip(n: nat)
    ensures ParseInt(NatToString(n)) == Some(n)
  {
    NatToStringValue(n);
  }

  function Pow10(k: nat): (p: nat)
    ensures p >= 1
  {
    if k == 0 then 1 else 10 * Pow10(k - 1)
  }

  /** Digits read left to right: `a + b` is worth `a` shifted past `b`. */
  lemma {:induction false} DigitsValueConcat(a: string, b: string)
    requires AllDigits(a) && AllDigits(b)
    ensures AllDigits(a + b) && DigitsValue(a + b) == DigitsValue(a) * Pow10(|b|) + DigitsValue(b)
  {
    if b == [] {
      assert a + b == a;
    } else {
      var b' := b[..|b| - 1];
      DigitsValueConcat(a, b');
      var s := a + b;
      assert s[..|s| - 1] == a + b' && s[|s| - 1] == b[|b| - 1];
      Shift(DigitsValue(a), Pow10(|b'|), DigitsValue(b'), DigitValue(b[|b| - 1]));
    }
  }

  lemma Shift(x: int, p: int, y: int, c: int)
    ensures (x * p + y) * 10 + c == x * (p * 10) + (y * 10 + c)
  {
  }

  /** The value of the decimal `ip.fp`. */
  function DecimalValue(ip: string, fp: string): real
    requires AllDigits(ip) && AllDigits(fp)
  {
    DigitsValue(ip + fp) as real / Pow10(|fp|) as real
  }

  /** The unsigned part of `float()`: digits with at most one decimal point
      and at least one digit. */
  function UnsignedFloat(body: string): (r: Option<real>)
    ensures r.Some? ==> HasDigit(body)
  {
    if '.' !in body then
      if |body| > 0 && AllDigits(body) then
        assert IsDigit(body[0]);
        assert HasDigit(body);
        Some(DigitsValue(body) as real)
      else None
    else
      var k := IndexOf(body, '.');
      var ip, fp := body[..k], body[k + 1..];
      if |ip| + |fp| > 0 && AllDigits(ip) && AllDigits(fp) then
        assert if |ip| > 0 then body[0] == ip[0] && IsDigit(body[0])
               else body[k + 1] == fp[0] && IsDigit(body[k + 1]);
        assert HasDigit(body);
        Some(DecimalValue(ip, fp))
      else None
  }

  /** Python `float(s)` on plain decimal text: surrounding whitespace, an
      optional sign, digits with at most one decimal point and at least one
      digit. */
  function ParseFloat(s: string): (r: Option<real>)
    ensures r.Some? ==> HasDigit(Strip(s))
  {
    var t := Strip(s);
    var (sign, body) := SignAndBody(t);
    match UnsignedFloat(body)
    case None => None
    case Some(v) =>
      DigitInSuffix(t, body);
      Some(if sign < 0 then -v else v)
  }

  predicate HasDigit(s: string)
  {
    exists k :: 0 <= k < |s| && IsDigit(s[k])
  }

  /** A digit of a suffix is a digit of the whole text. */
  lemma DigitInSuffix(t: string, body: string)
    requires |body| <= |t| && body == t[|t| - |body|..] && HasDigit(body)
    ensures HasDigit(t)
  {
    var k :| 0 <= k < |body| && IsDigit(body[k]);
    assert t[|t| - |body| + k] == body[k];
  }

  /** `float(ip + "." + fp)` for plain ASCII digit strings is the decimal `ip.fp`. */
  lemma {:induction false} ParseFloatDecimal(s: string, ip: string, fp: string)
    requires AllAsciiDigits(ip) && AllAsciiDigits(fp) && |ip| + |fp| > 0
    requires s == ip + "." + fp
    ensures AllDigits(ip) && AllDigits(fp)
    ensures ParseFloat(s) == Some(DecimalValue(ip, fp))
  {
    assert s[|ip|] == '.';
    assert Strip(s) == s by { StripUnchanged(s); }
    assert SignAndBody(s) == (1, s);
    assert '.' !in ip;
    assert IndexOf(s, '.') == |ip|;
    assert s[..|ip|] == ip && s[|ip| + 1..] == fp;
  }

  /** The decimal `0.ab` is `ab` hundredths. */
  lemma {:induction false} TwoDigitDecimal(ip: string, fp: string)
    requires |ip| == 1 && ip[0] == '0' && |fp| == 2 && AllAsciiDigits(fp)
    ensures AllDigits(ip) && AllDigits(fp)
    ensures DecimalValue(ip, fp) == Hundredths(fp[0], fp[1])
  {
    var w := ip + fp;
    assert w[..2][..1] == ip && ip[..0] == [];
    assert DigitsValue(ip) == 0;
    assert DigitsValue(w[..2]) == DigitValue(fp[0]);
    assert w[..3][..2] == w[..2] && w == w[..3];
    assert DigitsValue(w) == 10 * DigitValue(fp[0]) + DigitValue(fp[1]);
    assert Pow10(2) == 100;
  }

  /** Two digits read as hundredths. */
  function Hundredths(a: char, b: char): real
    requires IsAsciiDigit(a) && IsAsciiDigit(b)
  {
    (10 * DigitValue(a) + DigitValue(b)) as real / 100.0
  }

  /** `float("0" + ".dd")`, as the start-timing fields are read: hundredths. */
  lemma {:induction false} HundredthsValue(t: string)
    requires |t| == 4 && t[0] == '0' && t[1] == '.' && IsAsciiDigit(t[2]) && IsAsciiDigit(t[3])
    ensures ParseFloat(t) == Some(Hundredths(t[2], t[3]))
  {
    var ip, fp := t[..1], t[2..];
    assert fp[0] == t[2] && fp[1] == t[3];
    assert t == ip + "." + fp;
    ParseFloatDecimal(t, ip, fp);
    TwoDigitDecimal(ip, fp);
  }

  /** Length of the run of ASCII digits that starts at position `i`. */
  function DigitRun(s: string, i: nat): (n: nat)
    requires i <= |s|
    ensures i + n <= |s|
    ensures forall k :: i <= k < i + n ==> IsAsciiDigit(s[k])
    ensures i + n < |s| ==> !IsAsciiDigit(s[i + n])
    decreases |s| - i
  {
    if i < |s| && IsAsciiDigit(s[i]) then 1 + DigitRun(s, i + 1) else 0
  }

  /** The digit run of a string that starts with `d` and goes on with a
      non-digit is exactly `d`. */
  lemma {:induction false} DigitRunOf(s: string, i: nat, d: string)
    requires i + |d| <= |s| && s[i..i + |d|] == d && AllAsciiDigits(d)
    requires i + |d| < |s| ==> !IsAsciiDigit(s[i + |d|])
    ensures DigitRun(s, i) == |d|
    decreases |d|
  {
    if |d| > 0 {
      assert s[i] == d[0];
      assert s[i + 1..i + |d|] == d[1..];
      DigitRunOf(s, i + 1, d[1..]);
    }
  }
}

=== FILE: vocab.dfy ===
/** The closed vocabularies of the race pages and the integer codes the
    parsers give them. A token outside a vocabulary has no code, which the
    parsers turn into an error. */
module Vocabulary {
  import opened Wrappers
  import opened Text

  /** The code of `s` in a vocabulary whose first entry has code `first`. */
  function CodeIn(s: string, names: seq<string>, first: int): (k: Option<int>)
    ensures k.Some? ==> first <= k.value < first + |names| && names[k.value - first] == s
    ensures k.None? <==> s !in names
  {
    if names == [] then None
    else if names[0] == s then Some(first)
    else CodeIn(s, names[1..], first + 1)
  }

  predicate Distinct(names: seq<string>)
  {
    forall i, j :: 0 <= i < j < |names| ==> names[i] != names[j]
  }

  /** In a vocabulary without repeats, every entry has its own code: the
      code of entry `i` is `first + i`. */
  lemma {:induction false} CodeInEntry(names: seq<string>, first: int, i: nat)
    requires Distinct(names) && i < |names|
    ensures CodeIn(names[i], names, first) == Some(first + i)
  {
    if i > 0 {
      assert names[1..][i - 1] == names[i];
      CodeInEntry(names[1..], first + 1, i - 1);
    }
  }

  /** Racer class on the race card (`racer_data1`): A1, A2, B1, B2 are 1..4. */
  const ClassNames: seq<string> := ["A1", "A2", "B1", "B2"]

  /** Racer class on the profile page: the same classes with the suffix 級. */
  const ProfileClassNames: seq<string> := ["A1級", "A2級", "B1級", "B2級"]

  /** Blood type on the profile page: A, B, O, AB are 1..4. */
  const BloodTypeNames: seq<string> := ["A型", "B型", "O型", "AB型"]

  /** Bet type on the payoff page: win, place, quinella place, exacta,
      quinella, trifecta, trio are 1..7. */
  const BetTypeNames: seq<string> := ["単勝", "複勝", "拡連複", "2連単", "2連複", "3連単", "3連複"]

  /** The finish-fault marks of a result column, coded -1 .. -11 in this
      order: capsized, fell, engine stop, foul, flying, late, disqualified,
      absent, sunk, not finished, lost. */
  const FaultTokens: seq<string> := ["転", "落", "エ", "妨", "Ｆ", "Ｌ", "不", "欠", "沈", "＿", "失"]

  /** The grade marks of a race index's class attribute, coded 0..4. */
  const GradeMarks: seq<string> := ["is-ippan", "is-G3", "is-G2", "is-G1", "is-SG"]

  lemma VocabulariesDistinct()
    ensures Distinct(ClassNames) && Distinct(ProfileClassNames) && Distinct(BloodTypeNames)
    ensures Distinct(BetTypeNames) && Distinct(FaultTokens)
  {
  }

  function ClassCode(s: string): (k: Option<int>)
    ensures k.Some? ==> 1 <= k.value <= 4
    ensures k.None? <==> s !in ClassNames
  {
    CodeIn(s, ClassNames, 1)
  }

  function ProfileClassCode(s: string): (k: Option<int>)
    ensures k.Some? ==> 1 <= k.value <= 4
    ensures k.None? <==> s !in ProfileClassNames
  {
    CodeIn(s, ProfileClassNames, 1)
  }

  /** The race card and the profile page code a class alike. */
  lemma ClassCodesAgree(i: nat)
    requires i < 4
    ensures ProfileClassNames[i] == ClassNames[i] + "級"
    ensures ClassCode(ClassNames[i]) == ProfileClassCode(ProfileClassNames[i]) == Some(1 + i)
  {
    VocabulariesDistinct();
    CodeInEntry(ClassNames, 1, i);
    CodeInEntry(ProfileClassNames, 1, i);
  }

  function BloodTypeCode(s: string): (k: Option<int>)
    ensures k.Some? ==> 1 <= k.value <= 4
    ensures k.None? <==> s !in BloodTypeNames
  {
    CodeIn(s, BloodTypeNames, 1)
  }

  function BetTypeCode(s: string): (k: Option<int>)
    ensures k.Some? ==> 1 <= k.value <= 7
    ensures k.None? <==> s !in BetTypeNames
  {
    CodeIn(s, BetTypeNames, 1)
  }

  /** A vocabulary coded downwards from -1. */
  function NegatedCode(s: string, names: seq<string>): (k: Option<int>)
    ensures k.Some? ==> -|names| <= k.value <= -1 && names[-k.value - 1] == s
    ensures k.None? <==> s !in names
  {
    match CodeIn(s, names, 1)
    case Some(i) => Some(-i)
    case None => None
  }

  lemma NegatedCodeEntry(names: seq<string>, i: nat)
    requires Distinct(names) && i < |names|
    ensures NegatedCode(names[i], names) == Some(-(i + 1))
  {
    CodeInEntry(names, 1, i);
  }

  /** The code of a fault mark, -1 .. -11. */
  function FaultCode(s: string): (k: Option<int>)
    ensures k.Some? ==> -11 <= k.value <= -1 && FaultTokens[-k.value - 1] == s
    ensures k.None? <==> s !in FaultTokens
  {
    NegatedCode(s, FaultTokens)
  }

  /** A finish-result cell: a fault mark gives its negative code, anything
      else goes through `int()`, which fails on text that is not a number. */
  function ResultCode(s: string): (k: Option<int>)
    ensures s in FaultTokens ==> k.Some? && k.value < 0
    ensures s !in FaultTokens ==> k == ParseInt(s)
  {
    match FaultCode(s)
    case Some(f) => Some(f)
    case None => ParseInt(s)
  }

  /** Each fault mark has its own code, so no two marks are confused. */
  lemma FaultCodeEntry(i: nat)
    requires i < |FaultTokens|
    ensures ResultCode(FaultTokens[i]) == Some(-(i + 1))
  {
    FaultCodeOf(i);
  }

  /** The code of the `i`-th fault mark is `-(i + 1)`. */
  lemma FaultCodeOf(i: nat)
    requires i < |FaultTokens|
    ensures FaultCode(FaultTokens[i]) == Some(-(i + 1))
  {
    VocabulariesDistinct();
    NegatedCodeEntry(FaultTokens, i);
  }

  /** A finishing position written in digits gives a code of 0 or more,
      which never meets a fault code. */
  lemma ResultCodeDigits(s: string)
    requires |s| > 0 && AllDigits(s)
    ensures ResultCode(s) == Some(DigitsValue(s)) && DigitsValue(s) >= 0
  {
    DigitsNotFault(s);
  }

  /** No fault mark begins with a digit. */
  lemma DigitsNotFault(s: string)
    requires |s| > 0 && IsDigit(s[0])
    ensures s !in FaultTokens
  {
    forall i | 0 <= i < |FaultTokens|
      ensures FaultTokens[i][0] != s[0]
    {
      assert !IsDigit(FaultTokens[i][0]);
    }
  }

  /** `x in s` fails when `x` is longer, or as long and different. */
  lemma NotContainedIn(s: string, sub: string)
    requires |sub| > |s| || (|sub| == |s| && sub != s)
    ensures !Contains(s, sub)
  {
    if |s| > 0 {
      NotContainedIn(s[1..], sub);
    }
  }

  /** The grade is the first mark, in the order ippan, G3, G2, G1, SG, that
      the class attribute contains. */
  function GradeCode(cls: string): (k: Option<int>)
    ensures k.Some? ==> 0 <= k.value <= 4 && Contains(cls, GradeMarks[k.value])
    ensures k.Some? ==> forall j :: 0 <= j < k.value ==> !Contains(cls, GradeMarks[j])
    ensures k.None? <==> forall j :: 0 <= j < 5 ==> !Contains(cls, GradeMarks[j])
  {
    if Contains(cls, "is-ippan") then Some(0)
    else if Contains(cls, "is-G3") then Some(1)
    else if Contains(cls, "is-G2") then Some(2)
    else if Contains(cls, "is-G1") then Some(3)
    else if Contains(cls, "is-SG") then Some(4)
    else None
  }

  /** A grade mark alone reads back as its own grade. */
  lemma GradeMarkCode(i: nat)
    requires i < 5
    ensures GradeCode(GradeMarks[i]) == Some(i)
  {
    var m := GradeMarks[i];
    ContainsAt(m, m, 0);
    forall j | 0 <= j < i
      ensures !Contains(m, GradeMarks[j])
    {
      NotContainedIn(m, GradeMarks[j]);
    }
  }
}

=== FILE: vote.dfy ===
/** Choosing the tickets to buy for a race (`vote_race.py`): the predicted
    hit probability of each ticket is joined with its odds, the odds are
    ranked, and the tickets whose probability, expected return and odds rank
    clear the thresholds are bought with a stake of 1. */
module Voting {
  import opened Wrappers
  import opened Tables
  import opened Parsers
  import opened Feed

  /** A row of the prediction table: a ticket and the predicted probability
      that it hits. */
  datatype Prediction = Prediction(
    raceId: string, betType: int,
    bracketNumber1: int, bracketNumber2: Option<int>, bracketNumber3: Option<int>,
    predTicket: real)

  /** A prediction with the odds of its ticket, when the odds table has it. */
  datatype Candidate = Candidate(pred: Prediction, odds1: Option<real>, odds2: Option<real>)

  /** The join key, in the odds table's column order. */
  function PredKey(p: Prediction): Key
  {
    [Str(p.raceId), Num(p.betType), Num(p.bracketNumber1), Opt(p.bracketNumber2), Opt(p.bracketNumber3)]
  }

  function WithOdds(p: Prediction, m: Option<RaceOdds>): Candidate
  {
    if m.Some? then Candidate(p, m.value.odds1, m.value.odds2) else Candidate(p, None, None)
  }

  /** `merge_pred_and_odds`: a left join on race, bet type and boats, then
      the rows of one race. */
  function MergePredAndOdds(preds: seq<Prediction>, odds: seq<RaceOdds>, raceId: string): (r: seq<Candidate>)
    ensures forall k :: 0 <= k < |r| ==> r[k].pred.raceId == raceId
  {
    var joined := LeftJoin(preds, odds, PredKey, OddsKey, WithOdds);
    var sameRace := (c: Candidate) => c.pred.raceId == raceId;
    Filter(joined, sameRace)
  }

  /** The candidate carries the odds of its own ticket. */
  predicate OwnOdds(c: Candidate, odds: seq<RaceOdds>)
  {
    c == WithOdds(c.pred, Lookup(PredKey(c.pred), odds, OddsKey))
  }

  /** With one odds line per ticket (the feed's odds table is deduplicated
      on this key), every row of the merge is a prediction of the race with
      the odds of its own ticket; nulls in the second and third boat match
      each other. */
  lemma MergeSound(preds: seq<Prediction>, odds: seq<RaceOdds>, raceId: string)
    requires UniqueKeys(odds, OddsKey)
    ensures |MergePredAndOdds(preds, odds, raceId)| <= |preds|
    ensures forall c :: c in MergePredAndOdds(preds, odds, raceId) ==>
      c.pred in preds && c.pred.raceId == raceId && OwnOdds(c, odds)
  {
    var joined := LeftJoin(preds, odds, PredKey, OddsKey, WithOdds);
    var sameRace := (c: Candidate) => c.pred.raceId == raceId;
    var merged := Filter(joined, sameRace);
    assert merged == MergePredAndOdds(preds, odds, raceId);
    LeftJoinUnique(preds, odds, PredKey, OddsKey, WithOdds);
    FilterMembers(joined, sameRace);
    forall c | c in merged
      ensures c.pred in preds && c.pred.raceId == raceId && OwnOdds(c, odds)
    {
      var k :| 0 <= k < |joined| && joined[k] == c;
      assert joined[k] == WithOdds(preds[k], Lookup(PredKey(preds[k]), odds, OddsKey));
    }
  }

  /** Under the same condition no prediction of the race is lost: each
      appears with the odds of its own ticket. */
  lemma MergeComplete(preds: seq<Prediction>, odds: seq<RaceOdds>, raceId: string)
    requires UniqueKeys(odds, OddsKey)
    ensures forall p :: p in preds && p.raceId == raceId ==>
      WithOdds(p, Lookup(PredKey(p), odds, OddsKey)) in MergePredAndOdds(preds, odds, raceId)
  {
    var joined := LeftJoin(preds, odds, PredKey, OddsKey, WithOdds);
    var sameRace := (c: Candidate) => c.pred.raceId == raceId;
    var merged := Filter(joined, sameRace);
    assert merged == MergePredAndOdds(preds, odds, raceId);
    LeftJoinUnique(preds, odds, PredKey, OddsKey, WithOdds);
    FilterMembers(joined, sameRace);
    forall p | p in preds && p.raceId == raceId
      ensures WithOdds(p, Lookup(PredKey(p), odds, OddsKey)) in merged
    {
      var k :| 0 <= k < |preds| && preds[k] == p;
      assert joined[k] == WithOdds(p, Lookup(PredKey(p), odds, OddsKey));
      assert joined[k] in joined;
    }
  }

  /** The distinct odds present in a column; missing odds take no rank. */
  function OddsValues(rows: seq<Candidate>): set<real>
  {
    set c | c in rows && c.odds1.Some? :: c.odds1.value
  }

  /** `rank(method="dense")`: the number of distinct odds not above `v`. */
  function DenseRank(v: real, values: set<real>): nat
  {
    |set w | w in values && w <= v|
  }

  /** Equal odds share a rank, and a present odds value is ranked from 1 to
      the number of distinct values. */
  lemma DenseRankRange(v: real, values: set<real>)
    requires v in values
    ensures 1 <= DenseRank(v, values) <= |values|
  {
    var below := set w | w in values && w <= v;
    assert v in below;
    assert values == below + (values - below);
  }

  /** Strictly smaller odds have a strictly smaller rank. */
  lemma DenseRankStrict(v: real, w: real, values: set<real>)
    requires w in values && v < w
    ensures DenseRank(v, values) < DenseRank(w, values)
  {
    var a := set x | x in values && x <= v;
    var b := set x | x in values && x <= w;
    assert a <= b;
    assert w in b - a;
    assert b == a + (b - a);
    assert |b - a| >= 1;
  }

  lemma {:induction false} Greatest(values: set<real>) returns (m: real)
    requires values != {}
    ensures m in values && forall x :: x in values ==> x <= m
    decreases |values|
  {
    if forall y :: y !in values {
      assert false;
    }
    var x :| x in values;
    if values == {x} {
      m := x;
    } else {
      var m' := Greatest(values - {x});
      m := if x > m' then x else m';
      forall y | y in values ensures y <= m {
        if y != x { assert y in values - {x}; }
      }
    }
  }

  /** The ranks have no gaps: every rank from 1 to the number of distinct
      odds belongs to some odds value. */
  lemma {:induction false} DenseRankOnto(values: set<real>, r: nat)
    requires 1 <= r <= |values|
    ensures exists v :: v in values && DenseRank(v, values) == r
    decreases |values|
  {
    var m := Greatest(values);
    assert (set w | w in values && w <= m) == values;
    if r < |values| {
      var rest := values - {m};
      DenseRankOnto(rest, r);
      var v :| v in rest && DenseRank(v, rest) == r;
      assert (set w | w in values && w <= v) == (set w | w in rest && w <= v) by {
        assert v < m;
      }
    }
  }

  /** A candidate with its odds rank and expected return, missing when the
      odds are. */
  datatype Scored = Scored(cand: Candidate, oddsRank: Option<nat>, expectedReturn: Option<real>)

  /** A ticket to buy. */
  datatype Vote = Vote(cand: Candidate, oddsRank: Option<nat>, expectedReturn: Option<real>, voteAmount: real)

  /** `pred_ticket * odds_1`: the expected return of a ticket with odds. */
  function ExpectedReturn(c: Candidate): real
    requires c.odds1.Some?
  {
    c.pred.predTicket * c.odds1.value
  }

  function Score(c: Candidate, values: set<real>): Scored
  {
    if c.odds1.Some? then Scored(c, Some(DenseRank(c.odds1.value, values)), Some(ExpectedReturn(c)))
    else Scored(c, None, None)
  }

  /** The query of `vote__expected_return`; a comparison with a missing
      value is false. */
  predicate Selected(s: Scored, predThreshold: real, returnThreshold: real, rankThreshold: int)
  {
    && s.cand.pred.predTicket >= predThreshold
    && s.expectedReturn.Some? && s.expectedReturn.value >= returnThreshold
    && s.oddsRank.Some? && s.oddsRank.value > rankThreshold
  }

  /** A candidate clears all three thresholds. */
  predicate Clears(c: Candidate, values: set<real>, predThreshold: real, returnThreshold: real, rankThreshold: int)
  {
    && c.odds1.Some?
    && c.pred.predTicket >= predThreshold
    && ExpectedReturn(c) >= returnThreshold
    && DenseRank(c.odds1.value, values) > rankThreshold
  }

  function Buy(s: Scored): Vote
  {
    Vote(s.cand, s.oddsRank, s.expectedReturn, 1.0)
  }

  /** The query of `vote__expected_return` over the scored rows, with the
      odds ranked among `values`: the candidates that clear the thresholds,
      in order, each bought with a stake of 1. */
  function SelectVotes(rows: seq<Candidate>, values: set<real>, predThreshold: real,
                       returnThreshold: real, rankThreshold: int): (r: seq<Vote>)
    ensures |r| <= |rows|
    ensures forall v :: v in r ==>
      && v.cand in rows && v.voteAmount == 1.0
      && Clears(v.cand, values, predThreshold, returnThreshold, rankThreshold)
      && v.oddsRank == Some(DenseRank(v.cand.odds1.value, values))
      && v.expectedReturn == Some(ExpectedReturn(v.cand))
    ensures forall c :: c in rows && Clears(c, values, predThreshold, returnThreshold, rankThreshold) ==>
      exists v :: v in r && v.cand == c
  {
    if rows == [] then []
    else
      var s := Score(rows[0], values);
      var rest := SelectVotes(rows[1..], values, predThreshold, returnThreshold, rankThreshold);
      assert forall c :: c in rows ==> c == rows[0] || c in rows[1..];
      assert Selected(s, predThreshold, returnThreshold, rankThreshold)
         <==> Clears(rows[0], values, predThreshold, returnThreshold, rankThreshold);
      if Selected(s, predThreshold, returnThreshold, rankThreshold) then
        var r := [Buy(s)] + rest;
        assert forall v :: v in r ==> v == Buy(s) || v in rest;
        assert Buy(s) in r && Buy(s).cand == rows[0];
        r
      else rest
  }

  /** The thresholds of `vote__expected_return` as a mask. */
  function ClearsAll(values: set<real>, predThreshold: real, returnThreshold: real, rankThreshold: int): Candidate -> bool
  {
    (c: Candidate) => Clears(c, values, predThreshold, returnThreshold, rankThreshold)
  }

  /** The votes are the clearing candidates bought one for one, in order. */
  lemma {:induction false} SelectVotesFilter(rows: seq<Candidate>, values: set<real>, predThreshold: real,
                                             returnThreshold: real, rankThreshold: int)
    ensures var kept := Filter(rows, ClearsAll(values, predThreshold, returnThreshold, rankThreshold));
      var r := SelectVotes(rows, values, predThreshold, returnThreshold, rankThreshold);
      && |r| == |kept|
      && forall k :: 0 <= k < |r| ==> r[k] == Buy(Score(kept[k], values))
  {
    if rows != [] {
      var clears := ClearsAll(values, predThreshold, returnThreshold, rankThreshold);
      SelectVotesFilter(rows[1..], values, predThreshold, returnThreshold, rankThreshold);
      var rest := SelectVotes(rows[1..], values, predThreshold, returnThreshold, rankThreshold);
      var s := Score(rows[0], values);
      assert Selected(s, predThreshold, returnThreshold, rankThreshold) <==> clears(rows[0]);
      if clears(rows[0]) {
        assert SelectVotes(rows, values, predThreshold, returnThreshold, rankThreshold) == [Buy(s)] + rest;
        assert Filter(rows, clears) == [rows[0]] + Filter(rows[1..], clears);
      } else {
        assert SelectVotes(rows, values, predThreshold, returnThreshold, rankThreshold) == rest;
        assert Filter(rows, clears) == Filter(rows[1..], clears);
      }
    }
  }

  /** `vote__expected_return` with its three thresholds as parameters: the
      odds are ranked among the race's own odds, and the result holds the
      candidates that clear the thresholds, each with its dense odds rank,
      its expected return (probability times odds) and a stake of 1. */
  function ExpectedReturnVote(rows: seq<Candidate>, predThreshold: real, returnThreshold: real,
                              rankThreshold: int): (r: seq<Vote>)
    ensures |r| <= |rows|
    ensures forall v :: v in r ==>
      && v.cand in rows && v.voteAmount == 1.0
      && Clears(v.cand, OddsValues(rows), predThreshold, returnThreshold, rankThreshold)
      && v.oddsRank == Some(DenseRank(v.cand.odds1.value, OddsValues(rows)))
      && v.expectedReturn == Some(ExpectedReturn(v.cand))
      && 1 <= v.oddsRank.value <= |OddsValues(rows)|
    ensures forall c :: c in rows && Clears(c, OddsValues(rows), predThreshold, returnThreshold, rankThreshold) ==>
      exists v :: v in r && v.cand == c
  {
    var r := SelectVotes(rows, OddsValues(rows), predThreshold, returnThreshold, rankThreshold);
    assert forall v :: v in r ==> 1 <= v.oddsRank.value <= |OddsValues(rows)| by {
      forall v | v in r
        ensures 1 <= v.oddsRank.value <= |OddsValues(rows)|
      {
        assert v.cand.odds1.value in OddsValues(rows);
        DenseRankRange(v.cand.odds1.value, OddsValues(rows));
      }
    }
    r
  }
}

=== FILE: vote_result.dfy ===
/** Evaluating the tickets bought (`vote_result.py`): each vote is joined
    with the payoff of its ticket, and the day is summed up as a count of
    votes and hits, a cost, an income and a profit. */
module VoteResults {
  import opened Wrappers
  import opened Tables
  import opened Parsers
  import opened Voting

  /** The join key of a vote: race, the three boats, bet type. */
  function VoteKey(v: Vote): Key
  {
    var p := v.cand.pred;
    [Str(p.raceId), Num(p.bracketNumber1), Opt(p.bracketNumber2), Opt(p.bracketNumber3), Num(p.betType)]
  }

  /** The same columns of a payoff row; a void race has no first boat. */
  function PayoffJoinKey(p: RacePayoff): Key
  {
    [Str(p.raceId), Opt(p.bracketNumber1), Opt(p.bracketNumber2), Opt(p.bracketNumber3), Num(p.betType)]
  }

  /** A vote with the payoff of its ticket and what the stake returned;
      both are missing (`NaN`) when no payoff row matched or the payoff
      itself is missing. */
  datatype VoteResult = VoteResult(vote: Vote, payoff: Option<real>, payoffAmount: Option<real>)

  function WithPayoff(v: Vote, m: Option<RacePayoff>): VoteResult
  {
    var payoff := if m.Some? then m.value.payoff else None;
    VoteResult(v, payoff, if payoff.Some? then Some(Returned(v.voteAmount, payoff.value)) else None)
  }

  /** The amount column is the stake times the payoff, and missing exactly
      when the payoff is. */
  predicate Priced(r: VoteResult)
  {
    && (r.payoffAmount.Some? <==> r.payoff.Some?)
    && (r.payoff.Some? ==> r.payoffAmount.value == Returned(r.vote.voteAmount, r.payoff.value))
  }

  /** `merge_vote_and_payoff`: a left join on race, boats and bet type, and
      the amount column `vote_amount * payoff`. */
  function MergeVoteAndPayoff(votes: seq<Vote>, payoffs: seq<RacePayoff>): (r: seq<VoteResult>)
    ensures forall x :: x in r ==> Priced(x) && x.vote in votes
  {
    var joined := LeftJoin(votes, payoffs, VoteKey, PayoffJoinKey, WithPayoff);
    var ok := (x: VoteResult) => Priced(x) && x.vote in votes;
    LeftJoinPreserves(votes, payoffs, VoteKey, PayoffJoinKey, WithPayoff, ok);
    joined
  }

  /** With one payoff row per ticket the merge keeps one row per vote, in
      order, priced by the payoff of the vote's own ticket. */
  lemma MergeUnique(votes: seq<Vote>, payoffs: seq<RacePayoff>)
    requires UniqueKeys(payoffs, PayoffJoinKey)
    ensures |MergeVoteAndPayoff(votes, payoffs)| == |votes|
    ensures forall i :: 0 <= i < |votes| ==>
      MergeVoteAndPayoff(votes, payoffs)[i].vote == votes[i]
      && MergeVoteAndPayoff(votes, payoffs)[i].payoff
         == PayoffOf(Lookup(VoteKey(votes[i]), payoffs, PayoffJoinKey))
  {
    LeftJoinUnique(votes, payoffs, VoteKey, PayoffJoinKey, WithPayoff);
  }

  function PayoffOf(m: Option<RacePayoff>): Option<real>
  {
    if m.Some? then m.value.payoff else None
  }

  /** Payoffs are never negative. */
  predicate NonNegative(payoffs: seq<RacePayoff>)
  {
    forall p :: p in payoffs && p.payoff.Some? ==> p.payoff.value >= 0.0
  }

  /** A merge of non-negative payoffs has non-negative payoffs. */
  lemma MergeNonNegative(votes: seq<Vote>, payoffs: seq<RacePayoff>)
    requires NonNegative(payoffs)
    ensures forall x :: x in MergeVoteAndPayoff(votes, payoffs) && x.payoff.Some? ==> x.payoff.value >= 0.0
  {
    var ok := (x: VoteResult) => x.payoff.Some? ==> x.payoff.value >= 0.0;
    LeftJoinPreserves(votes, payoffs, VoteKey, PayoffJoinKey, WithPayoff, ok);
  }

  /** The figures `evaluate_vote` reports: 投票数, 的中数, 費用, 収益, 利益. */
  datatype Summary = Summary(voteCount: nat, hitCount: nat, cost: real, income: real, profit: real)

  /** `vote_amount > 0`. */
  predicate Staked(r: VoteResult) { r.vote.voteAmount > 0.0 }

  /** `payoff_amount > 0`; a missing amount compares false. */
  predicate Hit(r: VoteResult) { r.payoffAmount.Some? && r.payoffAmount.value > 0.0 }

  function Cost(r: VoteResult): real { r.vote.voteAmount }

  /** `sum()` skips missing amounts. */
  function Income(r: VoteResult): real { if r.payoffAmount.Some? then r.payoffAmount.value else 0.0 }

  /** `evaluate_vote`: the votes are the rows with a stake, the hits the
      rows whose amount is positive, and the profit is the income less the
      cost. */
  function EvaluateVote(rows: seq<VoteResult>): (s: Summary)
    ensures s.voteCount == |Positions(rows, Staked)|
    ensures s.hitCount == |Positions(rows, Hit)|
    ensures s.voteCount <= |rows| && s.hitCount <= |rows|
    ensures s.profit == s.income - s.cost
  {
    CountIndices(rows, Staked);
    CountIndices(rows, Hit);
    var cost := Sum(rows, Cost);
    var income := Sum(rows, Income);
    Summary(Count(rows, Staked), Count(rows, Hit), cost, income, income - cost)
  }

  /** With no negative amount, the income is earned by the hits alone: the
      rows that missed, or have no amount, add nothing to it. */
  lemma IncomeFromHits(rows: seq<VoteResult>)
    requires forall r :: r in rows && r.payoffAmount.Some? ==> r.payoffAmount.value >= 0.0
    ensures EvaluateVote(rows).income == Sum(Filter(rows, Hit), Income)
  {
    forall i | 0 <= i < |rows| && !Hit(rows[i])
      ensures Income(rows[i]) == 0.0
    {
      assert rows[i] in rows;
    }
    SumFilterZero(rows, Income, Hit);
  }

  /** With non-negative payoffs every hit was staked, so there are no more
      hits than votes. */
  lemma HitsAtMostVotes(rows: seq<VoteResult>)
    requires forall r :: r in rows ==> Priced(r) && (r.payoff.Some? ==> r.payoff.value >= 0.0)
    ensures EvaluateVote(rows).hitCount <= EvaluateVote(rows).voteCount
  {
    forall i | 0 <= i < |rows| && Hit(rows[i])
      ensures Staked(rows[i])
    {
      assert rows[i] in rows;
    }
    CountMonotone(rows, Hit, Staked);
  }

  /** The evaluation of a merge: hits never outnumber votes. */
  lemma MergeHitsAtMostVotes(votes: seq<Vote>, payoffs: seq<RacePayoff>)
    requires NonNegative(payoffs)
    ensures EvaluateVote(MergeVoteAndPayoff(votes, payoffs)).hitCount
         <= EvaluateVote(MergeVoteAndPayoff(votes, payoffs)).voteCount
  {
    MergeNonNegative(votes, payoffs);
    HitsAtMostVotes(MergeVoteAndPayoff(votes, payoffs));
  }

  predicate VoteStaked(v: Vote) { v.voteAmount > 0.0 }

  function VoteCost(v: Vote): real { v.voteAmount }

  /** The payoff of the ticket a vote bought, if a payoff row matches it. */
  function TicketPayoff(payoffs: seq<RacePayoff>, v: Vote): Option<real>
  {
    PayoffOf(Lookup(VoteKey(v), payoffs, PayoffJoinKey))
  }

  /** The vote won: its ticket paid and the stake returned something. */
  function VoteHit(payoffs: seq<RacePayoff>): Vote -> bool
  {
    (v: Vote) => TicketPayoff(payoffs, v).Some? && Returned(v.voteAmount, TicketPayoff(payoffs, v).value) > 0.0
  }

  /** What the vote's stake returned, nothing when its ticket did not pay. */
  function VoteIncome(payoffs: seq<RacePayoff>): Vote -> real
  {
    (v: Vote) => if TicketPayoff(payoffs, v).Some? then Returned(v.voteAmount, TicketPayoff(payoffs, v).value) else 0.0
  }

  /** With one payoff row per ticket the join neither adds nor drops
      stakes: the vote count and the cost are those of the votes alone, and
      the hits and the income those of each vote's own ticket. */
  lemma EvaluateUnique(votes: seq<Vote>, payoffs: seq<RacePayoff>)
    requires UniqueKeys(payoffs, PayoffJoinKey)
    ensures EvaluateVote(MergeVoteAndPayoff(votes, payoffs)).voteCount == Count(votes, VoteStaked)
    ensures EvaluateVote(MergeVoteAndPayoff(votes, payoffs)).cost == Sum(votes, VoteCost)
    ensures EvaluateVote(MergeVoteAndPayoff(votes, payoffs)).hitCount == Count(votes, VoteHit(payoffs))
    ensures EvaluateVote(MergeVoteAndPayoff(votes, payoffs)).income == Sum(votes, VoteIncome(payoffs))
  {
    var rows := MergeVoteAndPayoff(votes, payoffs);
    MergeUnique(votes, payoffs);
    CountPointwise(rows, Staked, votes, VoteStaked);
    SumPointwise(rows, Cost, votes, VoteCost);
    forall i | 0 <= i < |rows|
      ensures Hit(rows[i]) == VoteHit(payoffs)(votes[i])
      ensures Income(rows[i]) == VoteIncome(payoffs)(votes[i])
    {
      assert rows[i] in rows;
    }
    CountPointwise(rows, Hit, votes, VoteHit(payoffs));
    SumPointwise(rows, Income, votes, VoteIncome(payoffs));
  }
}

=== FILE: wrappers.dfy ===
/** Optional values and results that carry an error: the two shapes every
    parser and ledger operation of the model returns. */
module Wrappers {

  /** A value that may be missing: a null cell, an absent match. */
  datatype Option<+T> = None | Some(value: T) {
    predicate IsFailure() { None? }

    function PropagateFailure<U>(): Option<U>
      requires None?
    {
      None
    }

    function Extract(): T
      requires Some?
    {
      value
    }

    function GetOr(default: T): T {
      match this
      case Some(v) => v
      case None => default
    }

    function ToResult<E>(error: E): Result<T, E> {
      match this
      case Some(v) => Ok(v)
      case None => Err(error)
    }
  }

  /** The outcome of an operation that raises in the source. */
  datatype Result<+T, +E> = Ok(value: T) | Err(error: E) {
    predicate IsFailure() { Err? }

    function PropagateFailure<U>(): Result<U, E>
      requires Err?
    {
      Err(error)
    }

    function Extract(): T
      requires Ok?
    {
      value
    }
  }
}
